=== FILE: README.md ===
# employee_self_service business rules in Dafny

This project models the business-rule core of the Frappe add-on `employee_self_service`.
The add-on gives employees a mobile self-service app and derives their daily attendance
from check-in logs. Database reads become parameters, database writes become returned
records, and every rule is a total function over small datatypes, sequences and maps.

The model covers the following parts of the add-on:

- **Attendance derivation.** The first IN and the last OUT of a day. The pending-approval
  gate. Routing by staff type (Worker at Site, Worker elsewhere, driver, generic path).
  The location threshold rules in their fixed order, with escalation to Half Day. Working
  hours, in exact seconds and never negative.
- **Late marks.** The month-to-date late count, the monthly deduction tiers, and check-in
  clamping to shift bounds unless an Allowed Overtime entry permits it.
- **ERP sync.** The sync queue state machine (Pending, Processing, Completed, Failed),
  the manual-retry guard, the bounded sweep, and the receivers that upsert by business key.
- **Approvals.** Approve and reject guards for OTPL Leave, OTPL Expense, Employee Checkin
  and Leave Pull, and the balanced journal entry of an approved expense.
- **Employee fields.** The worker/manager field copy and its exclusivity invariant, and
  the employee flags derived from user roles.
- **Smaller rules.** URL normalisation, `sbool`/`cast`/time parsing, the month calendar,
  leave-balance arithmetic, device registration, task action flags, work-progress
  filters, employee-group filters, notification recipients, and push-notification
  options and users.

Time is a natural number of seconds (`Clock.Instant`); the day is `t / 86400` and the time
of day `t % 86400`. Dates are `Clock.Date` values in the proleptic Gregorian calendar.
Python truthiness is spelled out: `Text.Truthy` for optional strings, `V12Compatible.Truthy`
for dynamically typed values, and `ShiftRules.Active` for a Time field, where 00:00:00 is
falsy. An exception becomes `Err` with the exception's message.

Three facts about the code shape the model:

- Without location rules the shift-rule evaluator only ever returns Present, with a flag
  for each missing log. A day with neither log is marked Absent earlier, by
  `process_employee_attendance` (`ShiftRules.DecideWithoutRules`, `DailyAttendance.GenericPath`).
- The monthly deduction computes half a day more for every late mark past the full-day
  tier, but the leave it writes spans a single day, with `half_day` as the only trace of
  the amount. See Findings.
- The Worker rules are reached from the daily job only through an import of a function
  the Worker module does not define. See Findings.

## Model

| member | source | states |
|---|---|---|
| CheckinLog.FirstIn | employee_self_service/employee_self_service/utils/daily_attendance.py:149-154 | the check-in is the time of the first IN row scanning forward; None exactly when the day has no IN |
| CheckinLog.LastOut | employee_self_service/employee_self_service/utils/daily_attendance.py:156-160 | the check-out is the time of the last OUT row scanning backward; None exactly when the day has no OUT |
| CheckinLog.FirstInIsEarliest | employee_self_service/employee_self_service/doctype/attendance_processor/attendance_processor.py:115-143 | in a time-ordered day the chosen check-in is no later than any IN of the day |
| CheckinLog.LastOutIsLatest | employee_self_service/employee_self_service/doctype/attendance_processor/attendance_processor.py:115-143 | in a time-ordered day the chosen check-out is no earlier than any OUT of the day |
| CheckinLog.FirstInAppend | employee_self_service/employee_self_service/utils/daily_attendance.py:149-154 | rows appended later in the day never change an existing first IN |
| CheckinLog.LastOutPrepend | employee_self_service/employee_self_service/utils/daily_attendance.py:156-160 | rows earlier in the day never change an existing last OUT |
| ShiftRules.EscalationThreshold | employee_self_service/employee_self_service/utils/daily_attendance.py:255-260 | `treat_late_as_half_day_after`, with 5 when it is unset or 0 |
| ShiftRules.DecideWithoutRules | employee_self_service/employee_self_service/utils/daily_attendance.py:238-247 | without location rules the day stays Present; a missing IN or OUT sets the flag and its remark; no remarks means no flags |
| ShiftRules.DetermineStatus | employee_self_service/employee_self_service/utils/daily_attendance.py:255-344 | Half Day iff a half-day cutoff (`>=` arrival, `<=` departure) hits, or escalation is on and a log is missing or late (`>`) or early (`<`); the flags as the rule chain leaves them; never Absent |
| ShiftRules.WorkedSeconds | employee_self_service/employee_self_service/utils/daily_attendance.py:201-211 | zero unless both logs exist; OUT minus IN otherwise, clamped at zero |
| DailyAttendance.RulesFor | employee_self_service/employee_self_service/utils/daily_attendance.py:189-193 | location rules apply only for a non-empty location that names an ESS Location |
| DailyAttendance.DecideDay | employee_self_service/employee_self_service/utils/daily_attendance.py:227-253 | without rules only missing logs are flagged; with rules Half Day iff a cutoff hits or, once the month count reaches the threshold, a log is missing, late or early; the flags as the rule chain leaves them; never Absent; no remarks iff a plain Present day |
| DailyAttendance.GenericPath | employee_self_service/employee_self_service/utils/daily_attendance.py:116-224 | no-check-in staff are Present with no hours; a pending log skips; no logs, or a missing log for non-Worker staff at a non-Site location, is Absent; otherwise the record's status, late and early flags and remarks are those `DecideDay` gives for the first IN, the last OUT, the location's rules and the month's late count, and its hours are the worked seconds of that pair |
| DailyAttendance.ProcessEmployeeAttendance | employee_self_service/employee_self_service/utils/daily_attendance.py:76-224 | leave-linked attendance skips the day; other existing attendance is cancelled; Workers go to the Worker rules, everyone else to the generic path |
| DailyAttendance.ProcessEmployeeAttendanceAsWritten | employee_self_service/employee_self_service/utils/daily_attendance.py:110-112 | as written every day not covered by leave fails on the import, after the existing attendance was cancelled |
| DailyAttendance.AsWrittenFailsWhereCorrectedDecides | employee_self_service/employee_self_service/utils/daily_attendance.py:93-112 | the as-written and corrected versions agree exactly on leave-covered days |
| DailyAttendance.CountsCoverAll | employee_self_service/employee_self_service/utils/daily_attendance.py:34-41 | every result lands in exactly one of the four counters |
| DailyAttendance.ProcessDailyAttendance | employee_self_service/employee_self_service/utils/daily_attendance.py:11-73 | a company holiday gives all-zero counts; otherwise each counter is the number of results of its kind and the counters add up to the number of employees |
| LateMarks.LateMarksBetween | employee_self_service/employee_self_service/doctype/attendance_processor/attendance_processor.py:464-478 | the number of the employee's late or early-exit days in the closed range; zero iff there is none; with LateMarksSplit and LateMarksOne this fixes the count |
| LateMarks.MonthLateCount | employee_self_service/employee_self_service/utils/daily_attendance.py:356-380 | late marks from the first of the month to the day before; zero iff there is none; MonthLateCountCons gives the exact count |
| LateMarks.LateMarksSplit | employee_self_service/employee_self_service/doctype/attendance_processor/attendance_processor.py:464-478 | the late marks of two runs of records add up |
| LateMarks.LateMarksOne | employee_self_service/employee_self_service/doctype/attendance_processor/attendance_processor.py:464-478 | one record counts 1 iff it is the employee's late or early-exit day inside the range |
| LateMarks.MonthLateCountCons | employee_self_service/employee_self_service/utils/daily_attendance.py:356-380 | one more record adds 1 iff it is the employee's late mark earlier in the same month, so the month count is the number of such records |
| LateMarks.MonthLateCountFirstDay | employee_self_service/employee_self_service/utils/daily_attendance.py:356-380 | on the first day of a month the count is zero |
| LateMarks.HalfDayTier | employee_self_service/employee_self_service/doctype/attendance_processor/attendance_processor.py:459 | `late_count_for_half_day`, with 3 when it is unset |
| LateMarks.FullDayTier | employee_self_service/employee_self_service/doctype/attendance_processor/attendance_processor.py:460 | `late_count_for_full_day`, with 5 when it is unset |
| LateMarks.DeductionHalfDays | employee_self_service/employee_self_service/doctype/attendance_processor/attendance_processor.py:480-489 | from the full tier on, one day plus half a day per extra mark; from the half tier, half a day; otherwise nothing |
| LateMarks.DeductionMonotone | employee_self_service/employee_self_service/doctype/attendance_processor/attendance_processor.py:480-489 | more late marks never give a smaller deduction |
| LateMarks.DeductionDescription | employee_self_service/employee_self_service/doctype/attendance_processor/attendance_processor.py:498 | the description carries the "Auto-deducted" tag, in any case, that the duplicate test looks for |
| LateMarks.MonthlyDeduction | employee_self_service/employee_self_service/doctype/attendance_processor/attendance_processor.py:444-534 | no location skips and missing location rules fail; with both present the run succeeds; an approved, submitted leave on the period's last day for the full deduction, `half_day` iff it is half a day, and none when there is nothing to deduct or an auto-deduction already exists |
| LateMarks.MonthlyDeductionIdempotent | employee_self_service/employee_self_service/doctype/attendance_processor/attendance_processor.py:505-515 | once its leave is stored, running the deduction again creates nothing |
| LateMarks.MonthlyDeductionAsWritten | employee_self_service/employee_self_service/doctype/attendance_processor/attendance_processor.py:517-526 | as written the leave covers one day, or half a day when `half_day` is set, whatever the count |
| LateMarks.AsWrittenDeductionUndercounts | employee_self_service/employee_self_service/doctype/attendance_processor/attendance_processor.py:480-526 | seven late marks call for two days, but the leave written covers one |
| LateMarks.CountAllMarks | employee_self_service/employee_self_service/doctype/attendance_processor/attendance_processor.py:464-478 | when every row is a late mark inside the range, all of them count |
| AttendanceRecord.AbsentRecord | employee_self_service/employee_self_service/utils/daily_attendance.py:163-173 | an Absent record has no flags and no hours |
| WorkerAttendance.ProcessWorkerSite | employee_self_service/employee_self_service/utils/worker_attendance.py:53-95 | at a Site any row of the day gives Present and no row gives Absent, with no hours and no flags |
| WorkerAttendance.ProcessWorkerNonSite | employee_self_service/employee_self_service/utils/worker_attendance.py:97-196 | skipped on a holiday without permitted overtime or with a pending log; Absent without both logs; otherwise Present with OUT minus IN clamped at zero and no flags |
| WorkerAttendance.RunWorkerAttendance | employee_self_service/employee_self_service/utils/worker_attendance.py:36-46 | at "Site" the day is what `ProcessWorkerSite` gives (Present iff it has a row); elsewhere it is what `ProcessWorkerNonSite` gives for the holiday, the overtime and the logs; never an error |
| WorkerAttendance.ValidateWorkerCheckin | employee_self_service/employee_self_service/utils/worker_attendance.py:198-278 | non-Workers and Site staff pass unchanged; a holiday without overtime is refused; an early IN or a late OUT is moved to the shift bound on the same day unless overtime permits it |
| WorkerAttendance.ValidateIdempotent | employee_self_service/employee_self_service/utils/worker_attendance.py:254-271 | validating an already adjusted time changes nothing more |
| DriverAttendance.AfterBreak | employee_self_service/employee_self_service/utils/driver_attendance.py:98-99 | the half-hour break comes off only above half an hour, so the result is never negative |
| DriverAttendance.EffectiveCheckOut | employee_self_service/employee_self_service/utils/driver_attendance.py:82-83 | the last OUT, or 18:00 on the processed day |
| DriverAttendance.RunDriverAttendance | employee_self_service/employee_self_service/utils/driver_attendance.py:26-112 | a pending log skips; no IN is Absent with no hours; otherwise Present, no flags, hours after the break |
| DriverAttendance.RunDriverAttendanceAsWritten | employee_self_service/employee_self_service/utils/driver_attendance.py:68-110 | as written every non-skipped day fails on the keyword arguments the record writer rejects |
| DriverAttendance.DriverAsWrittenNeverRecords | employee_self_service/employee_self_service/utils/driver_attendance.py:68-110 | as written no driver attendance is recorded, while the corrected rule always records one |
| AttendanceProcessor.ValidateSave | employee_self_service/employee_self_service/doctype/attendance_processor/attendance_processor.py:13-18 | a Completed document cannot be saved again as Completed |
| AttendanceProcessor.CancelExisting | employee_self_service/employee_self_service/doctype/attendance_processor/attendance_processor.py:375-395 | exactly the attendance rows without a leave application are cancelled |
| AttendanceProcessor.LeaveLinkedNeverCancelled | employee_self_service/employee_self_service/doctype/attendance_processor/attendance_processor.py:388-393 | leave-linked attendance is never cancelled |
| AttendanceProcessor.DetermineAttendanceStatus | employee_self_service/employee_self_service/doctype/attendance_processor/attendance_processor.py:145-233 | no logs is Absent with both flags; otherwise unset shift times fail; with shift times the day is never Absent and Half Day and the flags follow the closed form of the location rules, escalating once the month count reaches the threshold |
| AttendanceProcessor.DetermineAttendanceStatusAsWritten | employee_self_service/employee_self_service/doctype/attendance_processor/attendance_processor.py:155-156 | as written a day without logs is an error; other days agree with the corrected function |
| AttendanceProcessor.CreateAttendanceSeconds | employee_self_service/employee_self_service/doctype/attendance_processor/attendance_processor.py:349-367 | hours only when both times exist and OUT is later, equal to the difference |
| AttendanceProcessor.CreateAttendanceAgreesWithDaily | employee_self_service/employee_self_service/doctype/attendance_processor/attendance_processor.py:349-367 | the processor writes the same hours as the daily job |
| AttendanceProcessor.ProcessAttendanceForEmployee | employee_self_service/employee_self_service/doctype/attendance_processor/attendance_processor.py:59-105 | skips in the order holiday, approved leave, missing location; a location without its document is an error; past the guards the day is processed iff it has no log or both shift times are set; a processed day is Absent iff it has no log, carries the status decision, OUT minus IN as hours and cancels exactly the attendance without leave |
| AttendanceProcessor.ProcessAttendanceForEmployeeAsWritten | employee_self_service/employee_self_service/doctype/attendance_processor/attendance_processor.py:88-93 | as written a day without logs is never processed |
| AttendanceProcessor.NoLogDayIsErrorAsWritten | employee_self_service/employee_self_service/doctype/attendance_processor/attendance_processor.py:91-93 | as written a working day without logs ends in an error where the corrected version records Absent |
| AttendanceProcessor.ProcessManually | employee_self_service/employee_self_service/doctype/attendance_processor/attendance_processor.py:21-57 | a Completed document is refused; otherwise it ends Completed |
| AttendanceProcessor.CompletedIsFinal | employee_self_service/employee_self_service/doctype/attendance_processor/attendance_processor.py:26-27 | a processed document can be neither processed again nor saved again as Completed |
| AttendanceProcessor.BucketOf | employee_self_service/employee_self_service/doctype/attendance_processor/attendance_processor.py:550-559 | a result counts as skipped iff it is a skip or an error whose message contains "Skipped", as an error iff it is any other error, and as processed otherwise |
| AllowedOvertime.Validate | employee_self_service/employee_self_service/doctype/allowed_overtime/allowed_overtime.py:12-21 | a new entry is refused iff another exists for the same employee and date, with a message naming both |
| AllowedOvertime.Insert | employee_self_service/employee_self_service/doctype/allowed_overtime/allowed_overtime.py:12-21 | an insert succeeds iff there is no clash, and then appends the entry |
| AllowedOvertime.InsertKeepsUnique | employee_self_service/employee_self_service/doctype/allowed_overtime/allowed_overtime.py:12-21 | inserts keep at most one entry per employee and date |
| AllowedOvertime.Update | employee_self_service/employee_self_service/doctype/allowed_overtime/allowed_overtime.py:12 | edits are not checked and replace the stored entry of that name |
| AllowedOvertime.EditCanDuplicate | employee_self_service/employee_self_service/doctype/allowed_overtime/allowed_overtime.py:12 | an edit can put two entries on the same employee and date |
| AutoCheckout.LatestOfType | employee_self_service/employee_self_service/utils/auto_checkout.py:29-43 | the latest time of the given log type for the employee and day, None iff there is none |
| AutoCheckout.NeedsAutoOutMeansOpenDay | employee_self_service/employee_self_service/utils/auto_checkout.py:49 | an OUT is due iff some IN of the day is later than every OUT of the day |
| AutoCheckout.Gets | employee_self_service/employee_self_service/utils/auto_checkout.py:14-49 | an employee gets an OUT iff they are an Active Site employee whose day is open |
| AutoCheckout.Chosen | employee_self_service/employee_self_service/utils/auto_checkout.py:47-59 | the chosen names are exactly the flagged employees, without repeats |
| AutoCheckout.AutoCheckoutSiteEmployees | employee_self_service/employee_self_service/utils/auto_checkout.py:5-76 | one automatic OUT at the run time for each employee that gets one, at most one per employee |
| OtplAttendance.AfterCheckinInsert | employee_self_service/employee_self_service/utils/otpl_attendance.py:3-7 | approval is required iff the check-in is requested from someone with a reason, and the manager is that person's user |
| OtplAttendance.AsReprocessed | employee_self_service/employee_self_service/utils/otpl_attendance.py:58 | the employee as reprocessing sees it: same name and location, `no_check_in` off and no staff type, since only employee, location and date are passed |
| OtplAttendance.Reprocess | employee_self_service/employee_self_service/utils/otpl_attendance.py:52-58 | reprocessing after the existing attendance is cancelled never fails and is the generic path of the daily job for that employee |
| OtplAttendance.ReprocessingDropsNoCheckIn | employee_self_service/employee_self_service/utils/otpl_attendance.py:58 | a no-check-in employee with no logs is Present under the daily job but is marked Absent when an approval reprocesses the day |
| OtplAttendance.ApproveCheckinGiven | employee_self_service/employee_self_service/utils/otpl_attendance.py:10-73 | the approval for any reprocessing outcome: the permission check both ways, the replaced time, leave-linked attendance blocking, cancellation exactly of unlinked attendance, and a failed reprocess reported as failed but still approved |
| OtplAttendance.ApproveCheckin | employee_self_service/employee_self_service/utils/otpl_attendance.py:10-73 | only Administrator or the manager may approve; the time is replaced when given; leave-linked attendance blocks reprocessing; otherwise the note is the day as `Reprocess` computes it for the employee |
| OtplAttendance.ApprovalAlwaysReportsFailureAsWritten | employee_self_service/employee_self_service/utils/otpl_attendance.py:58-73 | with the daily job as written an authorised approval outside leave days always reports that reprocessing failed |
| ErpSync.Endpoint | employee_self_service/employee_self_service/utils/erp_sync.py:595-603 | a receiving method exists only for Employee Pull, Sales Order Pull and Leader Location |
| ErpSync.HandleSyncError | employee_self_service/employee_self_service/utils/erp_sync.py:642-683 | one more attempt is used, the message is kept, and the item is Pending while attempts remain and Failed after |
| ErpSync.ProcessTo | employee_self_service/employee_self_service/utils/erp_sync.py:529-581 | a Completed item is untouched; settings that cannot be loaded go to the error handler with the not-found message; disabled settings fail it with the disabled message without using an attempt; a payload that does not parse goes to the error handler with the parser's own message; a delivered item of a routable doctype is Completed with a clear log; any other failure goes to the error handler with the given message; it never stays Processing |
| ErpSync.ProcessSyncQueueItem | employee_self_service/employee_self_service/utils/erp_sync.py:529-581 | every branch of `ProcessTo` with "Failed to sync with remote ERP": Completed untouched, missing settings and bad payloads to the error handler with their messages, disabled settings Failed, delivery Completed with a clear log; never left Processing |
| ErpSync.ProcessSyncQueueItemEmployee | employee_self_service/employee_self_service/utils/erp_sync.py:870-920 | the same branches with the Employee message: Completed untouched, missing settings and bad payloads to the error handler, disabled settings Failed, a delivered item Completed with a clear log, a failed delivery to the error handler |
| ErpSync.ProcessSyncQueueItemSalesOrder | employee_self_service/employee_self_service/utils/erp_sync.py:922-971 | the same branches with the Sales Order message: Completed untouched, missing settings and bad payloads to the error handler, disabled settings Failed, a delivered item Completed with a clear log, a failed delivery to the error handler |
| ErpSync.RetrySyncQueueItem | employee_self_service/employee_self_service/utils/erp_sync.py:685-708 | only a Failed item with attempts left returns to Pending; otherwise nothing changes |
| ErpSync.HandledFailureNotRetryable | employee_self_service/employee_self_service/utils/erp_sync.py:691-707 | an item failed by the error handler can never be retried by hand |
| ErpSync.TransitionsKeepInvariant | employee_self_service/employee_self_service/utils/erp_sync.py:529-708 | every transition keeps "retryable only when stopped by disabled settings" |
| ErpSync.FailuresExhaustRetries | employee_self_service/employee_self_service/utils/erp_sync.py:648-671 | repeated failures end in Failed with every attempt used, no longer swept or retryable |
| ErpSync.SelectPending | employee_self_service/employee_self_service/utils/erp_sync.py:718-724 | at most 100 items, all Pending with attempts left, and all of them when fewer than 100 qualify |
| ErpSync.Sweepables | employee_self_service/employee_self_service/utils/erp_sync.py:718-724 | exactly the Pending items with attempts left |
| ErpReceivers.Upsert | employee_self_service/employee_self_service/utils/erp_sync.py:25-49 | the row replaces the one with its key or is appended; other rows are kept; unique keys stay unique |
| ErpReceivers.ReceiveEmployeePull | employee_self_service/employee_self_service/utils/erp_sync.py:16-60 | succeeds iff employee and company are present, storing the record under "employee-company"; a missing employee fails with the TypeError of `None + str`, a missing company with that of `str + None` |
| ErpReceivers.ReceiveEmployeePullIdempotent | employee_self_service/employee_self_service/utils/erp_sync.py:25-49 | receiving the same payload twice leaves the table as once |
| ErpReceivers.ReceiveEmployeePullSingleRow | employee_self_service/employee_self_service/utils/erp_sync.py:25-49 | after a receive exactly one row carries the key |
| ErpReceivers.ReceiveSalesOrderPull | employee_self_service/employee_self_service/utils/erp_sync.py:63-103 | succeeds iff sales order and company are present, upserting under "sales_order-company"; a missing sales order or company fails with the matching TypeError text |
| ErpReceivers.FindPull | employee_self_service/employee_self_service/utils/erp_sync.py:118-125 | finds an Employee Pull iff one matches employee and company |
| ErpReceivers.ReceiveLeaderLocation | employee_self_service/employee_self_service/utils/erp_sync.py:106-154 | fails without employee and company or without a matching pull; otherwise appends a new record |
| ErpReceivers.LeaderLocationNotIdempotent | employee_self_service/employee_self_service/utils/erp_sync.py:127-143 | receiving the same location twice stores two records |
| ErpSyncSettings.ValidateUrl | employee_self_service/employee_self_service/doctype/erp_sync_settings/erp_sync_settings.py:12-18 | an empty URL is kept; otherwise trailing '/' are stripped and the result must start with http:// or https:// |
| ErpSyncSettings.BareSchemeRejected | employee_self_service/employee_self_service/doctype/erp_sync_settings/erp_sync_settings.py:14-18 | "http://" and "https://" are refused, since stripping leaves no scheme |
| ErpSyncSettings.ValidateUrlIdempotent | employee_self_service/employee_self_service/doctype/erp_sync_settings/erp_sync_settings.py:12-18 | validating an accepted URL again changes nothing |
| EmployeeWorkerSync.FromManager | employee_self_service/employee_self_service/utils/employee_worker_sync.py:53-105 | a worker takes the internal or the external field group of its manager and clears the other |
| EmployeeWorkerSync.FromConsistentManager | employee_self_service/employee_self_service/utils/employee_worker_sync.py:53-105 | a manager whose groups are already exclusive is copied unchanged |
| EmployeeWorkerSync.FromPull | employee_self_service/employee_self_service/utils/employee_worker_sync.py:56-68 | external values from an Employee Pull, with `external_order` = sales order "-" company; a missing sales order or company is the TypeError the concatenation raises |
| EmployeeWorkerSync.UpdateSingleWorker | employee_self_service/employee_self_service/utils/employee_worker_sync.py:47-116 | no manager clears every copied field; otherwise the manager's or the pull's fields; always exclusive |
| EmployeeWorkerSync.OnLeave | employee_self_service/employee_self_service/utils/employee_worker_sync.py:17-24 | On Leave reports to the default manager, at that manager's location or "Noida" |
| EmployeeWorkerSync.SyncWorkerFieldsBeforeSave | employee_self_service/employee_self_service/utils/employee_worker_sync.py:9-32 | both managers set is an error; an external manager forces the external flag; Worker fields end exclusive |
| EmployeeWorkerSync.SaveAll | employee_self_service/employee_self_service/utils/employee_worker_sync.py:149-169 | the save loop succeeds iff every step does, keeps the order and length, and on failure reports the first step that raised |
| EmployeeWorkerSync.UpdateWorkersUnderTeamLeader | employee_self_service/employee_self_service/utils/employee_worker_sync.py:119-175 | only a team leader updates anyone; it succeeds iff every selected worker's save succeeds, and then each selected worker is what its save gives after taking the leader's fields, and everyone else is unchanged |
| EmployeeWorkerSync.UpdateWorkersFromEmployeePull | employee_self_service/employee_self_service/utils/employee_worker_sync.py:178-226 | with no worker referencing the record nothing changes; a record that cannot give fields fails; otherwise it succeeds iff every selected save succeeds, each selected worker is what its save gives after taking the record's values, and everyone else is unchanged |
| EmployeeWorkerSync.LeaderFieldsReachPlainWorkers | employee_self_service/employee_self_service/utils/employee_worker_sync.py:149-169 | a plain worker under the leader ends with the leader's fields once the save succeeds |
| EmployeeWorkerSync.BothManagersAbortTeamLeaderUpdate | employee_self_service/employee_self_service/utils/employee_worker_sync.py:26-32 | a selected worker with an external manager as well makes the save raise, aborting the whole update |
| EmployeeWorkerSync.PullFieldsReachPlainWorkers | employee_self_service/employee_self_service/utils/employee_worker_sync.py:208-220 | a worker referencing the record and no internal manager ends with the record's values once the save succeeds |
| UserRoleSync.Flag | employee_self_service/employee_self_service/utils/user_role_sync.py:27-29 | a flag is 1 iff the user holds the role |
| UserRoleSync.SyncEmployeeFieldsFromUserRoles | employee_self_service/employee_self_service/utils/user_role_sync.py:9-45 | nothing changes without a user or a linked employee; otherwise each flag mirrors its role |
| UserRoleSync.FlagsIgnoreOtherRoles | employee_self_service/employee_self_service/utils/user_role_sync.py:27-29 | other roles never change the flags |
| EmployeeSalary.BasicSalary | employee_self_service/employee_self_service/utils/employee.py:8-11 | half a positive advance, otherwise zero; never negative and below a positive advance |
| EmployeeSalary.BasicSalaryMonotone | employee_self_service/employee_self_service/utils/employee.py:8-11 | a larger advance never gives a smaller basic salary |
| OtplApproval.LeaveGuard | employee_self_service/mobile/v1/approvals/otpl_approval.py:77-84 | a leave may be decided only by its approver and only while Pending |
| OtplApproval.ApproveOtplLeave | employee_self_service/mobile/v1/approvals/otpl_approval.py:49-100 | 200 iff name and both dates are given and the guard passes; then status Approved with the two dates; otherwise nothing changes |
| OtplApproval.RejectOtplLeave | employee_self_service/mobile/v1/approvals/otpl_approval.py:103-145 | 200 iff the guard passes; then only the status becomes Rejected |
| OtplApproval.ApproveOtplLeaveAsWritten | employee_self_service/mobile/v1/approvals/otpl_approval.py:49-100 | as written the request checks answer as corrected, and every request naming an existing leave fails with the OTPL Leave controller's ImportError |
| OtplApproval.RejectOtplLeaveAsWritten | employee_self_service/mobile/v1/approvals/otpl_approval.py:103-145 | as written every rejection naming an existing leave fails with the same ImportError |
| OtplApproval.AsWrittenNeverDecidesLeave | employee_self_service/employee_self_service/doctype/otpl_leave/otpl_leave.py:8 | every approval or rejection the corrected endpoints accept, and every approver or status refusal, fails as written |
| OtplApproval.LeaveDecidedOnce | employee_self_service/mobile/v1/approvals/otpl_approval.py:77-84 | a decided leave can be neither approved nor rejected again |
| OtplApproval.ApproveOtplExpense | employee_self_service/mobile/v1/approvals/otpl_approval.py:187-239 | 200 iff a numeric amount is positive, the caller is the approval manager and the expense is not yet approved; then the amount and the flag are set; an amount sent as text and not positive is refused as not greater than zero |
| OtplApproval.ExpenseApprovedOnce | employee_self_service/mobile/v1/approvals/otpl_approval.py:220-225 | an approved expense cannot be approved again |
| OtplApproval.CheckinGuard | employee_self_service/mobile/v1/approvals/otpl_approval.py:307-316 | a check-in may be decided only by its manager and only while not approved |
| OtplApproval.ApproveEmployeeCheckinGiven | employee_self_service/mobile/v1/approvals/otpl_approval.py:287-376 | for any reprocessing outcome: 200 iff the guard passes, the check-in approved, leave-linked attendance blocking, and a failed reprocess still 200 |
| OtplApproval.ApproveEmployeeCheckin | employee_self_service/mobile/v1/approvals/otpl_approval.py:287-376 | 200 iff the guard passes; the check-in is approved; leave-linked attendance blocks reprocessing; otherwise the reply is the approval message and the note is the day as `OtplAttendance.Reprocess` computes it |
| OtplApproval.RejectEmployeeCheckin | employee_self_service/mobile/v1/approvals/otpl_approval.py:379-416 | 200 iff the guard passes, and then the check-in is deleted |
| OtplApproval.AdministratorOnlyAtDesk | employee_self_service/mobile/v1/approvals/otpl_approval.py:307-316 | Administrator may approve through the desk action but not through the mobile endpoint |
| OtplApproval.ApprovedCheckinIsFinal | employee_self_service/mobile/v1/approvals/otpl_approval.py:400-405 | an approved check-in can be neither approved nor rejected again |
| OtplExpense.ApproveExpense | employee_self_service/employee_self_service/doctype/otpl_expense/otpl_expense.py:10-17 | only the approval manager or Administrator may approve, and only a positive amount |
| OtplExpense.CreateJv | employee_self_service/employee_self_service/doctype/otpl_expense/otpl_expense.py:52-103 | a balanced two-line entry for the approved amount, crediting the submitter, iff both accounts are configured |
| OtplExpense.OnSubmit | employee_self_service/employee_self_service/doctype/otpl_expense/otpl_expense.py:19-24 | submitting needs manager approval, and then the journal entry |
| OtplExpense.ApprovedExpenseSubmits | employee_self_service/employee_self_service/doctype/otpl_expense/otpl_expense.py:10-24 | an approved expense with configured accounts submits |
| LeavePull.PushesStatus | employee_self_service/employee_self_service/doctype/leave_pull/leave_pull.py:12-22 | back-sync runs iff the source ERP is set and the status changed |
| LeavePull.ApprovedDays | employee_self_service/employee_self_service/doctype/leave_pull/leave_pull.py:40 | the inclusive day count; at least 1 iff the range is not reversed |
| LeavePull.ApproveLeave | employee_self_service/employee_self_service/doctype/leave_pull/leave_pull.py:26-51 | needs both dates; then status Approved with the dates and day count, pushed back iff sourced and newly approved |
| LeavePull.ReapprovalDoesNotPush | employee_self_service/employee_self_service/doctype/leave_pull/leave_pull.py:21-22 | approving an Approved leave again does not push its status |
| LeavePull.ApproveLeaveAsWritten | employee_self_service/employee_self_service/doctype/leave_pull/leave_pull.py:9 | as written the module's import of a missing helper fails every approval |
| LeavePull.AsWrittenRejectsEveryApproval | employee_self_service/employee_self_service/doctype/leave_pull/leave_pull.py:9 | every approval the corrected version accepts fails as written |
| AttendanceCalendar.ShownStatus | employee_self_service/mobile/v1/attendance/__init__.py:201 | "On Leave" is shown as "Absent"; other statuses are unchanged |
| AttendanceCalendar.RecordEntries | employee_self_service/mobile/v1/attendance/__init__.py:198-201 | one entry per recorded date, the last record winning, never "On Leave" |
| AttendanceCalendar.MonthDates | employee_self_service/mobile/v1/attendance/__init__.py:204-205 | the dates 1..days of the month |
| AttendanceCalendar.BuildAttendanceData | employee_self_service/mobile/v1/attendance/__init__.py:193-211 | every day of the month has an entry; records win; other days are Holiday or No Record; never "On Leave" |
| AttendanceCalendar.LastRecordWins | employee_self_service/mobile/v1/attendance/__init__.py:198-201 | a later record for a date overrides an earlier one |
| AttendanceCalendar.EmptyMonth | employee_self_service/mobile/v1/attendance/__init__.py:204-209 | without records each day is Holiday or No Record |
| Ess.RegisterDevice | employee_self_service/mobile/v1/ess.py:86-115 | disabled restrictions allow; a device bound elsewhere refuses a new employee; a new employee is registered; a registered one must match |
| Ess.DeviceStaysBound | employee_self_service/mobile/v1/ess.py:98-115 | after a successful registration the same device passes and another device fails |
| Ess.CheckReportPeriod | employee_self_service/mobile/v1/ess.py:422-423 | the leave report needs `from_date` before `to_date` |
| Ess.AllocatedAndExpired | employee_self_service/mobile/v1/ess.py:531-547 | both totals are never negative |
| Ess.NonPositiveEntriesIgnored | employee_self_service/mobile/v1/ess.py:536-546 | ledger entries without positive leaves change neither total |
| Ess.CalculateLeavesDetails | employee_self_service/mobile/v1/ess.py:484-521 | the new allocation is the ledger total; expired is clamped at zero and otherwise the expired allocation minus the leaves taken; the closing balance is clamped at zero |
| Ess.NoEntriesLeaveDetails | employee_self_service/mobile/v1/ess.py:484-521 | without ledger entries nothing is allocated or expired, the leaves taken are the deducted ones and the closing balance is the opening minus them, clamped at zero |
| Ess.GetMonthName | employee_self_service/mobile/v1/ess.py:985-1000 | 1..12 give "Jan".."Dec"; -11..0 wrap through Python negative indexing; other months raise |
| Ess.AbbreviationIsPrefix | employee_self_service/mobile/v1/ess.py:985-1000 | each abbreviation is a prefix of the month's full name |
| Ess.MonthZeroIsDecember | employee_self_service/mobile/v1/ess.py:999 | month 0 reads as December |
| Ess.CountLatePresent | employee_self_service/mobile/v1/ess.py:1523-1530 | the late count never exceeds the Present count |
| Ess.StatusCountsDisjoint | employee_self_service/mobile/v1/ess.py:1523-1530 | two different statuses never count more rows than there are |
| Ess.CountAttendance | employee_self_service/mobile/v1/ess.py:1523-1530 | present, absent and late as counted over the rows; late at most present; present plus absent at most the rows |
| Ess.GetAttendanceList | employee_self_service/mobile/v1/ess.py:1481-1554 | year and month are required and must be numbers with a month 1..12, and the month must have records; then the days of the month and the counts |
| V12Compatible.Sbool | employee_self_service/employee_self_service/doctype/ess_notification/v12_compatible.py:97-118 | "true"/"1" and "false"/"0" in any case become booleans; every other string and every non-string is returned unchanged |
| V12Compatible.SboolIdempotent | employee_self_service/employee_self_service/doctype/ess_notification/v12_compatible.py:97-118 | applying `sbool` twice is applying it once |
| V12Compatible.GetTimedelta | employee_self_service/employee_self_service/doctype/ess_notification/v12_compatible.py:8-25 | a falsy value is zero; a duration is itself; "H:M:S" is H*3600 + M*60 + S with missing parts 0 |
| V12Compatible.TimedeltaOfString | employee_self_service/employee_self_service/doctype/ess_notification/v12_compatible.py:16-22 | a text without a colon is a number of hours |
| V12Compatible.TimedeltaRoundTrip | employee_self_service/employee_self_service/doctype/ess_notification/v12_compatible.py:16-22 | reading back "H:M:S" written in decimal gives the seconds |
| V12Compatible.Cstr | employee_self_service/employee_self_service/doctype/ess_notification/v12_compatible.py:69-74 | None becomes "" and strings are unchanged |
| V12Compatible.Cint | employee_self_service/employee_self_service/doctype/ess_notification/v12_compatible.py:19-20 | booleans give 0 or 1, integers themselves, reals truncated toward zero, strings their decimal value or 0, dates and durations 0 |
| V12Compatible.Flt | employee_self_service/employee_self_service/doctype/ess_notification/v12_compatible.py:62-63 | booleans give 0.0 or 1.0, numbers themselves, strings their decimal integer value or 0.0, dates and durations 0.0 |
| V12Compatible.ParseIsoDate | employee_self_service/employee_self_service/doctype/ess_notification/v12_compatible.py:80-82 | a date that is read is a valid calendar date |
| V12Compatible.ParseIsoTime | employee_self_service/employee_self_service/doctype/ess_notification/v12_compatible.py:86-88 | a time that is read is less than a day |
| V12Compatible.ParseIsoDatetime | employee_self_service/employee_self_service/doctype/ess_notification/v12_compatible.py:86-88 | a date and time that is read is a valid date and less than a day; a date alone reads as midnight |
| V12Compatible.IsoDateRoundTrip | employee_self_service/employee_self_service/doctype/ess_notification/v12_compatible.py:80-82 | every valid date of a four-digit year, written zero-padded as YYYY-MM-DD, reads back as itself |
| V12Compatible.IsoDateOnlySpelling | employee_self_service/employee_self_service/doctype/ess_notification/v12_compatible.py:80-82 | every string read as a date is the zero-padded spelling of that date |
| V12Compatible.IsoTimeRoundTrip | employee_self_service/employee_self_service/doctype/ess_notification/v12_compatible.py:86-88 | every time of day below 86400 seconds, written HH:MM:SS, reads back as itself |
| V12Compatible.IsoTimeOnlySpelling | employee_self_service/employee_self_service/doctype/ess_notification/v12_compatible.py:86-88 | every string read as a time is the HH:MM:SS spelling of that time |
| V12Compatible.IsoDatetimeRoundTrip | employee_self_service/employee_self_service/doctype/ess_notification/v12_compatible.py:86-88 | a valid date and time written as "YYYY-MM-DD HH:MM:SS" read back as themselves |
| V12Compatible.IsoDatetimeOnlySpelling | employee_self_service/employee_self_service/doctype/ess_notification/v12_compatible.py:86-88 | every string read as a datetime is the spelling of that datetime, or of its date alone at midnight |
| V12Compatible.DatetimeSpelling | employee_self_service/employee_self_service/doctype/ess_notification/v12_compatible.py:86-88 | "2025-01-31 10:05:00" casts to that day at 10:05:00 |
| V12Compatible.GetDate | employee_self_service/employee_self_service/doctype/ess_notification/v12_compatible.py:80-84 | a date is itself and a datetime gives its day; a string is read iff it reads as a datetime, and gives that datetime's date |
| V12Compatible.Cast | employee_self_service/employee_self_service/doctype/ess_notification/v12_compatible.py:49-95 | each field type's conversion; falsy dates become 0001-01-01; a truthy Date value succeeds iff `getdate` reads it and then is that date; a datetime string is read iff it is "YYYY-MM-DD HH:MM:SS" or a date; unlisted types are unchanged |
| V12Compatible.CheckSpellings | employee_self_service/employee_self_service/doctype/ess_notification/v12_compatible.py:65-66 | "true" and "false" in any case cast to 1 and 0 for a Check field |
| V12Compatible.CastIdempotent | employee_self_service/employee_self_service/doctype/ess_notification/v12_compatible.py:49-95 | casting a cast value again changes nothing |
| SendNotification.EventType | employee_self_service/send_notification.py:10-19 | each of the eight hook names maps to its label, both cancel hooks to "Cancel", nothing else is mapped |
| SendNotification.ParseReceiverByDocumentField | employee_self_service/send_notification.py:104-108 | a spec with a comma gives its first two fragments, the second ending at the next comma or the end; one without gives (s, None) |
| SendNotification.ParseRoundTrip | employee_self_service/send_notification.py:104-108 | parsing "field,child" followed by nothing or by further fragments gives back field and child |
| SendNotification.ChildEmails | employee_self_service/send_notification.py:68-72 | the non-empty values of the field over the child rows |
| SendNotification.RecipientEmails | employee_self_service/send_notification.py:48-91 | an email is collected iff it comes from a configured role, document field, employee field or assignee |
| SendNotification.UserEmailsMember | employee_self_service/send_notification.py:47-91 | an email is collected iff some recipient row yields it |
| SendNotification.DevicesOf | employee_self_service/send_notification.py:93-99 | the device rows named by a collected email |
| SendNotification.GetUserTokens | employee_self_service/send_notification.py:33-101 | no recipients gives no devices; otherwise exactly the devices of collected emails |
| SendNotification.RepeatedRecipientsChangeNothing | employee_self_service/send_notification.py:47 | repeating the recipient rows changes no token list, since emails form a set |
| SendNotification.Fires | employee_self_service/send_notification.py:146-173 | a false or failing condition suppresses; other events fire on the condition; a Value Change on a saved document fails without the field, fails iff a cast fails, and otherwise fires iff the cast values differ |
| SendNotification.NotificationProcessing | employee_self_service/send_notification.py:111-182 | ignored doctypes and unmapped events do nothing; otherwise the notifications queued are exactly the selected ones that fire before the first failing one, and the run fails iff some selected notification fails |
| SendNotification.Dispatch | employee_self_service/send_notification.py:145-182 | queued names are exactly the selected, firing notifications reached before the first failure; the run ends without error iff no selected notification fails, and an error is one such failure |
| SendNotification.UnchangedValueIsSilent | employee_self_service/send_notification.py:161-173 | an unconditional notification stays silent when the value did not change |
| WmsTask.ActionsWith | employee_self_service/mobile/v1/wms_task/task.py:80-91 | the five action flags as functions of status, assignee and roles |
| WmsTask.GetTaskActions | employee_self_service/mobile/v1/wms_task/task.py:72-92 | completing needs the assignee and a completable status, "Due Today" included |
| WmsTask.GetTaskActionsAsWritten | employee_self_service/mobile/v1/wms_task/task.py:83 | as written the listed statuses carry a leading space, so "Due Today" never qualifies |
| WmsTask.DueTodayNotCompletableAsWritten | employee_self_service/mobile/v1/wms_task/task.py:82-84 | the only difference on a Due Today task is the lost complete action |
| WmsTask.ActionsExclusive | employee_self_service/mobile/v1/wms_task/task.py:82-91 | the workflow, reopen and assignee actions never appear together |
| WmsTask.DecideExtendRequest | employee_self_service/mobile/v1/wms_task/task.py:125-152 | approving or rejecting an extension needs status "Extend Required" |
| WorkProgress.NarrowByRole | employee_self_service/mobile/v1/work_progress_entry/__init__.py:28-34 | Admin keeps the filters; Manager narrows by business vertical; User also by order |
| WorkProgress.WorkProgressFilters | employee_self_service/mobile/v1/work_progress_entry/__init__.py:14-45 | an empty list iff the user holds no WPE role; otherwise the narrowed filters |
| WorkProgress.WorkProgressFiltersAsWritten | employee_self_service/mobile/v1/work_progress_entry/__init__.py:26-29 | as written only holders of all three roles get a list, and then unfiltered |
| WorkProgress.ManagerLockedOutAsWritten | employee_self_service/mobile/v1/work_progress_entry/__init__.py:26-31 | a WPE Manager gets nothing as written, and a vertical-filtered list when corrected |
| WorkProgress.GatesAgree | employee_self_service/mobile/v1/work_progress_entry/__init__.py:26-29 | both gates agree for users with all or none of the roles |
| WorkProgress.CreateWorkProgressEntry | employee_self_service/mobile/v1/work_progress_entry/__init__.py:86-136 | needs an item, an employee and its sales order; quantity defaults to 0 and the rate comes from the order |
| WorkProgress.UnlistedItemAtZero | employee_self_service/mobile/v1/work_progress_entry/__init__.py:197-204 | an item missing from the order is entered at rate 0 |
| EmployeeGroup.FetchEmployeeFilters | employee_self_service/employee_self_service/doctype/otpl_employee_group/otpl_employee_group.py:14-30 | only the four keys; the vertical unless empty or "ALL"; staff type and location when non-empty; `is_team_leader` = 1 when truthy; no filters at all raise |
| EmployeeGroup.AllVerticalsMeansUnfiltered | employee_self_service/employee_self_service/doctype/otpl_employee_group/otpl_employee_group.py:20-21 | "ALL" selects exactly the employees an empty vertical selects |
| EmployeeGroup.MoreFiltersSelectFewer | employee_self_service/employee_self_service/doctype/otpl_employee_group/otpl_employee_group.py:23-30 | clearing a filter never drops a matching employee |
| PushNotification.KeepOptions | employee_self_service/mobile/v1/push_notification/__init__.py:24-28 | at most one option per line, each non-empty with no white space at either end; a single line gives its stripped text unless it is blank |
| PushNotification.OptionsOf | employee_self_service/mobile/v1/push_notification/__init__.py:23-28 | every option is non-empty, has no white space at either end and holds no newline; a one-line text gives its stripped text unless it is blank |
| PushNotification.KeepOptionsConcat | employee_self_service/mobile/v1/push_notification/__init__.py:24-28 | the options of two blocks of lines are those of the first followed by those of the second |
| PushNotification.OptionsAppendLine | employee_self_service/mobile/v1/push_notification/__init__.py:23-28 | one more line at the end adds its stripped text as the last option unless it is blank |
| PushNotification.GetSendForOptions | employee_self_service/mobile/v1/push_notification/__init__.py:12-32 | 404 with no options iff there is no `send_for` field; otherwise 200 with the options of the field's text, none when it is empty |
| PushNotification.OptionsRoundTrip | employee_self_service/mobile/v1/push_notification/__init__.py:23-28 | options written one per line read back as the same options in the same order |
| PushNotification.BlankLinesIgnored | employee_self_service/mobile/v1/push_notification/__init__.py:27 | a blank line anywhere changes no option |
| PushNotification.CreatePushNotification | employee_self_service/mobile/v1/push_notification/__init__.py:93-128 | title and message are required; a single name is one row; dict rows give their user; the first empty or unknown user aborts with its row number; otherwise the users in order |

## Left out

- Persistence and framework plumbing are not modelled: queries, commits, the docstatus lifecycle, permissions, the session and `frappe.enqueue`. Database reads are parameters and writes are returned values.
- The HTTP transport of the ERP sync (`send_to_remote_erp` body, `pull_*_from_remote`) is left out; delivery is a boolean input.
- Holiday lists, leave balances, report runs and the General Ledger are external services; their answers are inputs.
- Floating point is not modelled: hours are exact seconds, leave quantities are exact reals or half-days.
- Timezone conversion, strftime formatting of dates, PDF, print, file upload and `fmt_money` are not modelled.
- The remark texts of attendance are a list of remark values, not the comma-joined string.
- `api_utils.py` (`gen_response`, `ess_validate`, `exception_handler`) is not part of this model. A reply is a code and a message, and an exception is an `Err`.
- The JavaScript form scripts, the thin doctype controllers and both patches are not modelled; they only restate the Python rules. Two controllers do more: `leave_pull.py` is modelled as LeavePull, and `otpl_leave.py` imports a helper `erp_sync.py` does not define (see Findings); its `on_update` push of the leave to the remote ERP is left out with the rest of the HTTP transport.
- OtplApproval.LeaveGuard: states the approver and Pending checks the endpoints make once the OTPL Leave controller loads; as written `get_doc("OTPL Leave", ...)` raises ImportError before they run (see OtplApproval.ApproveOtplLeaveAsWritten).
- OtplApproval.ApproveOtplLeave: models the endpoint with the OTPL Leave controller's import resolved; as written its approver, Pending and 200 outcomes are unreachable, which OtplApproval.ApproveOtplLeaveAsWritten states.
- OtplApproval.RejectOtplLeave: models the endpoint with the OTPL Leave controller's import resolved; as written its approver, Pending and 200 outcomes are unreachable, which OtplApproval.RejectOtplLeaveAsWritten states.
- The broken cross-module wiring (the Worker-hook import, the driver keyword arguments, the `push_leave_status_to_source` import, the `push_leave_to_remote_erp` import) is modelled as a failure of the caller; see Findings.
- `send_notification` (template rendering and the notification log), the safe evaluation of a condition expression, and `get_user_tokens`' SQL are left out. A condition's outcome is an input, and role members are a directory map.
- The WMS Task methods (`approve_extend_request` on the document and the like) belong to another app and are not part of this model.
- V12Compatible.Cstr: only None, strings, booleans and integers are spelled; reals, durations and dates in text fields are passed through unchanged.
- V12Compatible.ParseIsoDate: only the ISO form YYYY-MM-DD is read; other date spellings that `getdate` accepts are errors. `GetDate` reads a string through `ParseIsoDatetime`, so "YYYY-MM-DD HH:MM:SS" gives its date.
- V12Compatible.IsoDateRoundTrip: stated for years below 10000, the years Python's `date` allows.
- V12Compatible.ParseIsoDatetime: only "YYYY-MM-DD HH:MM:SS" and a date alone are read; fractions of a second, a "T" separator and time zones are not.
- V12Compatible.Cint: strings are read as decimal integers only; `cint` of a decimal string such as "1.5", or of one with spaces, is 0 in the model.
- V12Compatible.Flt: strings are read as decimal integers only, so `flt("1.5")` is 0.0 in the model.
- V12Compatible.Cast: `getdate` and `get_datetime` accept many spellings; only the ISO forms "YYYY-MM-DD" and "YYYY-MM-DD HH:MM:SS" are read (for a Date field as well, keeping the date), and other strings are errors.
- V12Compatible.GetTimedelta: seconds are whole numbers; the fractional seconds `flt` reads at v12_compatible.py:21 are not modelled.
- SendNotification.Dispatch: the run stops at the first exception, as in the source; the logging of that exception by the `notification` hook is not modelled.
- V12Compatible.CastIdempotent: stated for every field type except "Time", whose second cast reads a duration rather than a string.
- AllowedOvertime.Validate: dates are compared as their ISO text.
- Text.Strip and Text.Lower: white space and letter case are the ASCII ones; Python's `strip()` also removes Unicode white space and `lower()` folds every cased letter.
- Text.ParseInt: surrounding white space and underscores between digits, which Python's `int()` accepts, make the text unreadable, so `Ess.GetAttendanceList` refuses a month sent as " 7" and `V12Compatible.Cint` reads it as 0.
- ErpSync.SelectPending: the sweep query has no ORDER BY; the model takes table order.
- Ess.AllocatedAndExpired: the contract states only that both totals are non-negative; the per-entry rules are in its body and in Ess.NonPositiveEntriesIgnored.
- SendNotification.UserEmails: its membership contract is stated separately in SendNotification.UserEmailsMember.

## Findings

| source | as written | input that shows it | evidently intended | confidence | as-written member | corrected member |
|---|---|---|---|---|---|---|
| employee_self_service/employee_self_service/utils/daily_attendance.py:110 | imports `process_worker_attendance_with_hours`, which the Worker module does not define | any employee-day without leave-linked attendance | call the Worker entry point `run_worker_attendance` for Workers and continue otherwise | not executed | DailyAttendance.ProcessEmployeeAttendanceAsWritten | DailyAttendance.ProcessEmployeeAttendance |
| employee_self_service/employee_self_service/utils/driver_attendance.py:68-110 | passes `checkin_time`/`checkout_time` to `create_attendance_record`, which does not accept them | a driver day with an IN at 08:00 and no pending log | write the record with the computed hours | not executed | DriverAttendance.RunDriverAttendanceAsWritten | DriverAttendance.RunDriverAttendance |
| employee_self_service/employee_self_service/doctype/attendance_processor/attendance_processor.py:155-156 | returns three values where the caller unpacks four | a configured working day with no check-in rows | a four-value return for Absent with the missing-logs remark; the source returns `True` for the late flag, and the early flag is taken to be set as well, which is a guess | not executed | AttendanceProcessor.DetermineAttendanceStatusAsWritten | AttendanceProcessor.DetermineAttendanceStatus |
| employee_self_service/employee_self_service/doctype/attendance_processor/attendance_processor.py:517-526 | the deduction leave spans one day whatever the computed amount | 7 late marks with tiers 3/5: 2 days computed, 1 day written | a leave for the whole computed deduction; its intended shape (a date range, or several leaves) is unknown, so the corrected member keeps the single-day leave and records the full amount in half days | not executed | LateMarks.MonthlyDeductionAsWritten | LateMarks.MonthlyDeduction |
| employee_self_service/mobile/v1/wms_task/task.py:83 | the completable statuses are written " Due Today" and " Without Due Date", with a leading space | an assignee viewing a task with status "Due Today" | "Due Today" tasks can be completed | not executed | WmsTask.GetTaskActionsAsWritten | WmsTask.GetTaskActions |
| employee_self_service/mobile/v1/work_progress_entry/__init__.py:26 | the gate uses `or`, so only users holding all three WPE roles get a list, and then the Admin branch wins | a user holding only "WPE Manager" | any WPE role gets its role-narrowed list | not executed | WorkProgress.WorkProgressFiltersAsWritten | WorkProgress.WorkProgressFilters |
| employee_self_service/employee_self_service/doctype/leave_pull/leave_pull.py:9 | imports `push_leave_status_to_source`, which `erp_sync.py` does not define | any approval of a Leave Pull | approval updates the document and pushes a changed status back | not executed | LeavePull.ApproveLeaveAsWritten | LeavePull.ApproveLeave |
| employee_self_service/employee_self_service/doctype/otpl_leave/otpl_leave.py:8 | imports `push_leave_to_remote_erp`, which `erp_sync.py` does not define, so `get_doc("OTPL Leave", ...)` in `approve_otpl_leave` raises ImportError | its approver approving a Pending leave with both dates | the approver and Pending checks, then status Approved with the dates | not executed | OtplApproval.ApproveOtplLeaveAsWritten | OtplApproval.ApproveOtplLeave |
| employee_self_service/employee_self_service/doctype/otpl_leave/otpl_leave.py:8 | the same import makes `get_doc("OTPL Leave", ...)` in `reject_otpl_leave` raise ImportError | its approver rejecting a Pending leave | the approver and Pending checks, then status Rejected | not executed | OtplApproval.RejectOtplLeaveAsWritten | OtplApproval.RejectOtplLeave |

=== FILE: allowed_overtime.dfy ===
/** `Allowed Overtime` documents: a per-(employee, date) permission for holiday work,
    early entry and late exit, with at most one entry per employee and date. */
module AllowedOvertime {
  import opened Wrappers
  import opened Text

  /** The Select fields hold "Yes" or "No"; dates are kept as their ISO text. */
  datatype Entry = Entry(name: string, employee: string, date: string,
                         overtimeAllowed: string, earlyEntryAllowed: string, lateExitAllowed: string)

  /** Another document for the same employee and date. */
  predicate Clashes(stored: Entry, doc: Entry) {
    stored.employee == doc.employee && stored.date == doc.date && stored.name != doc.name
  }

  predicate HasClash(stored: seq<Entry>, doc: Entry) {
    exists i :: 0 <= i < |stored| && Clashes(stored[i], doc)
  }

  function DuplicateMessage(doc: Entry): string {
    "An Allowed Overtime entry already exists for " + doc.employee + " on " + doc.date
  }

  /** `validate`: only a NEW document is checked, and it is refused when another entry
      exists for its employee and date; the message names both. */
  function Validate(doc: Entry, isNew: bool, stored: seq<Entry>): (r: Result<Entry>)
    ensures r.Err? <==> isNew && HasClash(stored, doc)
    ensures r.Ok? ==> r.value == doc
    ensures r.Err? ==> Contains(r.msg, doc.employee) && Contains(r.msg, doc.date)
  {
    if isNew && HasClash(stored, doc) then
      var prefix := "An Allowed Overtime entry already exists for ";
      var m := DuplicateMessage(doc);
      ContainsInfix(prefix, doc.employee, " on " + doc.date);
      assert m == prefix + doc.employee + (" on " + doc.date);
      ContainsInfix(prefix + doc.employee + " on ", doc.date, "");
      assert m == prefix + doc.employee + " on " + doc.date + "";
      Err(m)
    else Ok(doc)
  }

  /** At most one entry per employee and date. */
  predicate UniquePerDay(stored: seq<Entry>) {
    forall i, j :: 0 <= i < j < |stored| ==>
      !(stored[i].employee == stored[j].employee && stored[i].date == stored[j].date)
  }

  predicate FreshName(stored: seq<Entry>, name: string) {
    forall i :: 0 <= i < |stored| ==> stored[i].name != name
  }

  /** Inserting a new document: validate, then store. */
  function Insert(stored: seq<Entry>, doc: Entry): (r: Result<seq<Entry>>)
    ensures r.Ok? <==> !HasClash(stored, doc)
    ensures r.Ok? ==> r.value == stored + [doc]
  {
    match Validate(doc, true, stored)
    case Ok(d) => Ok(stored + [d])
    case Err(m) => Err(m)
  }

  /** Inserts keep the table free of duplicates (new documents get fresh names). */
  lemma InsertKeepsUnique(stored: seq<Entry>, doc: Entry)
    requires UniquePerDay(stored) && FreshName(stored, doc.name)
    requires Insert(stored, doc).Ok?
    ensures UniquePerDay(Insert(stored, doc).value)
  {
    var s := stored + [doc];
    forall i, j | 0 <= i < j < |s|
      ensures !(s[i].employee == s[j].employee && s[i].date == s[j].date)
    {
      if j == |stored| {
        assert s[j] == doc && s[i] == stored[i];
        assert !Clashes(stored[i], doc);
      }
    }
  }

  /** Saving an edited document replaces the stored one of the same name. */
  function Update(stored: seq<Entry>, doc: Entry): (r: Result<seq<Entry>>)
    ensures r.Ok?
    ensures |r.value| == |stored|
    ensures forall i :: 0 <= i < |stored| ==>
              r.value[i] == (if stored[i].name == doc.name then doc else stored[i])
  {
    match Validate(doc, false, stored)
    case Ok(d) => Ok(seq(|stored|, i requires 0 <= i < |stored| => if stored[i].name == d.name then d else stored[i]))
    case Err(m) => Err(m)
  }

  /** Edits are not re-checked: moving an entry onto a day already taken by the same
      employee is accepted and leaves two entries for that day. */
  lemma EditCanDuplicate()
    ensures exists stored: seq<Entry>, doc: Entry ::
              UniquePerDay(stored) && Update(stored, doc).Ok? && !UniquePerDay(Update(stored, doc).value)
  {
    var a := Entry("AO-1", "EMP-1", "2025-01-01", "Yes", "No", "No");
    var b := Entry("AO-2", "EMP-1", "2025-01-02", "Yes", "No", "No");
    var moved := b.(date := "2025-01-01");
    var stored := [a, b];
    assert a.date != b.date;
    var after := Update(stored, moved).value;
    assert after[0] == a && after[1] == moved;
    assert !UniquePerDay(after);
  }
}

=== FILE: api_response.dfy ===
/** The mobile API's reply, `gen_response(status_code, message)`: the payload is not
    part of this model, only the code and the message. */
module Api {
  datatype Response = Response(code: int, message: string)

  predicate Succeeded(r: Response) {
    r.code == 200
  }
}

=== FILE: attendance_calendar.dfy ===
/** `build_attendance_data`: the mobile month calendar, one status per date. Dates are
    keyed by `Date` values; the `%Y-%m-%d` text the source uses as key is a one-to-one
    spelling of them. */
module AttendanceCalendar {
  import opened Clock

  /** A submitted Attendance row of the month: its date and status. */
  datatype Record = Record(date: Date, status: string)

  /** The calendar never shows "On Leave": such days show as absent. */
  function ShownStatus(status: string): (r: string)
    ensures r != "On Leave"
    ensures status != "On Leave" ==> r == status
  {
    if status == "On Leave" then "Absent" else status
  }

  /** The first loop: every record sets its date's entry, a later record for the same
      date overriding an earlier one. */
  function RecordEntries(records: seq<Record>): (r: map<Date, string>)
    ensures forall d :: d in r <==> exists i :: 0 <= i < |records| && records[i].date == d
    ensures forall d :: d in r ==> r[d] != "On Leave"
    ensures |records| > 0 ==> r[records[|records| - 1].date] == ShownStatus(records[|records| - 1].status)
    decreases |records|
  {
    if |records| == 0 then map[]
    else
      var init := records[..|records| - 1];
      var last := records[|records| - 1];
      var prev := RecordEntries(init);
      assert forall i :: 0 <= i < |init| ==> init[i] == records[i];
      prev[last.date := ShownStatus(last.status)]
  }

  /** The dates `year-month-1` through `year-month-days`. */
  function MonthDates(year: int, month: int, days: nat): (s: set<Date>)
    ensures forall d :: d in s <==> d.year == year && d.month == month && 1 <= d.day <= days
  {
    set day: int | 1 <= day <= days :: Date(year, month, day)
  }

  /** The calendar: recorded dates keep their (shown) status; every other day of the
      month is "Holiday" when it is in the employee's holiday set and "No Record" otherwise. */
  function BuildAttendanceData(year: int, month: int, days: nat, records: seq<Record>, holidays: set<Date>)
    : (r: map<Date, string>)
    ensures forall day :: 1 <= day <= days ==> Date(year, month, day) in r
    ensures forall d :: d in r <==> d in MonthDates(year, month, days) || exists i :: 0 <= i < |records| && records[i].date == d
    ensures forall d :: d in r ==> r[d] != "On Leave"
    ensures forall d :: d in r && d in RecordEntries(records) ==> r[d] == RecordEntries(records)[d]
    ensures forall d :: d in r && d !in RecordEntries(records) ==> r[d] == (if d in holidays then "Holiday" else "No Record")
  {
    var entries := RecordEntries(records);
    map d | d in entries.Keys + MonthDates(year, month, days) ::
      if d in entries then entries[d] else if d in holidays then "Holiday" else "No Record"
  }

  /** A date's entry depends only on the last record for it: appending a record overrides
      whatever the calendar showed for that date. */
  lemma LastRecordWins(year: int, month: int, days: nat, records: seq<Record>, rec: Record, holidays: set<Date>)
    ensures BuildAttendanceData(year, month, days, records + [rec], holidays)[rec.date] == ShownStatus(rec.status)
  {
    assert (records + [rec])[|records|] == rec;
  }

  /** A month with no records is all holidays and empty days. */
  lemma EmptyMonth(year: int, month: int, days: nat, holidays: set<Date>, day: int)
    requires 1 <= day <= days
    ensures var cal := BuildAttendanceData(year, month, days, [], holidays);
            cal[Date(year, month, day)] == (if Date(year, month, day) in holidays then "Holiday" else "No Record")
  {
  }
}

=== FILE: attendance_processor.dfy ===
/** The Attendance Processor document: manual (re)processing of one day for one or all
    employees, its own copy of the status rules, and the previous-day job. */
module AttendanceProcessor {
  import opened Wrappers
  import opened Clock
  import opened CheckinLog
  import opened ShiftRules
  import Text

  datatype ProcessorStatus = Pending | Processing | Completed | Failed

  /** `validate`: an existing document that was Completed and is saved as Completed
      again is refused. */
  function ValidateSave(isNew: bool, status: ProcessorStatus, before: Option<ProcessorStatus>): (r: Result<ProcessorStatus>)
    ensures r.Err? <==> status == Completed && !isNew && before == Some(Completed)
    ensures r.Ok? ==> r.value == status
  {
    if status == Completed && !isNew && before.Some? && before.value == Completed then
      Err("Cannot edit a completed Attendance Processor record")
    else Ok(status)
  }

  /** An Attendance row that `cancel_existing_attendance` may see. */
  datatype ExistingAttendance = ExistingAttendance(name: string, leaveApplication: string)

  /** `cancel_existing_attendance`: the names cancelled, which are exactly those not
      created from a leave application, in their order. */
  function CancelExisting(existing: seq<ExistingAttendance>): (cancelled: seq<string>)
    ensures |cancelled| <= |existing|
    ensures forall i :: 0 <= i < |existing| && existing[i].leaveApplication == "" ==> existing[i].name in cancelled
    ensures forall n :: n in cancelled ==> exists i :: 0 <= i < |existing| && existing[i].name == n && existing[i].leaveApplication == ""
    decreases |existing|
  {
    if |existing| == 0 then []
    else
      var rest := CancelExisting(existing[1..]);
      assert forall i :: 1 <= i < |existing| ==> existing[i] == existing[1..][i - 1];
      if existing[0].leaveApplication == "" then [existing[0].name] + rest else rest
  }

  /** Leave-linked attendance is never cancelled (when names identify rows). */
  lemma LeaveLinkedNeverCancelled(existing: seq<ExistingAttendance>, k: nat)
    requires k < |existing| && existing[k].leaveApplication != ""
    requires forall i, j :: 0 <= i < j < |existing| ==> existing[i].name != existing[j].name
    ensures existing[k].name !in CancelExisting(existing)
  {
  }

  /** `determine_attendance_status` as intended: with neither IN nor OUT the day is
      Absent with both missing-log flags set; otherwise the shift times must be set
      (they are parsed unconditionally) and the shared rule chain runs with the
      escalation decided up front. */
  function DetermineAttendanceStatus(checkIn: Option<Instant>, checkOut: Option<Instant>, rules: LocationRules,
                                     monthLateCount: int): (r: Result<Decision>)
    ensures checkIn.None? && checkOut.None? ==> r == Ok(Decision(Absent, true, true, [MissingBothLogs]))
    ensures (checkIn.Some? || checkOut.Some?) ==>
              (r.Err? <==> rules.shiftStartTime.None? || rules.shiftEndTime.None?)
    ensures r.Ok? && (checkIn.Some? || checkOut.Some?) ==>
              var escalate := monthLateCount >= EscalationThreshold(rules);
              r.value.status != Absent &&
              (r.value.status == HalfDay <==> HalfDayDue(checkIn, checkOut, rules, escalate)) &&
              (r.value.lateEntry <==> LateFlagDue(checkIn, checkOut, rules, escalate)) &&
              (r.value.earlyExit <==> EarlyFlagDue(checkIn, checkOut, rules, escalate))
  {
    if checkIn.None? && checkOut.None? then Ok(Decision(Absent, true, true, [MissingBothLogs]))
    else if rules.shiftStartTime.None? || rules.shiftEndTime.None? then
      Err("time data 'None' does not match format '%H:%M:%S'")
    else Ok(DetermineStatus(checkIn, checkOut, rules, monthLateCount >= EscalationThreshold(rules)))
  }

  /** The code as written: the no-log branch returns three values to a caller that
      unpacks four, so the call raises. */
  function DetermineAttendanceStatusAsWritten(checkIn: Option<Instant>, checkOut: Option<Instant>,
                                              rules: LocationRules, monthLateCount: int): (r: Result<Decision>)
    ensures checkIn.None? && checkOut.None? ==> r.Err?
    ensures (checkIn.Some? || checkOut.Some?) ==> r == DetermineAttendanceStatus(checkIn, checkOut, rules, monthLateCount)
  {
    if checkIn.None? && checkOut.None? then Err("not enough values to unpack (expected 4, got 3)")
    else DetermineAttendanceStatus(checkIn, checkOut, rules, monthLateCount)
  }

  /** `create_attendance`: hours are written only when both times exist and OUT is
      strictly later; otherwise the field stays 0. */
  function CreateAttendanceSeconds(checkIn: Option<Instant>, checkOut: Option<Instant>): (w: nat)
    ensures w > 0 <==> checkIn.Some? && checkOut.Some? && checkIn.value < checkOut.value
    ensures w > 0 ==> checkIn.value + w == checkOut.value
  {
    if checkIn.Some? && checkOut.Some? && checkOut.value - checkIn.value > 0 then checkOut.value - checkIn.value else 0
  }

  /** The processor writes the same hours as the daily job. */
  lemma CreateAttendanceAgreesWithDaily(checkIn: Option<Instant>, checkOut: Option<Instant>)
    ensures CreateAttendanceSeconds(checkIn, checkOut) == WorkedSeconds(checkIn, checkOut)
  {
  }

  /** What the processor reads for one employee and day. */
  datatype ProcessorDay = ProcessorDay(holiday: bool, approvedLeave: bool, location: string,
                                       locationDoc: Option<LocationRules>, logs: seq<Log>,
                                       monthLateCount: int, existing: seq<ExistingAttendance>)

  datatype Outcome =
    | HolidaySkipped
    | LeaveSkipped
    | NoLocation
    | Done(decision: Decision, workedSeconds: nat, cancelled: seq<string>)
    | Error(msg: string)

  function ProcessWith(day: ProcessorDay, decide: Result<Decision>): (o: Outcome)
    requires day.locationDoc.Some?
  {
    match decide
    case Err(m) => Error(m)
    case Ok(d) => Done(d, CreateAttendanceSeconds(FirstIn(day.logs), LastOut(day.logs)), CancelExisting(day.existing))
  }

  /** `process_attendance_for_employee`: skips in the order holiday, approved leave,
      missing location; an unknown location document or a failed decision is an error;
      otherwise unlinked attendance is cancelled and a new one written. */
  function ProcessAttendanceForEmployee(day: ProcessorDay): (o: Outcome)
    ensures day.holiday ==> o == HolidaySkipped
    ensures !day.holiday && day.approvedLeave ==> o == LeaveSkipped
    ensures !day.holiday && !day.approvedLeave && day.location == "" ==> o == NoLocation
    ensures !day.holiday && !day.approvedLeave && day.location != "" && day.locationDoc.None? ==> o.Error?
    ensures !day.holiday && !day.approvedLeave && day.location != "" && day.locationDoc.Some? ==>
              (o.Done? <==> (!HasIn(day.logs) && !HasOut(day.logs)) ||
                            (day.locationDoc.value.shiftStartTime.Some? && day.locationDoc.value.shiftEndTime.Some?))
    ensures !o.Done? && !o.Error? ==> o.HolidaySkipped? || o.LeaveSkipped? || o.NoLocation?
    ensures o.Done? ==> !day.holiday && !day.approvedLeave && day.location != "" && day.locationDoc.Some? &&
                        (o.decision.status == Absent <==> !HasIn(day.logs) && !HasOut(day.logs)) &&
                        Ok(o.decision) == DetermineAttendanceStatus(FirstIn(day.logs), LastOut(day.logs),
                                                                    day.locationDoc.value, day.monthLateCount) &&
                        o.workedSeconds == WorkedSeconds(FirstIn(day.logs), LastOut(day.logs)) &&
                        o.cancelled == CancelExisting(day.existing)
  {
    if day.holiday then HolidaySkipped
    else if day.approvedLeave then LeaveSkipped
    else if day.location == "" then NoLocation
    else if day.locationDoc.None? then Error("ESS Location " + day.location + " not found")
    else
      ProcessWith(day, DetermineAttendanceStatus(FirstIn(day.logs), LastOut(day.logs), day.locationDoc.value, day.monthLateCount))
  }

  /** The same with the as-written status function. */
  function ProcessAttendanceForEmployeeAsWritten(day: ProcessorDay): (o: Outcome)
    ensures !HasIn(day.logs) && !HasOut(day.logs) ==> !o.Done?
  {
    if day.holiday then HolidaySkipped
    else if day.approvedLeave then LeaveSkipped
    else if day.location == "" then NoLocation
    else if day.locationDoc.None? then Error("ESS Location " + day.location + " not found")
    else
      ProcessWith(day, DetermineAttendanceStatusAsWritten(FirstIn(day.logs), LastOut(day.logs), day.locationDoc.value, day.monthLateCount))
  }

  /** As written, a working day without any log, at a configured location, ends in an
      error instead of an Absent attendance; the corrected function writes Absent. */
  lemma NoLogDayIsErrorAsWritten(day: ProcessorDay)
    requires !day.holiday && !day.approvedLeave && day.location != "" && day.locationDoc.Some?
    requires !HasIn(day.logs) && !HasOut(day.logs)
    ensures ProcessAttendanceForEmployeeAsWritten(day).Error?
    ensures ProcessAttendanceForEmployee(day).Done? && ProcessAttendanceForEmployee(day).decision.status == Absent
  {
  }

  // ---------------------------------------------------------------- manual run and daily job

  datatype ProcessorDoc = ProcessorDoc(status: ProcessorStatus, processForAll: bool, employee: string)

  /** `process_attendance_manually`: a Completed document is refused; otherwise the
      document ends Completed (per-employee failures are caught and only logged). */
  function ProcessManually(doc: ProcessorDoc): (r: Result<ProcessorDoc>)
    ensures r.Err? <==> doc.status == Completed
    ensures r.Ok? ==> r.value == doc.(status := Completed)
  {
    if doc.status == Completed then Err("This attendance processor has already been completed and cannot be reprocessed")
    else Ok(doc.(status := Completed))
  }

  /** A processed document cannot be processed again, nor saved again as Completed. */
  lemma CompletedIsFinal(doc: ProcessorDoc)
    requires ProcessManually(doc).Ok?
    ensures ProcessManually(ProcessManually(doc).value).Err?
    ensures ValidateSave(false, Completed, Some(ProcessManually(doc).value.status)).Err?
  {
  }

  datatype Bucket = BSkipped | BError | BProcessed

  /** `process_previous_day_attendance` buckets by the result text, testing "Skipped"
      before "Error": the holiday and leave texts, and any error whose message mentions
      "Skipped", are skipped; other errors are errors; everything else, including
      "No location configured for employee", counts as processed. */
  function BucketOf(o: Outcome): (b: Bucket)
    ensures b == BSkipped <==> o.HolidaySkipped? || o.LeaveSkipped? || (o.Error? && Text.Contains(o.msg, "Skipped"))
    ensures b == BError <==> o.Error? && !Text.Contains(o.msg, "Skipped")
    ensures b == BProcessed <==> o.Done? || o.NoLocation?
  {
    match o
    case HolidaySkipped => BSkipped
    case LeaveSkipped => BSkipped
    case Error(m) => if Text.Contains(m, "Skipped") then BSkipped else BError
    case _ => BProcessed
  }
}

=== FILE: attendance_record.dfy ===
/** What the attendance paths write (`create_attendance_record`) and what they report
    back to their caller ("Processed", "Absent", "Skipped", or an exception). */
module AttendanceRecord {
  import opened ShiftRules

  /** The remarks text of a new Attendance, one constructor per fixed text. */
  datatype Note =
    | RuleRemarks(remarks: seq<Remark>)
    | AutoPresentNoCheckIn
    | NoLogs
    | MissingLogNonWorker
    | WorkerSiteCheckIn
    | WorkerSiteNoCheckIn
    | WorkerNoCheckIn
    | WorkerCheckInOnly
    | WorkerHours
    | DriverNoCheckIn
    | DriverHours

  /** A submitted Attendance; working hours are kept as exact seconds. */
  datatype NewAttendance = NewAttendance(status: Status, lateEntry: bool, earlyExit: bool,
                                         workedSeconds: nat, note: Note)

  /** The caller-visible result of one employee-day. `Failed` stands for an exception
      escaping to the caller. */
  datatype DayResult =
    | Processed(record: NewAttendance)
    | MarkedAbsent(record: NewAttendance)
    | Skipped
    | Failed(reason: string)

  /** An Absent record with no flags and no hours. */
  function AbsentRecord(note: Note): (a: NewAttendance)
    ensures a.status == Absent && !a.lateEntry && !a.earlyExit && a.workedSeconds == 0
  {
    NewAttendance(Absent, false, false, 0, note)
  }
}

=== FILE: auto_checkout.dfy ===
/** The 21:00 job that closes open days of Site employees with an automatic OUT. */
module AutoCheckout {
  import opened Wrappers
  import opened Clock
  import opened CheckinLog

  datatype Employee = Employee(name: string, location: string, status: string)

  /** One Employee Checkin row of any employee. */
  datatype Row = Row(employee: string, time: Instant, logType: LogType)

  /** An automatic OUT created by the job. */
  datatype AutoOut = AutoOut(employee: string, time: Instant, reason: string)

  const AutoReason: string := "Auto checkout at 9:00 PM for Site location employee"

  predicate Eligible(e: Employee) {
    e.location == "Site" && e.status == "Active"
  }

  predicate Matches(r: Row, employee: string, day: nat, t: LogType) {
    r.employee == employee && DayOf(r.time) == day && r.logType == t
  }

  /** `MAX(CASE WHEN log_type = t THEN time END)` over the employee's rows of the day. */
  function LatestOfType(rows: seq<Row>, employee: string, day: nat, t: LogType): (m: Option<Instant>)
    ensures m.Some? <==> exists i :: 0 <= i < |rows| && Matches(rows[i], employee, day, t)
    ensures m.Some? ==> (exists i :: 0 <= i < |rows| && Matches(rows[i], employee, day, t) && rows[i].time == m.value) &&
                        (forall i :: 0 <= i < |rows| && Matches(rows[i], employee, day, t) ==> rows[i].time <= m.value)
    decreases |rows|
  {
    if |rows| == 0 then None
    else
      var front := rows[..|rows| - 1];
      var last := rows[|rows| - 1];
      var m := LatestOfType(front, employee, day, t);
      assert forall i :: 0 <= i < |front| ==> front[i] == rows[i];
      if !Matches(last, employee, day, t) then m
      else if m.None? || m.value < last.time then Some(last.time)
      else m
  }

  /** The decision: an IN today and either no OUT today or the latest IN after the
      latest OUT. */
  predicate NeedsAutoOut(rows: seq<Row>, employee: string, day: nat) {
    var lastIn := LatestOfType(rows, employee, day, In);
    var lastOut := LatestOfType(rows, employee, day, Out);
    lastIn.Some? && (lastOut.None? || lastIn.value > lastOut.value)
  }

  /** The day is open when some IN of the day is later than every OUT of the day. */
  lemma NeedsAutoOutMeansOpenDay(rows: seq<Row>, employee: string, day: nat)
    ensures NeedsAutoOut(rows, employee, day) <==>
              exists i :: 0 <= i < |rows| && Matches(rows[i], employee, day, In) &&
                          forall j :: 0 <= j < |rows| && Matches(rows[j], employee, day, Out) ==> rows[j].time < rows[i].time
  {
    var lastIn := LatestOfType(rows, employee, day, In);
    var lastOut := LatestOfType(rows, employee, day, Out);
    if NeedsAutoOut(rows, employee, day) {
      var i :| 0 <= i < |rows| && Matches(rows[i], employee, day, In) && rows[i].time == lastIn.value;
      assert forall j :: 0 <= j < |rows| && Matches(rows[j], employee, day, Out) ==> rows[j].time < rows[i].time;
    }
    if exists i :: 0 <= i < |rows| && Matches(rows[i], employee, day, In) &&
                   forall j :: 0 <= j < |rows| && Matches(rows[j], employee, day, Out) ==> rows[j].time < rows[i].time {
      var i :| 0 <= i < |rows| && Matches(rows[i], employee, day, In) &&
               forall j :: 0 <= j < |rows| && Matches(rows[j], employee, day, Out) ==> rows[j].time < rows[i].time;
      assert rows[i].time <= lastIn.value;
      if lastOut.Some? {
        var j :| 0 <= j < |rows| && Matches(rows[j], employee, day, Out) && rows[j].time == lastOut.value;
      }
    }
  }

  predicate DistinctNames(emps: seq<Employee>) {
    forall i, j :: 0 <= i < j < |emps| ==> emps[i].name != emps[j].name
  }

  predicate GetsAutoOut(e: Employee, rows: seq<Row>, today: nat) {
    Eligible(e) && NeedsAutoOut(rows, e.name, today)
  }

  /** The names of the employees that get an automatic OUT, in list order, where
      `gets[j]` says whether employee `j` gets one. */
  function Chosen(emps: seq<Employee>, gets: seq<bool>): (names: seq<string>)
    requires |gets| == |emps| && DistinctNames(emps)
    ensures forall j :: 0 <= j < |emps| ==> (emps[j].name in names <==> gets[j])
    ensures forall n :: n in names ==> exists j :: 0 <= j < |emps| && emps[j].name == n
    ensures forall k, l :: 0 <= k < l < |names| ==> names[k] != names[l]
    decreases |emps|
  {
    if |emps| == 0 then []
    else
      var n := |emps| - 1;
      var rest := Chosen(emps[..n], gets[..n]);
      assert forall j :: 0 <= j < n ==> emps[..n][j] == emps[j] && gets[..n][j] == gets[j];
      assert emps[n].name !in rest;
      if gets[n] then rest + [emps[n].name] else rest
  }

  /** Which employees get an automatic OUT. */
  function Gets(emps: seq<Employee>, rows: seq<Row>, today: nat): (gets: seq<bool>)
    ensures |gets| == |emps|
    ensures forall j :: 0 <= j < |emps| ==> (gets[j] <==> GetsAutoOut(emps[j], rows, today))
  {
    seq(|emps|, j requires 0 <= j < |emps| => GetsAutoOut(emps[j], rows, today))
  }

  /** `auto_checkout_site_employees`: one automatic OUT at `now` for each Active Site
      employee whose day is open, none for anybody else, at most one per employee
      (employee names are primary keys, hence distinct). */
  method AutoCheckoutSiteEmployees(emps: seq<Employee>, rows: seq<Row>, today: nat, now: Instant)
    returns (outs: seq<AutoOut>)
    requires DistinctNames(emps)
    ensures forall k :: 0 <= k < |outs| ==> outs[k].time == now && outs[k].reason == AutoReason
    ensures forall j :: 0 <= j < |emps| ==>
              ((exists k :: 0 <= k < |outs| && outs[k].employee == emps[j].name) <==> Gets(emps, rows, today)[j])
    ensures forall k :: 0 <= k < |outs| ==> exists j :: 0 <= j < |emps| && emps[j].name == outs[k].employee
    ensures forall k, l :: 0 <= k < l < |outs| ==> outs[k].employee != outs[l].employee
  {
    var gets := Gets(emps, rows, today);
    var names: seq<string> := [];
    var i := 0;
    while i < |emps|
      invariant 0 <= i <= |emps|
      invariant DistinctNames(emps[..i])
      invariant names == Chosen(emps[..i], gets[..i])
    {
      assert emps[..i + 1][..i] == emps[..i];
      assert gets[..i + 1][..i] == gets[..i];
      if gets[i] {
        names := names + [emps[i].name];
      }
      i := i + 1;
    }
    assert emps[..|emps|] == emps && gets[..|emps|] == gets;
    outs := seq(|names|, k requires 0 <= k < |names| => AutoOut(names[k], now, AutoReason));
    forall j | 0 <= j < |emps|
      ensures (exists k :: 0 <= k < |outs| && outs[k].employee == emps[j].name) <==> gets[j]
    {
      if gets[j] {
        var k :| 0 <= k < |names| && names[k] == emps[j].name;
        assert outs[k].employee == emps[j].name;
      }
    }
    forall k | 0 <= k < |outs|
      ensures exists j :: 0 <= j < |emps| && emps[j].name == outs[k].employee
    {
      assert names[k] in names;
    }
  }
}

=== FILE: checkin_log.dfy ===
/** One employee-day of `Employee Checkin` rows, in ascending time order, and the
    readings the attendance paths take from it: the first IN, the last OUT, and
    whether any row still waits for approval. */
module CheckinLog {
  import opened Wrappers
  import opened Clock

  datatype LogType = In | Out

  datatype Log = Log(time: Instant, logType: LogType, approvalRequired: bool, approved: bool)

  /** A row flagged for approval that no manager has approved yet. */
  predicate Pending(l: Log) {
    l.approvalRequired && !l.approved
  }

  predicate AnyPending(logs: seq<Log>) {
    exists i :: 0 <= i < |logs| && Pending(logs[i])
  }

  /** The query's `order_by="time asc"`. */
  predicate Sorted(logs: seq<Log>) {
    forall i, j :: 0 <= i < j < |logs| ==> logs[i].time <= logs[j].time
  }

  predicate HasIn(logs: seq<Log>) {
    exists i :: 0 <= i < |logs| && logs[i].logType == In
  }

  predicate HasOut(logs: seq<Log>) {
    exists i :: 0 <= i < |logs| && logs[i].logType == Out
  }

  /** The time of the first IN row scanning forward, or `None` without one. */
  function FirstIn(logs: seq<Log>): (r: Option<Instant>)
    ensures r.Some? <==> HasIn(logs)
    ensures r.Some? ==> exists i :: 0 <= i < |logs| && logs[i].logType == In && logs[i].time == r.value &&
                                    forall j :: 0 <= j < i ==> logs[j].logType != In
    decreases |logs|
  {
    if |logs| == 0 then None
    else if logs[0].logType == In then Some(logs[0].time)
    else
      var rest := FirstIn(logs[1..]);
      assert HasIn(logs) ==> HasIn(logs[1..]) by {
        if HasIn(logs) {
          var i :| 0 <= i < |logs| && logs[i].logType == In;
          assert logs[1..][i - 1] == logs[i];
        }
      }
      if rest.Some? then
        var i :| 0 <= i < |logs[1..]| && logs[1..][i].logType == In && logs[1..][i].time == rest.value &&
                 forall j :: 0 <= j < i ==> logs[1..][j].logType != In;
        assert logs[i + 1] == logs[1..][i];
        assert forall j :: 1 <= j < i + 1 ==> logs[j] == logs[1..][j - 1];
        rest
      else rest
  }

  /** The time of the last OUT row scanning backward, or `None` without one. */
  function LastOut(logs: seq<Log>): (r: Option<Instant>)
    ensures r.Some? <==> HasOut(logs)
    ensures r.Some? ==> exists i :: 0 <= i < |logs| && logs[i].logType == Out && logs[i].time == r.value &&
                                    forall j :: i < j < |logs| ==> logs[j].logType != Out
    decreases |logs|
  {
    if |logs| == 0 then None
    else if logs[|logs| - 1].logType == Out then Some(logs[|logs| - 1].time)
    else
      var front := logs[..|logs| - 1];
      var rest := LastOut(front);
      assert HasOut(logs) ==> HasOut(front) by {
        if HasOut(logs) {
          var i :| 0 <= i < |logs| && logs[i].logType == Out;
          assert front[i] == logs[i];
        }
      }
      if rest.Some? then
        var i :| 0 <= i < |front| && front[i].logType == Out && front[i].time == rest.value &&
                 forall j :: i < j < |front| ==> front[j].logType != Out;
        assert logs[i] == front[i];
        assert forall j :: i < j < |front| ==> logs[j] == front[j];
        rest
      else rest
  }

  /** In a time-ordered day, the first IN is no later than any IN of the day. */
  lemma FirstInIsEarliest(logs: seq<Log>, k: nat)
    requires Sorted(logs) && k < |logs| && logs[k].logType == In
    ensures FirstIn(logs).Some? && FirstIn(logs).value <= logs[k].time
  {
    var i :| 0 <= i < |logs| && logs[i].logType == In && logs[i].time == FirstIn(logs).value &&
             forall j :: 0 <= j < i ==> logs[j].logType != In;
    assert i <= k;
  }

  /** In a time-ordered day, the last OUT is no earlier than any OUT of the day. */
  lemma LastOutIsLatest(logs: seq<Log>, k: nat)
    requires Sorted(logs) && k < |logs| && logs[k].logType == Out
    ensures LastOut(logs).Some? && logs[k].time <= LastOut(logs).value
  {
    var i :| 0 <= i < |logs| && logs[i].logType == Out && logs[i].time == LastOut(logs).value &&
             forall j :: i < j < |logs| ==> logs[j].logType != Out;
    assert k <= i;
  }

  /** Appending rows later in the day never changes an existing first IN. */
  lemma {:induction false} FirstInAppend(a: seq<Log>, b: seq<Log>)
    ensures FirstIn(a + b) == if FirstIn(a).Some? then FirstIn(a) else FirstIn(b)
    decreases |a|
  {
    if |a| == 0 {
      assert a + b == b;
    } else {
      assert (a + b)[0] == a[0];
      assert (a + b)[1..] == a[1..] + b;
      FirstInAppend(a[1..], b);
    }
  }

  /** Rows earlier in the day never change an existing last OUT. */
  lemma {:induction false} LastOutPrepend(a: seq<Log>, b: seq<Log>)
    ensures LastOut(a + b) == if LastOut(b).Some? then LastOut(b) else LastOut(a)
    decreases |b|
  {
    if |b| == 0 {
      assert a + b == a;
    } else {
      var ab := a + b;
      assert ab[|ab| - 1] == b[|b| - 1];
      assert ab[..|ab| - 1] == a + b[..|b| - 1];
      LastOutPrepend(a, b[..|b| - 1]);
    }
  }
}

=== FILE: clock.dfy ===
/** Time as the attendance code sees it: instants are whole seconds since an epoch
    day 0 at 00:00:00, a time of day is the number of seconds since midnight, and a
    calendar date is a (year, month, day) triple of the proleptic Gregorian calendar. */
module Clock {
  const SecondsPerDay: nat := 86400
  const SecondsPerHour: nat := 3600

  /** A moment, in seconds since midnight of day 0. */
  type Instant = nat

  /** `datetime.time()` of an instant: seconds since midnight. */
  type TimeOfDay = t: nat | t < 86400

  /** The day an instant falls on (`getdate`). */
  function DayOf(t: Instant): nat {
    t / SecondsPerDay
  }

  /** The clock reading of an instant (`get_datetime(t).time()`). */
  function TimeOf(t: Instant): TimeOfDay {
    t % SecondsPerDay
  }

  /** `datetime.combine(day, time)`. */
  function At(day: nat, s: TimeOfDay): (t: Instant)
    ensures DayOf(t) == day && TimeOf(t) == s
  {
    day * SecondsPerDay + s
  }

  /** An instant is its day combined with its clock reading. */
  lemma AtDayOfTimeOf(t: Instant)
    ensures At(DayOf(t), TimeOf(t)) == t
  {
  }

  /** On one day, instants are ordered as their clock readings are. */
  lemma SameDayOrder(t: Instant, u: Instant)
    requires DayOf(t) == DayOf(u)
    ensures t < u <==> TimeOf(t) < TimeOf(u)
  {
    AtDayOfTimeOf(t);
    AtDayOfTimeOf(u);
  }

  /** A wall-clock reading `h:m:s`. */
  function Hms(h: nat, m: nat, s: nat): (t: TimeOfDay)
    requires h < 24 && m < 60 && s < 60
    ensures t / 3600 == h && (t % 3600) / 60 == m && t % 60 == s
  {
    h * 3600 + m * 60 + s
  }

  // ---------------------------------------------------------------- calendar dates

  datatype Date = Date(year: int, month: int, day: int)

  predicate IsLeapYear(y: int) {
    (y % 4 == 0 && y % 100 != 0) || y % 400 == 0
  }

  /** Number of days of a month (1..12), as `calendar.monthrange` gives it. */
  function DaysInMonth(year: int, month: int): (n: nat)
    requires 1 <= month <= 12
    ensures 28 <= n <= 31
    ensures month == 2 <==> n < 30
    ensures n == 29 <==> (month == 2 && IsLeapYear(year))
  {
    if month == 2 then (if IsLeapYear(year) then 29 else 28)
    else if month == 4 || month == 6 || month == 9 || month == 11 then 30
    else 31
  }

  predicate ValidDate(d: Date) {
    1 <= d.year && 1 <= d.month <= 12 && 1 <= d.day <= DaysInMonth(d.year, d.month)
  }

  /** Chronological order of dates. */
  predicate Before(a: Date, b: Date) {
    a.year < b.year || (a.year == b.year && (a.month < b.month || (a.month == b.month && a.day < b.day)))
  }

  /** `get_first_day(d)`. */
  function MonthStart(d: Date): (r: Date)
    ensures r.year == d.year && r.month == d.month && r.day == 1
    ensures ValidDate(d) ==> ValidDate(r) && !Before(d, r)
  {
    Date(d.year, d.month, 1)
  }

  /** Whether `x` lies in the closed range `[MonthStart(d), d - 1 day]`: the window of
      the month-to-date late-mark count. */
  predicate InMonthBefore(x: Date, d: Date) {
    !Before(x, MonthStart(d)) && Before(x, d)
  }

  /** For valid dates, the window is: same month and year, an earlier day. */
  lemma InMonthBeforeMeans(x: Date, d: Date)
    requires ValidDate(x) && ValidDate(d)
    ensures InMonthBefore(x, d) <==> (x.year == d.year && x.month == d.month && x.day < d.day)
  {
  }

  /** On the first of a month the window is empty. */
  lemma InMonthBeforeFirstDayEmpty(x: Date, d: Date)
    requires ValidDate(x) && ValidDate(d) && d.day == 1
    ensures !InMonthBefore(x, d)
  {
  }

  // ---------------------------------------------------------------- day numbers

  function DaysInYear(year: int): nat {
    if IsLeapYear(year) then 366 else 365
  }

  /** Days of `year` before the first of `month` (1..13, 13 standing for the year's end). */
  function DaysBeforeMonth(year: int, month: int): (n: nat)
    requires 1 <= month <= 13
  {
    var cumulative := [0, 31, 59, 90, 120, 151, 181, 212, 243, 273, 304, 334, 365];
    cumulative[month - 1] + (if IsLeapYear(year) && month > 2 then 1 else 0)
  }

  lemma DaysBeforeMonthStep(year: int, month: int)
    requires 1 <= month <= 12
    ensures DaysBeforeMonth(year, month + 1) == DaysBeforeMonth(year, month) + DaysInMonth(year, month)
    ensures DaysBeforeMonth(year, 13) == DaysInYear(year)
  {
  }

  /** A later month of the same year starts after every day of an earlier one. */
  lemma {:induction false} DaysBeforeMonthOrder(year: int, m1: int, m2: int)
    requires 1 <= m1 < m2 <= 13
    ensures DaysBeforeMonth(year, m1) + DaysInMonth(year, m1) <= DaysBeforeMonth(year, m2)
    decreases m2
  {
    DaysBeforeMonthStep(year, m1);
    if m2 > m1 + 1 {
      DaysBeforeMonthOrder(year, m1, m2 - 1);
      DaysBeforeMonthStep(year, m2 - 1);
    }
  }

  /** Days from 0001-01-01 to the first of January of `year`. */
  function DaysBeforeYear(year: int): nat
    requires 1 <= year
    decreases year
  {
    if year == 1 then 0 else DaysBeforeYear(year - 1) + DaysInYear(year - 1)
  }

  lemma {:induction false} DaysBeforeYearOrder(y1: int, y2: int)
    requires 1 <= y1 < y2
    ensures DaysBeforeYear(y1) + DaysInYear(y1) <= DaysBeforeYear(y2)
    decreases y2
  {
    if y2 > y1 + 1 {
      DaysBeforeYearOrder(y1, y2 - 1);
    }
  }

  /** The proleptic Gregorian ordinal of a date, counted from 0 at 0001-01-01. */
  function DayNumber(d: Date): nat
    requires ValidDate(d)
  {
    DaysBeforeYear(d.year) + DaysBeforeMonth(d.year, d.month) + d.day - 1
  }

  /** A date's offset within its year stays below the year's length. */
  lemma DayOfYearBound(d: Date)
    requires ValidDate(d)
    ensures DaysBeforeMonth(d.year, d.month) + d.day - 1 < DaysInYear(d.year)
  {
    DaysBeforeMonthStep(d.year, d.month);
    if d.month < 12 {
      DaysBeforeMonthOrder(d.year, d.month + 1, 13);
    }
  }

  /** Day numbers follow the calendar order, so they are distinct for distinct dates. */
  lemma DayNumberOrder(a: Date, b: Date)
    requires ValidDate(a) && ValidDate(b)
    ensures Before(a, b) <==> DayNumber(a) < DayNumber(b)
    ensures a == b <==> DayNumber(a) == DayNumber(b)
  {
    DayOfYearBound(a);
    DayOfYearBound(b);
    if a.year < b.year {
      DaysBeforeYearOrder(a.year, b.year);
    } else if b.year < a.year {
      DaysBeforeYearOrder(b.year, a.year);
    } else if a.month < b.month {
      DaysBeforeMonthOrder(a.year, a.month, b.month);
    } else if b.month < a.month {
      DaysBeforeMonthOrder(a.year, b.month, a.month);
    }
  }

  /** `date_diff(b, a)`: whole days from `a` to `b`. */
  function DateDiff(b: Date, a: Date): int
    requires ValidDate(a) && ValidDate(b)
  {
    DayNumber(b) - DayNumber(a)
  }
}

=== FILE: daily_attendance.dfy ===
/** The scheduled daily attendance job: per-employee derivation of yesterday's
    Attendance from the check-in rows, and the run summary. */
module DailyAttendance {
  import opened Wrappers
  import opened Clock
  import opened CheckinLog
  import opened ShiftRules
  import opened AttendanceRecord
  import opened WorkerAttendance
  import AO = AllowedOvertime

  /** The submitted Attendance already present for the employee and day, if any. */
  datatype Existing = NoAttendance | LeaveLinked | Unlinked

  /** The Employee fields the job reads. */
  datatype Employee = Employee(name: string, location: string, staffType: string, noCheckIn: bool)

  /** What the job reads from the database for one employee and day: the existing
      attendance, the day's check-in rows in time order, the ESS Location document named
      by the location (None when there is none), the month-to-date late count, and the
      holiday/overtime answers used by the Worker rules. */
  datatype DayFacts = DayFacts(existing: Existing, logs: seq<Log>, locationDoc: Option<LocationRules>,
                               monthLateCount: int, holiday: bool, overtime: Option<AO.Entry>)

  /** The result of one employee-day and whether an existing attendance was cancelled. */
  datatype Processing = Processing(result: DayResult, cancelledExisting: bool)

  /** The location rules in force: only a non-empty location that names a document. */
  function RulesFor(location: string, locationDoc: Option<LocationRules>): (r: Option<LocationRules>)
    ensures r.Some? <==> location != "" && locationDoc.Some?
    ensures r.Some? ==> r == locationDoc
  {
    if location != "" then locationDoc else None
  }

  /** `determine_status`: without rules only missing logs are flagged; with rules the
      rule chain runs and escalates once the month's count reaches the threshold. */
  function DecideDay(checkIn: Option<Instant>, checkOut: Option<Instant>, rules: Option<LocationRules>,
                     monthLateCount: int): (d: Decision)
    ensures rules.None? ==> d.status == Present && (d.lateEntry <==> checkIn.None?) && (d.earlyExit <==> checkOut.None?)
    ensures rules.Some? ==>
              var escalate := monthLateCount >= EscalationThreshold(rules.value);
              (d.status == HalfDay <==> HalfDayDue(checkIn, checkOut, rules.value, escalate)) &&
              (d.lateEntry <==> LateFlagDue(checkIn, checkOut, rules.value, escalate)) &&
              (d.earlyExit <==> EarlyFlagDue(checkIn, checkOut, rules.value, escalate))
    ensures d.status != Absent
    ensures |d.remarks| == 0 <==> (d.status == Present && !d.lateEntry && !d.earlyExit)
  {
    if rules.None? then DecideWithoutRules(checkIn, checkOut)
    else DetermineStatus(checkIn, checkOut, rules.value, monthLateCount >= EscalationThreshold(rules.value))
  }

  /** Non-Worker staff at a named location other than "Site". */
  predicate StrictLocation(emp: Employee) {
    emp.staffType != "Worker" && emp.location != "" && emp.location != "Site"
  }

  /** The path from line 116 on: no-check-in staff, pending approvals, missing logs, then
      the rules. */
  function GenericPath(emp: Employee, facts: DayFacts): (r: DayResult)
    ensures !r.Failed?
    ensures emp.noCheckIn ==> r.Processed? && r.record.status == Present && r.record.workedSeconds == 0
    ensures !emp.noCheckIn ==> (r.Skipped? <==> AnyPending(facts.logs))
    ensures !emp.noCheckIn && !AnyPending(facts.logs) ==>
              (r.MarkedAbsent? <==> (!HasIn(facts.logs) && !HasOut(facts.logs)) ||
                                    (StrictLocation(emp) && (!HasIn(facts.logs) || !HasOut(facts.logs))))
    ensures r.MarkedAbsent? ==> r.record.status == Absent && !r.record.lateEntry && !r.record.earlyExit &&
                                r.record.workedSeconds == 0
    ensures r.Processed? && !emp.noCheckIn ==>
              r.record.status != Absent && (HasIn(facts.logs) || HasOut(facts.logs)) &&
              (r.record.workedSeconds > 0 ==>
                 HasIn(facts.logs) && HasOut(facts.logs) &&
                 FirstIn(facts.logs).value + r.record.workedSeconds == LastOut(facts.logs).value)
    ensures r.Processed? && !emp.noCheckIn ==>
              var checkIn := FirstIn(facts.logs);
              var checkOut := LastOut(facts.logs);
              var d := DecideDay(checkIn, checkOut, RulesFor(emp.location, facts.locationDoc), facts.monthLateCount);
              r.record.status == d.status && r.record.lateEntry == d.lateEntry && r.record.earlyExit == d.earlyExit &&
              r.record.note == RuleRemarks(d.remarks) && r.record.workedSeconds == WorkedSeconds(checkIn, checkOut)
  {
    if emp.noCheckIn then Processed(NewAttendance(Present, false, false, 0, AutoPresentNoCheckIn))
    else if AnyPending(facts.logs) then Skipped
    else
      var checkIn := FirstIn(facts.logs);
      var checkOut := LastOut(facts.logs);
      if checkIn.None? && checkOut.None? then MarkedAbsent(AbsentRecord(NoLogs))
      else if StrictLocation(emp) && (checkIn.None? || checkOut.None?) then MarkedAbsent(AbsentRecord(MissingLogNonWorker))
      else
        var d := DecideDay(checkIn, checkOut, RulesFor(emp.location, facts.locationDoc), facts.monthLateCount);
        Processed(NewAttendance(d.status, d.lateEntry, d.earlyExit, WorkedSeconds(checkIn, checkOut), RuleRemarks(d.remarks)))
  }

  /** `process_employee_attendance` with the Worker hook resolved to the Worker module's
      entry point, `run_worker_attendance`, for staff of type "Worker". */
  function ProcessEmployeeAttendance(emp: Employee, facts: DayFacts): (p: Processing)
    ensures !p.result.Failed?
    ensures p.cancelledExisting <==> facts.existing == Unlinked
    ensures facts.existing == LeaveLinked ==> p.result == Skipped
    ensures facts.existing != LeaveLinked && emp.staffType == "Worker" ==>
              p.result == RunWorkerAttendance(emp.location, facts.holiday, facts.overtime, facts.logs)
    ensures facts.existing != LeaveLinked && emp.staffType != "Worker" && !emp.noCheckIn && AnyPending(facts.logs) ==>
              p.result == Skipped
    ensures facts.existing != LeaveLinked && emp.staffType != "Worker" ==> p.result == GenericPath(emp, facts)
  {
    if facts.existing == LeaveLinked then Processing(Skipped, false)
    else
      var cancelled := facts.existing == Unlinked;
      if emp.staffType == "Worker" then
        Processing(RunWorkerAttendance(emp.location, facts.holiday, facts.overtime, facts.logs), cancelled)
      else Processing(GenericPath(emp, facts), cancelled)
  }

  /** The code as written: past the leave check it imports
      `process_worker_attendance_with_hours`, which the Worker module does not define, so
      every such call raises after the existing attendance has been cancelled. */
  function ProcessEmployeeAttendanceAsWritten(emp: Employee, facts: DayFacts): (p: Processing)
    ensures p.result.Failed? <==> facts.existing != LeaveLinked
    ensures !p.result.Processed? && !p.result.MarkedAbsent?
    ensures p.cancelledExisting <==> facts.existing == Unlinked
  {
    if facts.existing == LeaveLinked then Processing(Skipped, false)
    else Processing(Failed("ImportError: cannot import name 'process_worker_attendance_with_hours'"),
                    facts.existing == Unlinked)
  }

  /** The two versions agree exactly on leave-covered days and nowhere else: as written,
      every other employee-day is an error and its unlinked attendance is lost. */
  lemma AsWrittenFailsWhereCorrectedDecides(emp: Employee, facts: DayFacts)
    ensures ProcessEmployeeAttendanceAsWritten(emp, facts) == ProcessEmployeeAttendance(emp, facts)
            <==> facts.existing == LeaveLinked
  {
  }

  // ---------------------------------------------------------------- the daily run

  datatype Kind = KProcessed | KAbsent | KSkipped | KError

  /** How `process_daily_attendance` buckets a result. */
  function KindOf(r: DayResult): Kind {
    match r
    case Processed(_) => KProcessed
    case MarkedAbsent(_) => KAbsent
    case Skipped => KSkipped
    case Failed(_) => KError
  }

  function CountKind(rs: seq<DayResult>, k: Kind): (n: nat)
    ensures n <= |rs|
    decreases |rs|
  {
    if |rs| == 0 then 0
    else CountKind(rs[..|rs| - 1], k) + if KindOf(rs[|rs| - 1]) == k then 1 else 0
  }

  /** Every result lands in exactly one bucket. */
  lemma {:induction false} CountsCoverAll(rs: seq<DayResult>)
    ensures CountKind(rs, KProcessed) + CountKind(rs, KAbsent) + CountKind(rs, KSkipped) + CountKind(rs, KError) == |rs|
    decreases |rs|
  {
    if |rs| > 0 {
      CountsCoverAll(rs[..|rs| - 1]);
    }
  }

  datatype Summary = Summary(holiday: bool, processed: nat, absent: nat, skipped: nat, errors: nat, total: nat)

  /** The results of processing every active employee. */
  function RunResults(emps: seq<Employee>, facts: seq<DayFacts>): (rs: seq<DayResult>)
    requires |emps| == |facts|
    ensures |rs| == |emps|
    ensures forall i :: 0 <= i < |rs| ==> rs[i] == ProcessEmployeeAttendance(emps[i], facts[i]).result
  {
    seq(|emps|, i requires 0 <= i < |emps| => ProcessEmployeeAttendance(emps[i], facts[i]).result)
  }

  /** `process_daily_attendance`: nothing at all on a company holiday; otherwise every
      employee is processed and lands in exactly one counter. */
  method ProcessDailyAttendance(yesterdayIsHoliday: bool, emps: seq<Employee>, facts: seq<DayFacts>)
    returns (s: Summary)
    requires |emps| == |facts|
    ensures yesterdayIsHoliday ==> s == Summary(true, 0, 0, 0, 0, 0)
    ensures !yesterdayIsHoliday ==>
              !s.holiday && s.total == |emps| &&
              s.processed + s.absent + s.skipped + s.errors == s.total &&
              s.processed == CountKind(RunResults(emps, facts), KProcessed) &&
              s.absent == CountKind(RunResults(emps, facts), KAbsent) &&
              s.skipped == CountKind(RunResults(emps, facts), KSkipped) &&
              s.errors == 0
  {
    if yesterdayIsHoliday {
      return Summary(true, 0, 0, 0, 0, 0);
    }
    var rs := RunResults(emps, facts);
    var processed, absent, skipped, errors := 0, 0, 0, 0;
    var i := 0;
    while i < |emps|
      invariant 0 <= i <= |emps|
      invariant processed == CountKind(rs[..i], KProcessed)
      invariant absent == CountKind(rs[..i], KAbsent)
      invariant skipped == CountKind(rs[..i], KSkipped)
      invariant errors == CountKind(rs[..i], KError)
      invariant errors == 0
    {
      var r := ProcessEmployeeAttendance(emps[i], facts[i]).result;
      assert rs[..i + 1][..i] == rs[..i];
      assert rs[..i + 1][i] == r;
      match r {
        case Processed(_) => processed := processed + 1;
        case MarkedAbsent(_) => absent := absent + 1;
        case Skipped => skipped := skipped + 1;
        case Failed(_) => errors := errors + 1;
      }
      i := i + 1;
    }
    assert rs[..|emps|] == rs;
    CountsCoverAll(rs);
    s := Summary(false, processed, absent, skipped, errors, |emps|);
  }
}

=== FILE: driver_attendance.dfy ===
/** Attendance for drivers: an IN is enough for Present, a missing OUT defaults to
    18:00 of the day, and a half-hour break is deducted from longer days. */
module DriverAttendance {
  import opened Wrappers
  import opened Clock
  import opened CheckinLog
  import opened ShiftRules
  import opened AttendanceRecord

  const DefaultCheckOut: TimeOfDay := 18 * 3600
  const BreakSeconds: nat := 1800

  /** The break rule: half an hour off only when more than half an hour was worked. */
  function AfterBreak(raw: nat): (w: nat)
    ensures raw > BreakSeconds ==> w + BreakSeconds == raw
    ensures raw <= BreakSeconds ==> w == raw
    ensures w <= raw
  {
    if raw > BreakSeconds then raw - BreakSeconds else raw
  }

  /** The OUT used for the hours: the last OUT, or 18:00 on the processed day. */
  function EffectiveCheckOut(day: nat, logs: seq<Log>): (t: Instant)
    ensures HasOut(logs) ==> t == LastOut(logs).value
    ensures !HasOut(logs) ==> DayOf(t) == day && TimeOf(t) == DefaultCheckOut
  {
    LastOut(logs).GetOr(At(day, DefaultCheckOut))
  }

  /** `run_driver_attendance` without the keyword arguments the record writer rejects. */
  function RunDriverAttendance(day: nat, logs: seq<Log>): (r: DayResult)
    ensures !r.Failed?
    ensures r.Skipped? <==> AnyPending(logs)
    ensures r.MarkedAbsent? <==> !AnyPending(logs) && !HasIn(logs)
    ensures r.MarkedAbsent? ==> r.record.status == Absent && r.record.workedSeconds == 0
    ensures r.Processed? ==>
              r.record.status == Present && !r.record.lateEntry && !r.record.earlyExit &&
              r.record.workedSeconds == AfterBreak(WorkedSeconds(FirstIn(logs), Some(EffectiveCheckOut(day, logs))))
  {
    if AnyPending(logs) then Skipped
    else if FirstIn(logs).None? then MarkedAbsent(AbsentRecord(DriverNoCheckIn))
    else
      var raw := WorkedSeconds(FirstIn(logs), Some(EffectiveCheckOut(day, logs)));
      Processed(NewAttendance(Present, false, false, AfterBreak(raw), DriverHours))
  }

  /** As written: both record-writing calls pass `checkin_time`/`checkout_time`, which
      `create_attendance_record` does not accept, so they raise `TypeError`. */
  function RunDriverAttendanceAsWritten(day: nat, logs: seq<Log>): (r: DayResult)
    ensures r.Skipped? <==> AnyPending(logs)
    ensures !r.Skipped? ==> r.Failed?
  {
    if AnyPending(logs) then Skipped
    else Failed("TypeError: create_attendance_record() got an unexpected keyword argument 'checkin_time'")
  }

  /** As written no driver attendance is ever recorded; the corrected rule records one
      for every day without pending rows. */
  lemma DriverAsWrittenNeverRecords(day: nat, logs: seq<Log>)
    requires !AnyPending(logs)
    ensures RunDriverAttendanceAsWritten(day, logs).Failed?
    ensures RunDriverAttendance(day, logs).Processed? || RunDriverAttendance(day, logs).MarkedAbsent?
  {
  }
}

=== FILE: employee_group.dfy ===
/** The "OTPL Employee Group" picker: `fetch_employees` turns the form's filter values into
    the Employee query filters. */
module EmployeeGroup {
  import opened Wrappers
  import opened Text
  import V = V12Compatible

  /** The filter values sent by the form; every key may be missing. */
  datatype GroupFilters = GroupFilters(businessVertical: Option<string>, staffType: Option<string>,
                                       location: Option<string>, isTeamLeader: V.Value)

  /** A value of the Employee query: the copied text or the flag 1. */
  datatype FilterValue = Literal(s: string) | Flag(n: int)

  const BusinessVerticalKey := "business_vertical"
  const StaffTypeKey := "staff_type"
  const LocationKey := "location"
  const TeamLeaderKey := "is_team_leader"

  /** The business vertical narrows the query unless it is empty or "ALL". */
  predicate NarrowsVertical(f: GroupFilters) {
    Truthy(f.businessVertical) && f.businessVertical.value != "ALL"
  }

  /** `fetch_employees`: the Employee filters built from the form's values. Without any
      filters at all, `filters.get` raises. */
  function FetchEmployeeFilters(filters: Option<GroupFilters>): (r: Result<map<string, FilterValue>>)
    ensures r.Err? <==> filters.None?
    ensures r.Ok? ==> r.value.Keys <= {BusinessVerticalKey, StaffTypeKey, LocationKey, TeamLeaderKey}
    ensures r.Ok? ==> (BusinessVerticalKey in r.value <==> NarrowsVertical(filters.value))
    ensures r.Ok? && BusinessVerticalKey in r.value ==> r.value[BusinessVerticalKey] == Literal(filters.value.businessVertical.value)
    ensures r.Ok? ==> (StaffTypeKey in r.value <==> Truthy(filters.value.staffType))
    ensures r.Ok? && StaffTypeKey in r.value ==> r.value[StaffTypeKey] == Literal(filters.value.staffType.value)
    ensures r.Ok? ==> (LocationKey in r.value <==> Truthy(filters.value.location))
    ensures r.Ok? && LocationKey in r.value ==> r.value[LocationKey] == Literal(filters.value.location.value)
    ensures r.Ok? ==> (TeamLeaderKey in r.value <==> V.Truthy(filters.value.isTeamLeader))
    ensures r.Ok? && TeamLeaderKey in r.value ==> r.value[TeamLeaderKey] == Flag(1)
  {
    if filters.None? then Err("AttributeError: 'NoneType' object has no attribute 'get'")
    else
      var f := filters.value;
      var q0: map<string, FilterValue> := map[];
      var q1 := if NarrowsVertical(f) then q0[BusinessVerticalKey := Literal(f.businessVertical.value)] else q0;
      var q2 := if Truthy(f.staffType) then q1[StaffTypeKey := Literal(f.staffType.value)] else q1;
      var q3 := if Truthy(f.location) then q2[LocationKey := Literal(f.location.value)] else q2;
      var q4 := if V.Truthy(f.isTeamLeader) then q3[TeamLeaderKey := Flag(1)] else q3;
      Ok(q4)
  }

  /** Whether an employee with the given fields passes the query filters. */
  predicate Matches(q: map<string, FilterValue>, vertical: string, staffType: string, location: string, teamLeader: bool) {
    (BusinessVerticalKey in q ==> q[BusinessVerticalKey] == Literal(vertical)) &&
    (StaffTypeKey in q ==> q[StaffTypeKey] == Literal(staffType)) &&
    (LocationKey in q ==> q[LocationKey] == Literal(location)) &&
    (TeamLeaderKey in q ==> q[TeamLeaderKey] == Flag(if teamLeader then 1 else 0))
  }

  /** Choosing "ALL" selects exactly the employees that leaving the vertical empty selects:
      for every employee the two queries agree. */
  lemma AllVerticalsMeansUnfiltered(f: GroupFilters, vertical: string, staffType: string, location: string, teamLeader: bool)
    ensures FetchEmployeeFilters(Some(f.(businessVertical := Some("ALL")))).Ok?
    ensures Matches(FetchEmployeeFilters(Some(f.(businessVertical := Some("ALL")))).value, vertical, staffType, location, teamLeader)
            <==> Matches(FetchEmployeeFilters(Some(f.(businessVertical := None))).value, vertical, staffType, location, teamLeader)
  {
    var a := FetchEmployeeFilters(Some(f.(businessVertical := Some("ALL")))).value;
    var b := FetchEmployeeFilters(Some(f.(businessVertical := None))).value;
    assert a == b;
  }

  /** Every extra non-empty value only narrows the selection: an employee matching the
      query with a filter set also matches it with that filter cleared. */
  lemma MoreFiltersSelectFewer(f: GroupFilters, vertical: string, staffType: string, location: string, teamLeader: bool)
    requires Matches(FetchEmployeeFilters(Some(f)).value, vertical, staffType, location, teamLeader)
    ensures Matches(FetchEmployeeFilters(Some(f.(staffType := None))).value, vertical, staffType, location, teamLeader)
    ensures Matches(FetchEmployeeFilters(Some(f.(location := None))).value, vertical, staffType, location, teamLeader)
    ensures Matches(FetchEmployeeFilters(Some(f.(isTeamLeader := V.VNone))).value, vertical, staffType, location, teamLeader)
  {
  }
}

=== FILE: employee_salary.dfy ===
/** `validate_employee`: the basic salary is half the advance still to be deducted. */
module EmployeeSalary {

  /** The `basic_salary` set from `advance_to_be_deducted`. */
  function BasicSalary(advance: real): (r: real)
    ensures r >= 0.0
    ensures advance > 0.0 ==> r * 2.0 == advance && r < advance
    ensures advance <= 0.0 ==> r == 0.0
  {
    if advance > 0.0 then advance / 2.0 else 0.0
  }

  /** A larger advance never gives a smaller basic salary. */
  lemma BasicSalaryMonotone(a: real, b: real)
    requires a <= b
    ensures BasicSalary(a) <= BasicSalary(b)
  {
  }
}

=== FILE: employee_worker_sync.dfy ===
/** The Employee hooks that keep a Worker's order fields in step with their reporting
    manager: either the internal pair (business vertical, sales order) or the external
    triple copied from a manager or from an Employee Pull record, never both. */
module EmployeeWorkerSync {
  import opened Wrappers
  import opened Text

  /** The fields a worker copies from their manager. `externalSalesOrder` is the 0/1 check. */
  datatype OrderFields = OrderFields(businessVertical: Option<string>, salesOrder: Option<string>,
                                     externalSalesOrder: int, externalOrder: Option<string>,
                                     externalBusinessVertical: Option<string>, externalSo: Option<string>)

  datatype EmployeeDoc = EmployeeDoc(name: string, status: string, staffType: string, isTeamLeader: int,
                                     availability: string, location: string,
                                     reportsTo: Option<string>, externalReportTo: Option<string>,
                                     externalReportingManager: int, fields: OrderFields)

  datatype EmployeePullDoc = EmployeePullDoc(name: string, salesOrder: Option<string>,
                                             businessLine: Option<string>, company: Option<string>)

  /** Exactly one of the two field groups is in use: the state in which
      `_update_single_worker_from_manager` and `_clear_worker_fields` leave a Worker. */
  predicate Exclusive(f: OrderFields) {
    (f.externalSalesOrder == 1 ==> f.businessVertical.None? && f.salesOrder.None?) &&
    (f.externalSalesOrder != 1 ==> f.externalSalesOrder == 0 &&
                                    f.externalOrder.None? && f.externalBusinessVertical.None? && f.externalSo.None?)
  }

  /** `_clear_worker_fields`. */
  const Cleared := OrderFields(None, None, 0, None, None, None)

  /** The copy from a manager's fields, shared by the single-worker update and the
      team-leader propagation. */
  function FromManager(m: OrderFields): (r: OrderFields)
    ensures Exclusive(r)
    ensures r.externalSalesOrder == 1 <==> m.externalSalesOrder == 1
    ensures r.externalSalesOrder == 1 ==>
              r.externalOrder == m.externalOrder && r.externalBusinessVertical == m.externalBusinessVertical &&
              r.externalSo == m.externalSo
    ensures r.externalSalesOrder == 0 ==> r.businessVertical == m.businessVertical && r.salesOrder == m.salesOrder
  {
    if m.externalSalesOrder == 1 then OrderFields(None, None, 1, m.externalOrder, m.externalBusinessVertical, m.externalSo)
    else OrderFields(m.businessVertical, m.salesOrder, 0, None, None, None)
  }

  /** A manager whose own fields are consistent hands them on unchanged, so a chain of
      workers and leaders all carry the same fields. */
  lemma FromConsistentManager(m: OrderFields)
    requires Exclusive(m)
    ensures FromManager(m) == m
  {
  }

  /** The copy from an Employee Pull record; the key concatenation raises on a missing
      sales order or company. */
  function FromPull(p: EmployeePullDoc): (r: Result<OrderFields>)
    ensures r.Ok? <==> p.salesOrder.Some? && p.company.Some?
    ensures p.salesOrder.None? ==> r == Err(NoneLeftOperand)
    ensures p.salesOrder.Some? && p.company.None? ==> r == Err(NoneRightOperand)
    ensures r.Ok? ==> Exclusive(r.value) && r.value.externalSalesOrder == 1 &&
                      r.value.externalOrder == Some(p.salesOrder.value + "-" + p.company.value) &&
                      r.value.externalSo == p.salesOrder && r.value.externalBusinessVertical == p.businessLine
  {
    if p.salesOrder.None? then Err(NoneLeftOperand)
    else if p.company.None? then Err(NoneRightOperand)
    else Ok(OrderFields(None, None, 1, Some(p.salesOrder.value + "-" + p.company.value), p.businessLine, p.salesOrder))
  }

  /** `_update_single_worker_from_manager`: the worker's new fields, given the Employee Pull
      records and the other employees' fields. */
  function UpdateSingleWorker(doc: EmployeeDoc, pulls: map<string, EmployeePullDoc>,
                              managers: map<string, OrderFields>): (r: Result<OrderFields>)
    ensures r.Ok? ==> Exclusive(r.value)
    ensures doc.externalReportingManager == 1 && !Truthy(doc.externalReportTo) ==> r == Ok(Cleared)
    ensures doc.externalReportingManager != 1 && !Truthy(doc.reportsTo) ==> r == Ok(Cleared)
    ensures doc.externalReportingManager == 1 && Truthy(doc.externalReportTo) ==>
              (r.Ok? <==> doc.externalReportTo.value in pulls && FromPull(pulls[doc.externalReportTo.value]).Ok?) &&
              (r.Ok? ==> r == FromPull(pulls[doc.externalReportTo.value]))
    ensures doc.externalReportingManager != 1 && Truthy(doc.reportsTo) ==>
              (r.Ok? <==> doc.reportsTo.value in managers) &&
              (r.Ok? ==> r.value == FromManager(managers[doc.reportsTo.value]))
  {
    if doc.externalReportingManager == 1 then
      if !Truthy(doc.externalReportTo) then Ok(Cleared)
      else if doc.externalReportTo.value !in pulls then Err("Employee Pull " + doc.externalReportTo.value + " not found")
      else FromPull(pulls[doc.externalReportTo.value])
    else if !Truthy(doc.reportsTo) then Ok(Cleared)
    else if doc.reportsTo.value !in managers then Err("Could not fetch manager data for Employee: " + doc.reportsTo.value)
    else Ok(FromManager(managers[doc.reportsTo.value]))
  }

  const BothManagersMessage := "Employee cannot have both internal and external reporting manager. Please select only one."

  predicate IsWorker(doc: EmployeeDoc) {
    doc.staffType == "Worker" && doc.isTeamLeader != 1
  }

  /** The "On Leave" reassignment: the default manager from the ESS settings, and that
      manager's location or "Noida". */
  function OnLeave(doc: EmployeeDoc, defaultManager: Option<string>, locations: map<string, string>): (r: EmployeeDoc)
    ensures r.reportsTo == defaultManager && r.externalReportingManager == 0
    ensures Truthy(defaultManager) && defaultManager.value in locations && locations[defaultManager.value] != "" ==>
              r.location == locations[defaultManager.value]
    ensures !(Truthy(defaultManager) && defaultManager.value in locations && locations[defaultManager.value] != "") ==>
              r.location == "Noida"
    ensures r.(reportsTo := doc.reportsTo, externalReportingManager := doc.externalReportingManager, location := doc.location) == doc
  {
    var loc := if Truthy(defaultManager) && defaultManager.value in locations && locations[defaultManager.value] != ""
               then locations[defaultManager.value] else "Noida";
    doc.(reportsTo := defaultManager, externalReportingManager := 0, location := loc)
  }

  /** `sync_worker_fields_before_save`: the document as saved, or the error that stops the save. */
  function SyncWorkerFieldsBeforeSave(doc: EmployeeDoc, defaultManager: Option<string>, locations: map<string, string>,
                                      pulls: map<string, EmployeePullDoc>, managers: map<string, OrderFields>)
    : (r: Result<EmployeeDoc>)
    ensures r.Ok? ==> !(Truthy(r.value.reportsTo) && Truthy(r.value.externalReportTo))
    ensures r.Ok? && Truthy(r.value.externalReportTo) ==> r.value.externalReportingManager == 1
    ensures r.Ok? && IsWorker(doc) ==> Exclusive(r.value.fields)
    ensures r.Ok? && !IsWorker(doc) ==> r.value.fields == doc.fields
    ensures r.Ok? ==> r.value.name == doc.name && r.value.staffType == doc.staffType &&
                      r.value.externalReportTo == doc.externalReportTo
    ensures r.Ok? && doc.availability == "On Leave" ==> r.value.reportsTo == defaultManager
    ensures r.Ok? && doc.availability != "On Leave" ==> r.value.reportsTo == doc.reportsTo && r.value.location == doc.location
    ensures (doc.availability == "On Leave" && Truthy(defaultManager) && Truthy(doc.externalReportTo)) ==> r.Err?
    ensures (doc.availability != "On Leave" && Truthy(doc.reportsTo) && Truthy(doc.externalReportTo)) ==> r.Err?
  {
    var d1 := if doc.availability == "On Leave" then OnLeave(doc, defaultManager, locations) else doc;
    var d2 :- if IsWorker(d1) then
                (var f :- UpdateSingleWorker(d1, pulls, managers); Ok(d1.(fields := f)))
              else Ok(d1);
    var d3 := if Truthy(d2.externalReportTo) then d2.(externalReportingManager := 1) else d2;
    if Truthy(d3.reportsTo) && Truthy(d3.externalReportTo) then Err(BothManagersMessage)
    else Ok(d3)
  }

  // ---------------------------------------------------------------- propagation

  /** What a save of an Employee reads from the database: the default reporting manager
      of the ESS settings, the employees' locations, the Employee Pull records and the
      employees' order fields, all as stored once the triggering document was saved. */
  datatype Lookups = Lookups(defaultManager: Option<string>, locations: map<string, string>,
                             pulls: map<string, EmployeePullDoc>, managers: map<string, OrderFields>)

  /** `worker_doc.save()`: the validate hook runs again on the modified document
      (`ignore_validate_update_after_submit` does not switch it off). */
  function SaveEmployee(doc: EmployeeDoc, db: Lookups): Result<EmployeeDoc> {
    SyncWorkerFieldsBeforeSave(doc, db.defaultManager, db.locations, db.pulls, db.managers)
  }

  /** Who pushes fields down to workers: a team leader's save, or an Employee Pull's save
      with the fields computed from it. */
  datatype Source = Leader(leader: EmployeeDoc) | Pull(pullName: string, pulled: OrderFields)

  /** The workers `_update_workers_under_team_leader` selects. */
  predicate UnderLeader(w: EmployeeDoc, leader: string) {
    w.reportsTo == Some(leader) && w.staffType == "Worker" && w.isTeamLeader == 0 && w.status == "Active"
  }

  /** The workers `update_workers_from_employee_pull` selects. */
  predicate UnderPull(w: EmployeeDoc, pull: string) {
    w.externalReportTo == Some(pull) && w.externalReportingManager == 1 &&
    w.staffType == "Worker" && w.isTeamLeader == 0 && w.status == "Active"
  }

  predicate Selected(src: Source, w: EmployeeDoc) {
    match src
    case Leader(l) => l.isTeamLeader == 1 && UnderLeader(w, l.name)
    case Pull(name, _) => UnderPull(w, name)
  }

  /** The fields the loop writes onto a selected worker before saving it. */
  function Pushed(src: Source): OrderFields {
    match src
    case Leader(l) => FromManager(l.fields)
    case Pull(_, f) => f
  }

  /** One worker of the loop: a selected worker gets the pushed fields and is saved;
      anyone else is untouched. */
  function SaveOne(src: Source, w: EmployeeDoc, db: Lookups): Result<EmployeeDoc> {
    if Selected(src, w) then SaveEmployee(w.(fields := Pushed(src)), db) else Ok(w)
  }

  /** The loop over the staff in order; the first save that raises ends it with that
      error. */
  function SaveAll(src: Source, staff: seq<EmployeeDoc>, db: Lookups): (r: Result<seq<EmployeeDoc>>)
    ensures r.Ok? <==> forall i :: 0 <= i < |staff| ==> SaveOne(src, staff[i], db).Ok?
    ensures r.Ok? ==> |r.value| == |staff| &&
                      forall i :: 0 <= i < |staff| ==> Ok(r.value[i]) == SaveOne(src, staff[i], db)
    ensures r.Err? ==> exists i :: 0 <= i < |staff| && SaveOne(src, staff[i], db) == Err(r.msg) &&
                                   forall j :: 0 <= j < i ==> SaveOne(src, staff[j], db).Ok?
    decreases |staff|
  {
    if |staff| == 0 then Ok([])
    else
      assert forall i :: 1 <= i < |staff| ==> staff[i] == staff[1..][i - 1];
      var head :- SaveOne(src, staff[0], db);
      var tail :- SaveAll(src, staff[1..], db);
      Ok([head] + tail)
  }

  /** `update_worker_fields_from_manager`: a team leader's save pushes its fields to every
      active non-leader Worker reporting to it, and saves each, which runs the validate
      hook on it; the first save that raises aborts the whole update. */
  function UpdateWorkersUnderTeamLeader(leader: EmployeeDoc, staff: seq<EmployeeDoc>, db: Lookups)
    : (r: Result<seq<EmployeeDoc>>)
    ensures leader.isTeamLeader != 1 ==> r == Ok(staff)
    ensures r.Ok? <==> forall i :: 0 <= i < |staff| && Selected(Leader(leader), staff[i]) ==>
                         SaveEmployee(staff[i].(fields := FromManager(leader.fields)), db).Ok?
    ensures r.Ok? ==> |r.value| == |staff| &&
                      forall i :: 0 <= i < |staff| ==>
                        if Selected(Leader(leader), staff[i])
                        then Ok(r.value[i]) == SaveEmployee(staff[i].(fields := FromManager(leader.fields)), db)
                        else r.value[i] == staff[i]
  {
    if leader.isTeamLeader != 1 then
      assert forall i :: 0 <= i < |staff| ==> SaveOne(Leader(leader), staff[i], db) == Ok(staff[i]);
      var r := SaveAll(Leader(leader), staff, db);
      assert r.Ok? && r.value == staff;
      r
    else SaveAll(Leader(leader), staff, db)
  }

  /** A plain worker under the leader (not On Leave, no external manager) ends with the
      leader's fields, as copied, once the stored fields of the leader are its new ones. */
  lemma LeaderFieldsReachPlainWorkers(leader: EmployeeDoc, staff: seq<EmployeeDoc>, db: Lookups, i: int)
    requires leader.isTeamLeader == 1 && leader.name != ""
    requires leader.name in db.managers && db.managers[leader.name] == leader.fields
    requires 0 <= i < |staff| && UnderLeader(staff[i], leader.name)
    requires staff[i].availability != "On Leave" && staff[i].externalReportingManager != 1 &&
             !Truthy(staff[i].externalReportTo)
    ensures UpdateWorkersUnderTeamLeader(leader, staff, db).Ok? ==>
              UpdateWorkersUnderTeamLeader(leader, staff, db).value[i] == staff[i].(fields := FromManager(leader.fields))
  {
    var w := staff[i].(fields := FromManager(leader.fields));
    assert UpdateSingleWorker(w, db.pulls, db.managers) == Ok(FromManager(leader.fields));
    assert SaveEmployee(w, db) == Ok(w);
  }

  /** A worker under the leader who also has an external manager makes the validate hook
      raise, so the update of every worker is aborted. */
  lemma BothManagersAbortTeamLeaderUpdate(leader: EmployeeDoc, staff: seq<EmployeeDoc>, db: Lookups, i: int)
    requires leader.isTeamLeader == 1 && leader.name != ""
    requires 0 <= i < |staff| && UnderLeader(staff[i], leader.name)
    requires staff[i].availability != "On Leave" && Truthy(staff[i].externalReportTo)
    ensures UpdateWorkersUnderTeamLeader(leader, staff, db).Err?
  {
    assert SaveEmployee(staff[i].(fields := FromManager(leader.fields)), db).Err?;
  }

  predicate AnyUnderPull(staff: seq<EmployeeDoc>, pull: string) {
    exists i :: 0 <= i < |staff| && UnderPull(staff[i], pull)
  }

  /** `update_workers_from_employee_pull`: the workers referencing the record take its
      external values and are saved, which runs the validate hook on each; with no such
      worker nothing is evaluated, so nothing can fail. */
  function UpdateWorkersFromEmployeePull(pull: EmployeePullDoc, staff: seq<EmployeeDoc>, db: Lookups)
    : (r: Result<seq<EmployeeDoc>>)
    ensures !AnyUnderPull(staff, pull.name) ==> r == Ok(staff)
    ensures AnyUnderPull(staff, pull.name) && FromPull(pull).Err? ==> r == Err(FromPull(pull).msg)
    ensures FromPull(pull).Ok? ==>
              (r.Ok? <==> forall i :: 0 <= i < |staff| && UnderPull(staff[i], pull.name) ==>
                            SaveEmployee(staff[i].(fields := FromPull(pull).value), db).Ok?)
    ensures r.Ok? ==> |r.value| == |staff|
    ensures r.Ok? ==> forall i :: 0 <= i < |staff| ==>
                        if UnderPull(staff[i], pull.name)
                        then Ok(r.value[i]) == SaveEmployee(staff[i].(fields := FromPull(pull).value), db)
                        else r.value[i] == staff[i]
  {
    if !AnyUnderPull(staff, pull.name) then Ok(staff)
    else
      var f :- FromPull(pull);
      SaveAll(Pull(pull.name, f), staff, db)
  }

  /** A worker referencing the record and no internal manager, not On Leave, ends with
      the record's external values, as copied, once the stored record is the saved one. */
  lemma PullFieldsReachPlainWorkers(pull: EmployeePullDoc, staff: seq<EmployeeDoc>, db: Lookups, i: int)
    requires pull.name != "" && pull.name in db.pulls && db.pulls[pull.name] == pull && FromPull(pull).Ok?
    requires 0 <= i < |staff| && UnderPull(staff[i], pull.name)
    requires staff[i].availability != "On Leave" && !Truthy(staff[i].reportsTo)
    ensures UpdateWorkersFromEmployeePull(pull, staff, db).Ok? ==>
              UpdateWorkersFromEmployeePull(pull, staff, db).value[i] == staff[i].(fields := FromPull(pull).value)
  {
    var w := staff[i].(fields := FromPull(pull).value);
    assert UpdateSingleWorker(w, db.pulls, db.managers) == FromPull(pull);
    assert SaveEmployee(w, db) == Ok(w);
  }
}

=== FILE: erp_receivers.dfy ===
/** The whitelisted receivers on the remote side of the ERP sync: Employee Pull and
    Sales Order Pull are upserted by their business key, Leader Location rows are
    always inserted. */
module ErpReceivers {
  import opened Wrappers
  import opened Text

  /** Payload fields are `None` when the JSON leaves them out. */
  datatype EmployeePayload = EmployeePayload(employee: Option<string>, employeeName: Option<string>,
                                             salesOrder: Option<string>, businessLine: Option<string>,
                                             company: Option<string>)

  datatype EmployeePull = EmployeePull(name: string, employee: string, employeeName: Option<string>,
                                       salesOrder: Option<string>, businessLine: Option<string>, company: string)

  /** The receivers' reply: `{"success": ..., "message": ...}`. */
  datatype Reply = Reply(success: bool, message: string)

  predicate UniqueNames(rows: seq<EmployeePull>) {
    forall i, j :: 0 <= i < j < |rows| ==> rows[i].name != rows[j].name
  }

  /** Replace the row named `key` (there is at most one), or append `row`. */
  function Upsert(rows: seq<EmployeePull>, key: string, row: EmployeePull): (r: seq<EmployeePull>)
    requires row.name == key
    ensures (exists i :: 0 <= i < |rows| && rows[i].name == key) ==> |r| == |rows|
    ensures !(exists i :: 0 <= i < |rows| && rows[i].name == key) ==> r == rows + [row]
    ensures forall i :: 0 <= i < |rows| && rows[i].name != key ==> rows[i] in r
    ensures forall i :: 0 <= i < |r| ==> r[i] == row || (r[i] in rows && r[i].name != key)
    ensures row in r
    ensures UniqueNames(rows) ==> UniqueNames(r)
  {
    if exists i :: 0 <= i < |rows| && rows[i].name == key then
      var r := seq(|rows|, i requires 0 <= i < |rows| => if rows[i].name == key then row else rows[i]);
      var i :| 0 <= i < |rows| && rows[i].name == key;
      assert r[i] == row;
      assert forall j :: 0 <= j < |rows| && rows[j].name != key ==> r[j] == rows[j];
      r
    else
      var r := rows + [row];
      assert r[|rows|] == row;
      assert forall j :: 0 <= j < |rows| ==> r[j] == rows[j];
      r
  }

  /** `receive_employee_pull`: the key is "employee-company"; a payload without employee
      or company fails (the concatenation raises) and changes nothing. */
  function ReceiveEmployeePull(rows: seq<EmployeePull>, p: EmployeePayload): (r: (Reply, seq<EmployeePull>))
    ensures r.0.success <==> p.employee.Some? && p.company.Some?
    ensures !r.0.success ==> r.1 == rows
    ensures p.employee.None? ==> r.0.message == NoneLeftOperand
    ensures p.employee.Some? && p.company.None? ==> r.0.message == NoneRightOperand
    ensures r.0.success ==>
              var key := p.employee.value + "-" + p.company.value;
              (forall i :: 0 <= i < |r.1| && r.1[i].name == key ==>
                 r.1[i] == EmployeePull(key, p.employee.value, p.employeeName, p.salesOrder, p.businessLine, p.company.value)) &&
              (exists i :: 0 <= i < |r.1| && r.1[i].name == key) &&
              (forall i :: 0 <= i < |rows| && rows[i].name != key ==> rows[i] in r.1)
    ensures UniqueNames(rows) ==> UniqueNames(r.1)
  {
    if p.employee.None? || p.company.None? then
      (Reply(false, if p.employee.None? then NoneLeftOperand else NoneRightOperand), rows)
    else
      var key := p.employee.value + "-" + p.company.value;
      var row := EmployeePull(key, p.employee.value, p.employeeName, p.salesOrder, p.businessLine, p.company.value);
      var after := Upsert(rows, key, row);
      assert row in after;
      (Reply(true, "Employee Pull synced successfully"), after)
  }

  /** Delivering the same payload twice leaves the same table as delivering it once. */
  lemma ReceiveEmployeePullIdempotent(rows: seq<EmployeePull>, p: EmployeePayload)
    requires UniqueNames(rows)
    ensures var once := ReceiveEmployeePull(rows, p).1;
            ReceiveEmployeePull(once, p).1 == once
  {
    var once := ReceiveEmployeePull(rows, p).1;
    if p.employee.Some? && p.company.Some? {
      var key := p.employee.value + "-" + p.company.value;
      var row := EmployeePull(key, p.employee.value, p.employeeName, p.salesOrder, p.businessLine, p.company.value);
      assert row in once;
      var twice := Upsert(once, key, row);
      assert |twice| == |once|;
      forall i | 0 <= i < |once| ensures twice[i] == once[i] {
        if once[i].name == key {
          assert once[i] == row;
        }
      }
    }
  }

  /** After a successful delivery there is exactly one row with the payload's key. */
  lemma ReceiveEmployeePullSingleRow(rows: seq<EmployeePull>, p: EmployeePayload, i: nat, j: nat)
    requires UniqueNames(rows) && p.employee.Some? && p.company.Some?
    requires var after := ReceiveEmployeePull(rows, p).1;
             i < |after| && j < |after| && after[i].name == p.employee.value + "-" + p.company.value &&
             after[j].name == after[i].name
    ensures i == j
  {
  }

  // ---------------------------------------------------------------- Sales Order Pull

  datatype SalesOrderPayload = SalesOrderPayload(salesOrder: Option<string>, businessLine: Option<string>,
                                                 company: Option<string>)

  datatype SalesOrderPull = SalesOrderPull(name: string, salesOrder: string, businessLine: Option<string>, company: string)

  predicate UniqueOrderNames(rows: seq<SalesOrderPull>) {
    forall i, j :: 0 <= i < j < |rows| ==> rows[i].name != rows[j].name
  }

  /** `receive_sales_order_pull`: the same upsert, keyed "sales_order-company". */
  function ReceiveSalesOrderPull(rows: seq<SalesOrderPull>, p: SalesOrderPayload): (r: (Reply, seq<SalesOrderPull>))
    ensures r.0.success <==> p.salesOrder.Some? && p.company.Some?
    ensures !r.0.success ==> r.1 == rows
    ensures p.salesOrder.None? ==> r.0.message == NoneLeftOperand
    ensures p.salesOrder.Some? && p.company.None? ==> r.0.message == NoneRightOperand
    ensures r.0.success ==>
              var key := p.salesOrder.value + "-" + p.company.value;
              var row := SalesOrderPull(key, p.salesOrder.value, p.businessLine, p.company.value);
              row in r.1 &&
              (forall i :: 0 <= i < |r.1| ==> r.1[i] == row || (r.1[i] in rows && r.1[i].name != key)) &&
              (forall i :: 0 <= i < |rows| && rows[i].name != key ==> rows[i] in r.1)
    ensures UniqueOrderNames(rows) ==> UniqueOrderNames(r.1)
  {
    if p.salesOrder.None? || p.company.None? then
      (Reply(false, if p.salesOrder.None? then NoneLeftOperand else NoneRightOperand), rows)
    else
      var key := p.salesOrder.value + "-" + p.company.value;
      var row := SalesOrderPull(key, p.salesOrder.value, p.businessLine, p.company.value);
      if exists i :: 0 <= i < |rows| && rows[i].name == key then
        var after := seq(|rows|, i requires 0 <= i < |rows| => if rows[i].name == key then row else rows[i]);
        var i :| 0 <= i < |rows| && rows[i].name == key;
        assert after[i] == row;
        assert forall j :: 0 <= j < |rows| && rows[j].name != key ==> after[j] == rows[j];
        (Reply(true, "Sales Order Pull synced successfully"), after)
      else
        var after := rows + [row];
        assert after[|rows|] == row;
        assert forall j :: 0 <= j < |rows| ==> after[j] == rows[j];
        (Reply(true, "Sales Order Pull synced successfully"), after)
  }

  // ---------------------------------------------------------------- Leader Location

  datatype LeaderPayload = LeaderPayload(employee: Option<string>, company: Option<string>,
                                         datetime: Option<string>, location: Option<string>)

  datatype LeaderLocation = LeaderLocation(employeePull: string, datetime: Option<string>, location: Option<string>)

  /** The name of the first Employee Pull with this employee and company. */
  function FindPull(pulls: seq<EmployeePull>, employee: string, company: string): (r: Option<string>)
    ensures r.Some? <==> exists i :: 0 <= i < |pulls| && pulls[i].employee == employee && pulls[i].company == company
    ensures r.Some? ==> exists i :: 0 <= i < |pulls| && pulls[i].employee == employee && pulls[i].company == company &&
                                    pulls[i].name == r.value
    decreases |pulls|
  {
    if |pulls| == 0 then None
    else if pulls[0].employee == employee && pulls[0].company == company then Some(pulls[0].name)
    else
      var r := FindPull(pulls[1..], employee, company);
      assert forall i :: 1 <= i < |pulls| ==> pulls[i] == pulls[1..][i - 1];
      r
  }

  /** `receive_leader_location`: employee and company are required, the Employee Pull is
      looked up by both, and a new row is always appended. */
  function ReceiveLeaderLocation(pulls: seq<EmployeePull>, rows: seq<LeaderLocation>, p: LeaderPayload)
    : (r: (Reply, seq<LeaderLocation>))
    ensures !Truthy(p.employee) || !Truthy(p.company) ==> r == (Reply(false, "Employee and Company are required"), rows)
    ensures r.0.success <==> Truthy(p.employee) && Truthy(p.company) && FindPull(pulls, p.employee.value, p.company.value).Some?
    ensures !r.0.success ==> r.1 == rows
    ensures r.0.success ==> r.1 == rows + [LeaderLocation(FindPull(pulls, p.employee.value, p.company.value).value,
                                                          p.datetime, p.location)]
  {
    if !Truthy(p.employee) || !Truthy(p.company) then (Reply(false, "Employee and Company are required"), rows)
    else
      match FindPull(pulls, p.employee.value, p.company.value)
      case None => (Reply(false, "Employee Pull not found for employee " + p.employee.value), rows)
      case Some(pull) => (Reply(true, "Leader Location synced successfully"), rows + [LeaderLocation(pull, p.datetime, p.location)])
  }

  /** Unlike the pulls, a repeated Leader Location delivery adds a second row. */
  lemma LeaderLocationNotIdempotent(pulls: seq<EmployeePull>, rows: seq<LeaderLocation>, p: LeaderPayload)
    requires ReceiveLeaderLocation(pulls, rows, p).0.success
    ensures |ReceiveLeaderLocation(pulls, ReceiveLeaderLocation(pulls, rows, p).1, p).1| == |rows| + 2
  {
  }
}

=== FILE: erp_sync.dfy ===
/** The outbound ERP sync queue: each `ERP Sync Queue` item moves
    Pending -> Processing -> Completed | Pending (retry) | Failed, a manual retry
    re-opens some Failed items, and a scheduled sweep picks Pending items. */
module ErpSync {
  import opened Wrappers

  datatype QueueStatus = Pending | Processing | Completed | Failed

  /** An `ERP Sync Queue` item; `settingsName` is the linked `ERP Sync Settings` document. */
  datatype QueueItem = QueueItem(name: string, status: QueueStatus, retryCount: int, maxRetries: int,
                                 errorLog: string, doctypeName: string, settingsName: string)

  /** The `ERP Sync Settings` fields the sender reads. */
  datatype SyncSettings = SyncSettings(enabled: bool, erpUrl: string)

  const DisabledMessage: string := "ERP Sync Settings is disabled"

  /** The message of the exception `frappe.get_doc` raises for a settings document
      that does not exist. */
  function SettingsNotFoundMessage(settingsName: string): string {
    "ERP Sync Settings " + settingsName + " not found"
  }

  /** `send_to_remote_erp`'s choice of receiving method; None means it returns False
      without sending anything. */
  function Endpoint(doctypeName: string): (m: Option<string>)
    ensures m.Some? <==> doctypeName in {"Employee Pull", "Sales Order Pull", "Leader Location"}
  {
    if doctypeName == "Employee Pull" then Some("receive_employee_pull")
    else if doctypeName == "Sales Order Pull" then Some("receive_sales_order_pull")
    else if doctypeName == "Leader Location" then Some("receive_leader_location")
    else None
  }

  /** `handle_sync_error`: one more attempt used up, the message kept, and Pending
      (re-enqueued) while attempts remain, Failed otherwise. */
  function HandleSyncError(q: QueueItem, message: string): (r: QueueItem)
    ensures r.retryCount == q.retryCount + 1
    ensures r.errorLog == message
    ensures r.status == Pending <==> r.retryCount < q.maxRetries
    ensures r.status == Failed <==> r.retryCount >= q.maxRetries
    ensures r.name == q.name && r.maxRetries == q.maxRetries && r.doctypeName == q.doctypeName
  {
    var q1 := q.(retryCount := q.retryCount + 1, errorLog := message);
    if q1.retryCount < q1.maxRetries then q1.(status := Pending) else q1.(status := Failed)
  }

  /** The attempt gets as far as sending: the item is not yet Completed, its settings
      load and are enabled, and its payload parses (`payloadError` is the text of the
      exception `json.loads` raises, None when it parses). */
  predicate ReadyToSend(q: QueueItem, settings: Option<SyncSettings>, payloadError: Option<string>) {
    q.status != Completed && settings.Some? && settings.value.enabled && payloadError.None?
  }

  /** One processing attempt, sending to `target`. `settings` is the linked settings
      document (None: it cannot be loaded), `delivered` whether the remote end answered
      with success. */
  function ProcessTo(q: QueueItem, target: string, failureMessage: string, settings: Option<SyncSettings>,
                     payloadError: Option<string>, delivered: bool): (r: QueueItem)
    ensures q.status == Completed ==> r == q
    ensures q.status != Completed && settings.None? ==>
              r == HandleSyncError(q.(status := Processing), SettingsNotFoundMessage(q.settingsName))
    ensures q.status != Completed && settings.Some? && !settings.value.enabled ==>
              r == q.(status := Failed, errorLog := DisabledMessage)
    ensures q.status != Completed && settings.Some? && settings.value.enabled && payloadError.Some? ==>
              r == HandleSyncError(q.(status := Processing), payloadError.value)
    ensures ReadyToSend(q, settings, payloadError) && Endpoint(target).Some? && delivered ==>
              r == q.(status := Completed, errorLog := "")
    ensures ReadyToSend(q, settings, payloadError) && !(Endpoint(target).Some? && delivered) ==>
              r == HandleSyncError(q.(status := Processing), failureMessage)
    ensures r.status != Processing
    ensures r.status == Completed ==> r.errorLog == "" || r == q
    ensures r.name == q.name && r.maxRetries == q.maxRetries && r.doctypeName == q.doctypeName
    ensures q.status != Completed && r.retryCount != q.retryCount ==>
              r == HandleSyncError(q.(status := Processing), r.errorLog)
  {
    if q.status == Completed then q
    else
      var p := q.(status := Processing);
      if settings.None? then HandleSyncError(p, SettingsNotFoundMessage(q.settingsName))
      else if !settings.value.enabled then p.(status := Failed, errorLog := DisabledMessage)
      else if payloadError.Some? then HandleSyncError(p, payloadError.value)
      else if Endpoint(target).Some? && delivered then p.(status := Completed, errorLog := "")
      else HandleSyncError(p, failureMessage)
  }

  /** `process_sync_queue_item`: the target is the item's own doctype. */
  function ProcessSyncQueueItem(q: QueueItem, settings: Option<SyncSettings>, payloadError: Option<string>,
                                delivered: bool): (r: QueueItem)
    ensures q.status == Completed ==> r == q
    ensures q.status != Completed && settings.None? ==>
              r == HandleSyncError(q.(status := Processing), SettingsNotFoundMessage(q.settingsName))
    ensures q.status != Completed && settings.Some? && !settings.value.enabled ==>
              r == q.(status := Failed, errorLog := DisabledMessage)
    ensures q.status != Completed && settings.Some? && settings.value.enabled && payloadError.Some? ==>
              r == HandleSyncError(q.(status := Processing), payloadError.value)
    ensures ReadyToSend(q, settings, payloadError) && Endpoint(q.doctypeName).Some? && delivered ==>
              r == q.(status := Completed, errorLog := "")
    ensures ReadyToSend(q, settings, payloadError) && !(Endpoint(q.doctypeName).Some? && delivered) ==>
              r == HandleSyncError(q.(status := Processing), "Failed to sync with remote ERP")
    ensures ReadyToSend(q, settings, payloadError) && Endpoint(q.doctypeName).None? ==>
              r.status != Completed && r.retryCount == q.retryCount + 1
    ensures r.status != Processing
  {
    ProcessTo(q, q.doctypeName, "Failed to sync with remote ERP", settings, payloadError, delivered)
  }

  /** `process_sync_queue_item_employee`: always sent to the Employee Pull receiver. */
  function ProcessSyncQueueItemEmployee(q: QueueItem, settings: Option<SyncSettings>, payloadError: Option<string>,
                                        delivered: bool): (r: QueueItem)
    ensures q.status == Completed ==> r == q
    ensures q.status != Completed && settings.None? ==>
              r == HandleSyncError(q.(status := Processing), SettingsNotFoundMessage(q.settingsName))
    ensures q.status != Completed && settings.Some? && !settings.value.enabled ==>
              r == q.(status := Failed, errorLog := DisabledMessage)
    ensures q.status != Completed && settings.Some? && settings.value.enabled && payloadError.Some? ==>
              r == HandleSyncError(q.(status := Processing), payloadError.value)
    ensures ReadyToSend(q, settings, payloadError) && delivered ==> r == q.(status := Completed, errorLog := "")
    ensures ReadyToSend(q, settings, payloadError) && !delivered ==>
              r == HandleSyncError(q.(status := Processing), "Failed to sync Employee to remote ERP")
    ensures r.status != Processing
  {
    ProcessTo(q, "Employee Pull", "Failed to sync Employee to remote ERP", settings, payloadError, delivered)
  }

  /** `process_sync_queue_item_sales_order`: always sent to the Sales Order Pull receiver. */
  function ProcessSyncQueueItemSalesOrder(q: QueueItem, settings: Option<SyncSettings>, payloadError: Option<string>,
                                          delivered: bool): (r: QueueItem)
    ensures q.status == Completed ==> r == q
    ensures q.status != Completed && settings.None? ==>
              r == HandleSyncError(q.(status := Processing), SettingsNotFoundMessage(q.settingsName))
    ensures q.status != Completed && settings.Some? && !settings.value.enabled ==>
              r == q.(status := Failed, errorLog := DisabledMessage)
    ensures q.status != Completed && settings.Some? && settings.value.enabled && payloadError.Some? ==>
              r == HandleSyncError(q.(status := Processing), payloadError.value)
    ensures ReadyToSend(q, settings, payloadError) && delivered ==> r == q.(status := Completed, errorLog := "")
    ensures ReadyToSend(q, settings, payloadError) && !delivered ==>
              r == HandleSyncError(q.(status := Processing), "Failed to sync Sales Order to remote ERP")
    ensures r.status != Processing
  {
    ProcessTo(q, "Sales Order Pull", "Failed to sync Sales Order to remote ERP", settings, payloadError, delivered)
  }

  /** `retry_sync_queue_item`: only a Failed item with attempts left goes back to
      Pending (and True is returned); anything else is left as it is. */
  function RetrySyncQueueItem(q: QueueItem): (r: (bool, QueueItem))
    ensures r.0 <==> q.status == Failed && q.retryCount < q.maxRetries
    ensures r.0 ==> r.1 == q.(status := Pending)
    ensures !r.0 ==> r.1 == q
  {
    if q.status == Failed && q.retryCount < q.maxRetries then (true, q.(status := Pending)) else (false, q)
  }

  /** An item failed by the error handler can never be retried by hand: the handler
      fails it exactly when its attempts are used up. */
  lemma HandledFailureNotRetryable(q: QueueItem, message: string)
    requires HandleSyncError(q, message).status == Failed
    ensures !RetrySyncQueueItem(HandleSyncError(q, message)).0
  {
  }

  /** What every reachable item satisfies: a Failed item with attempts left was failed
      because the settings were disabled. */
  predicate RetryableOnlyWhenDisabled(q: QueueItem) {
    q.status == Failed && q.retryCount < q.maxRetries ==> q.errorLog == DisabledMessage
  }

  /** Every transition keeps that invariant, so manual retry only ever re-opens items
      stopped by disabled settings. */
  lemma TransitionsKeepInvariant(q: QueueItem, target: string, failureMessage: string, settings: Option<SyncSettings>,
                                 payloadError: Option<string>, delivered: bool, message: string)
    requires RetryableOnlyWhenDisabled(q)
    ensures RetryableOnlyWhenDisabled(ProcessTo(q, target, failureMessage, settings, payloadError, delivered))
    ensures RetryableOnlyWhenDisabled(HandleSyncError(q, message))
    ensures RetryableOnlyWhenDisabled(RetrySyncQueueItem(q).1)
  {
  }

  /** `n` failed attempts in a row, each on the item the previous one left. */
  function FailRepeatedly(q: QueueItem, n: nat, message: string): (r: QueueItem)
    decreases n
  {
    if n == 0 then q else FailRepeatedly(HandleSyncError(q.(status := Processing), message), n - 1, message)
  }

  /** Retries are bounded: starting Pending with `k` attempts used, after
      `maxRetries - k` failures the item is Failed and no longer swept or retried. */
  lemma {:induction false} FailuresExhaustRetries(q: QueueItem, message: string)
    requires q.status == Pending && 0 <= q.retryCount < q.maxRetries
    ensures var r := FailRepeatedly(q, q.maxRetries - q.retryCount, message);
            r.status == Failed && r.retryCount == q.maxRetries && !Sweepable(r) && !RetrySyncQueueItem(r).0
    decreases q.maxRetries - q.retryCount
  {
    var next := HandleSyncError(q.(status := Processing), message);
    if q.retryCount + 1 < q.maxRetries {
      assert next.status == Pending;
      FailuresExhaustRetries(next, message);
      assert FailRepeatedly(q, q.maxRetries - q.retryCount, message)
          == FailRepeatedly(next, q.maxRetries - next.retryCount, message);
    } else {
      assert FailRepeatedly(next, 0, message) == next;
    }
  }

  // ---------------------------------------------------------------- the sweep

  const SweepLimit: nat := 100

  predicate Sweepable(q: QueueItem) {
    q.status == Pending && q.retryCount < q.maxRetries
  }

  /** `process_pending_sync_queue`: the Pending items with attempts left, at most 100
      of them (the query has no ORDER BY; the model takes table order). */
  function SelectPending(items: seq<QueueItem>): (r: seq<QueueItem>)
    ensures |r| <= SweepLimit
    ensures forall k :: 0 <= k < |r| ==> Sweepable(r[k]) && r[k] in items
    ensures |r| < SweepLimit ==> forall i :: 0 <= i < |items| && Sweepable(items[i]) ==> items[i] in r
  {
    var all := Sweepables(items);
    if |all| <= SweepLimit then all else all[..SweepLimit]
  }

  function Sweepables(items: seq<QueueItem>): (r: seq<QueueItem>)
    ensures |r| <= |items|
    ensures forall k :: 0 <= k < |r| ==> Sweepable(r[k]) && r[k] in items
    ensures forall i :: 0 <= i < |items| && Sweepable(items[i]) ==> items[i] in r
    decreases |items|
  {
    if |items| == 0 then []
    else
      var rest := Sweepables(items[1..]);
      assert forall i :: 1 <= i < |items| ==> items[i] == items[1..][i - 1];
      if Sweepable(items[0]) then [items[0]] + rest else rest
  }
}

=== FILE: erp_sync_settings.dfy ===
/** `ERP Sync Settings.validate`: the remote ERP's base URL loses its trailing slashes and
    must then begin with a web scheme. */
module ErpSyncSettings {
  import opened Wrappers
  import opened Text

  const UrlSchemeMessage := "ERP URL must start with http:// or https://"

  predicate WebScheme(url: string) {
    StartsWith(url, "http://") || StartsWith(url, "https://")
  }

  /** The stored URL after validation, or the error `frappe.throw` raises. An empty URL
      is falsy and is left alone. */
  function ValidateUrl(url: string): (r: Result<string>)
    ensures url == "" ==> r == Ok("")
    ensures r.Err? ==> r.msg == UrlSchemeMessage
    ensures r.Ok? && url != "" ==> WebScheme(r.value) && r.value[|r.value| - 1] != '/'
    ensures r.Ok? ==> StartsWith(url, r.value) && forall k :: |r.value| <= k < |url| ==> url[k] == '/'
    ensures url != "" ==> (r.Ok? <==> WebScheme(RStripChar(url, '/')))
  {
    if url == "" then Ok(url)
    else
      var stripped := RStripChar(url, '/');
      if !WebScheme(stripped) then Err(UrlSchemeMessage)
      else Ok(stripped)
  }

  /** A bare scheme is rejected: stripping its slashes leaves "http:". */
  lemma BareSchemeRejected()
    ensures ValidateUrl("http://").Err?
    ensures ValidateUrl("https://").Err?
  {
    assert RStripChar("http://", '/') == "http:";
    assert RStripChar("https://", '/') == "https:";
  }

  /** Saving an accepted URL again changes nothing. */
  lemma ValidateUrlIdempotent(url: string)
    requires ValidateUrl(url).Ok?
    ensures ValidateUrl(ValidateUrl(url).value) == ValidateUrl(url)
  {
    var r := ValidateUrl(url).value;
    if r != "" {
      assert RStripChar(r, '/') == r;
    }
  }
}

=== FILE: ess.dfy ===
/** Helpers of the mobile ESS API: device binding at login, the leave-balance report
    arithmetic, month abbreviations and the monthly attendance counters. */
module Ess {
  import opened Wrappers
  import opened Text
  import opened Clock
  import LateMarks

  // ---------------------------------------------------------------- register_device

  /** Employee Device Registration rows, as a map from employee to bound device id. */
  type Registrations = map<string, string>

  /** No device id is bound to two employees. */
  predicate OneEmployeePerDevice(regs: Registrations) {
    forall e1, e2 :: e1 in regs && e2 in regs && e1 != e2 ==> regs[e1] != regs[e2]
  }

  predicate DeviceBound(regs: Registrations, uniqueId: string) {
    exists e :: e in regs && regs[e] == uniqueId
  }

  /** `register_device`: whether login may proceed, and the registrations afterwards. */
  function RegisterDevice(restrictionsEnabled: bool, employee: string, uniqueId: string, regs: Registrations)
    : (r: (bool, Registrations))
    ensures !restrictionsEnabled ==> r == (true, regs)
    ensures restrictionsEnabled && employee !in regs ==>
              if DeviceBound(regs, uniqueId) then r == (false, regs) else r == (true, regs[employee := uniqueId])
    ensures restrictionsEnabled && employee in regs ==> r == (regs[employee] == uniqueId, regs)
    ensures OneEmployeePerDevice(regs) ==> OneEmployeePerDevice(r.1)
  {
    if !restrictionsEnabled then (true, regs)
    else if DeviceBound(regs, uniqueId) && employee !in regs then (false, regs)
    else if employee !in regs then (true, regs[employee := uniqueId])
    else (regs[employee] == uniqueId, regs)
  }

  /** Once a device is registered, the same device keeps working and any other device is
      refused. */
  lemma DeviceStaysBound(employee: string, uniqueId: string, other: string, regs: Registrations)
    requires RegisterDevice(true, employee, uniqueId, regs).0
    ensures var after := RegisterDevice(true, employee, uniqueId, regs).1;
            RegisterDevice(true, employee, uniqueId, after) == (true, after) &&
            (other != uniqueId ==> RegisterDevice(true, employee, other, after) == (false, after))
  {
  }

  // ---------------------------------------------------------------- leave balance report

  /** `get_data`'s guard: the report period must run forwards. */
  function CheckReportPeriod(fromDate: Date, toDate: Date): (r: Result<()>)
    ensures r.Ok? <==> Before(fromDate, toDate)
  {
    if !Before(fromDate, toDate) then Err("'From Date should be less than To Date") else Ok(())
  }

  /** A Leave Ledger Entry of the period. */
  datatype LedgerEntry = LedgerEntry(fromDate: Date, toDate: Date, leaves: real, isExpired: bool)

  function Max0(x: real): (r: real)
    ensures r >= 0.0 && r >= x
    ensures r == x || r == 0.0
  {
    if x > 0.0 then x else 0.0
  }

  /** The leaves of the expired entries (`remove_expired_leave` returns its negation). */
  function ExpiredWithinPeriod(records: seq<LedgerEntry>): real
    decreases |records|
  {
    if |records| == 0 then 0.0
    else ExpiredWithinPeriod(records[..|records| - 1]) +
         (if records[|records| - 1].isExpired then records[|records| - 1].leaves else 0.0)
  }

  /** `get_allocated_and_expired_leaves`: positive entries starting in the period are new
      allocations; positive entries ending before today have expired. */
  function AllocatedAndExpired(records: seq<LedgerEntry>, fromDate: Date, today: Date): (r: (real, real))
    ensures r.0 >= 0.0 && r.1 >= 0.0
    decreases |records|
  {
    if |records| == 0 then (0.0, 0.0)
    else
      var prev := AllocatedAndExpired(records[..|records| - 1], fromDate, today);
      var rec := records[|records| - 1];
      (prev.0 + (if !Before(rec.fromDate, fromDate) && rec.leaves > 0.0 then rec.leaves else 0.0),
       prev.1 + (if Before(rec.toDate, today) && rec.leaves > 0.0 then rec.leaves else 0.0))
  }

  /** Entries that are not positive contribute nothing to either total. */
  lemma {:induction false} NonPositiveEntriesIgnored(records: seq<LedgerEntry>, rec: LedgerEntry, fromDate: Date, today: Date)
    requires rec.leaves <= 0.0
    ensures AllocatedAndExpired(records + [rec], fromDate, today) == AllocatedAndExpired(records, fromDate, today)
  {
    assert (records + [rec])[..|records|] == records;
  }

  datatype LeaveDetails = LeaveDetails(newAllocation: real, expired: real, opening: real, taken: real, closing: real)

  /** `calculate_leaves_details`, given the period's deducted leaves (`get_leaves_for_period`
      negated) and the opening balance (`get_leave_balance_on` the day before). */
  function CalculateLeavesDetails(deducted: real, opening: real, records: seq<LedgerEntry>, fromDate: Date, today: Date)
    : (r: LeaveDetails)
    ensures r.expired >= 0.0 && r.closing >= 0.0 && r.newAllocation >= 0.0
    ensures r.opening == opening
    ensures r.taken == deducted + ExpiredWithinPeriod(records)
    ensures r.newAllocation == AllocatedAndExpired(records, fromDate, today).0
    ensures r.expired >= AllocatedAndExpired(records, fromDate, today).1 - r.taken
    ensures r.expired == 0.0 || r.expired == AllocatedAndExpired(records, fromDate, today).1 - r.taken
    ensures r.closing >= r.opening + r.newAllocation - (r.taken + r.expired)
    ensures r.closing == 0.0 || r.closing == r.opening + r.newAllocation - (r.taken + r.expired)
  {
    var taken := deducted - (0.0 - ExpiredWithinPeriod(records));
    var ae := AllocatedAndExpired(records, fromDate, today);
    var expired := Max0(ae.1 - taken);
    LeaveDetails(ae.0, expired, opening, taken, Max0(opening + ae.0 - (taken + expired)))
  }

  /** A period without ledger entries allocates and expires nothing: what was deducted
      is what was taken, and the closing balance is the opening one less that, floored
      at zero. */
  lemma NoEntriesLeaveDetails(deducted: real, opening: real, fromDate: Date, today: Date)
    requires deducted >= 0.0
    ensures var r := CalculateLeavesDetails(deducted, opening, [], fromDate, today);
            r.newAllocation == 0.0 && r.expired == 0.0 && r.taken == deducted &&
            r.closing == (if opening - deducted > 0.0 then opening - deducted else 0.0)
  {
  }

  // ---------------------------------------------------------------- get_month_name

  const MonthAbbreviations := ["Jan", "Feb", "Mar", "Apr", "May", "Jun", "Jul", "Aug", "Sep", "Oct", "Nov", "Dec"]

  /** `get_month_name`: Python list indexing at `month - 1`, so 0 and negative months down
      to -11 wrap round from the end and anything else raises IndexError. */
  function GetMonthName(month: int): (r: Result<string>)
    ensures r.Ok? <==> -11 <= month <= 12
    ensures 1 <= month <= 12 ==> r == Ok(MonthAbbreviations[month - 1])
    ensures -11 <= month <= 0 ==> r == Ok(MonthAbbreviations[month + 11])
  {
    var i := month - 1;
    if 0 <= i < 12 then Ok(MonthAbbreviations[i])
    else if -12 <= i < 0 then Ok(MonthAbbreviations[12 + i])
    else Err("IndexError: list index out of range")
  }

  /** Every month's abbreviation is the first three letters of its full name. */
  lemma AbbreviationIsPrefix(month: int)
    requires 1 <= month <= 12
    ensures GetMonthName(month).Ok? && StartsWith(LateMarks.MonthNameLong(month), GetMonthName(month).value)
  {
  }

  /** Month 0 reads as December. */
  lemma MonthZeroIsDecember()
    ensures GetMonthName(0) == Ok("Dec")
  {
  }

  // ---------------------------------------------------------------- get_attendance_list

  /** An Attendance row of the month (the query does not filter on docstatus). */
  datatype AttendanceRow = AttendanceRow(status: string, lateEntry: int)

  function CountStatus(rows: seq<AttendanceRow>, status: string): (n: nat)
    ensures n <= |rows|
    decreases |rows|
  {
    if |rows| == 0 then 0
    else CountStatus(rows[..|rows| - 1], status) + (if rows[|rows| - 1].status == status then 1 else 0)
  }

  /** Present rows marked as a late entry. */
  function CountLatePresent(rows: seq<AttendanceRow>): (n: nat)
    ensures n <= CountStatus(rows, "Present")
    decreases |rows|
  {
    if |rows| == 0 then 0
    else CountLatePresent(rows[..|rows| - 1]) +
         (if rows[|rows| - 1].status == "Present" && rows[|rows| - 1].lateEntry == 1 then 1 else 0)
  }

  /** Rows of two different statuses are counted apart, never twice. */
  lemma {:induction false} StatusCountsDisjoint(rows: seq<AttendanceRow>, s1: string, s2: string)
    requires s1 != s2
    ensures CountStatus(rows, s1) + CountStatus(rows, s2) <= |rows|
    decreases |rows|
  {
    if |rows| > 0 {
      StatusCountsDisjoint(rows[..|rows| - 1], s1, s2);
    }
  }

  datatype AttendanceDetails = AttendanceDetails(daysInMonth: nat, present: nat, absent: nat, late: nat)

  /** The counting loop of `get_attendance_list`. */
  method CountAttendance(rows: seq<AttendanceRow>) returns (present: nat, absent: nat, late: nat)
    ensures present == CountStatus(rows, "Present") && absent == CountStatus(rows, "Absent")
    ensures late == CountLatePresent(rows) && late <= present
    ensures present + absent <= |rows|
  {
    present, absent, late := 0, 0, 0;
    var i := 0;
    while i < |rows|
      invariant 0 <= i <= |rows|
      invariant present == CountStatus(rows[..i], "Present") && absent == CountStatus(rows[..i], "Absent")
      invariant late == CountLatePresent(rows[..i])
    {
      assert rows[..i + 1][..i] == rows[..i];
      if rows[i].status == "Present" {
        present := present + 1;
        if rows[i].lateEntry == 1 {
          late := late + 1;
        }
      } else if rows[i].status == "Absent" {
        absent := absent + 1;
      }
      i := i + 1;
    }
    assert rows[..|rows|] == rows;
    StatusCountsDisjoint(rows, "Present", "Absent");
  }

  /** `get_attendance_list`: year and month are required query strings; `int` and
      `calendar.monthrange` reject malformed ones (the handler answers 500); an empty month
      is an error too. */
  method GetAttendanceList(year: Option<string>, month: Option<string>, rows: seq<AttendanceRow>)
    returns (r: Result<AttendanceDetails>)
    ensures !Truthy(year) || !Truthy(month) ==> r == Err("year and month is required")
    ensures r.Ok? <==> Truthy(year) && Truthy(month) && ParseInt(year.value).Some? && ParseInt(month.value).Some? &&
                       1 <= ParseInt(month.value).value <= 12 && |rows| > 0
    ensures r.Ok? ==> r.value.daysInMonth == DaysInMonth(ParseInt(year.value).value, ParseInt(month.value).value)
    ensures r.Ok? ==> r.value.present == CountStatus(rows, "Present") && r.value.absent == CountStatus(rows, "Absent") &&
                      r.value.late == CountLatePresent(rows)
    ensures r.Ok? ==> r.value.late <= r.value.present && r.value.present + r.value.absent <= |rows|
  {
    if !Truthy(year) || !Truthy(month) {
      return Err("year and month is required");
    }
    var y := ParseInt(year.value);
    var m := ParseInt(month.value);
    if y.None? || m.None? {
      return Err("invalid literal for int() with base 10");
    }
    if !(1 <= m.value <= 12) {
      return Err("bad month number; must be 1-12");
    }
    if |rows| == 0 {
      return Err("no attendance found for this year and month");
    }
    var present, absent, late := CountAttendance(rows);
    r := Ok(AttendanceDetails(DaysInMonth(y.value, m.value), present, absent, late));
  }
}

=== FILE: late_marks.dfy ===
/** Late marks: counting submitted Attendance rows that carry a late-entry or
    early-exit flag, and the monthly leave deduction derived from the count. */
module LateMarks {
  import opened Wrappers
  import opened Clock
  import opened Text
  import opened ShiftRules

  /** The Attendance fields the counters read. */
  datatype MarkedDay = MarkedDay(employee: string, date: Date, submitted: bool, lateEntry: bool, earlyExit: bool)

  predicate IsLateMark(r: MarkedDay, employee: string) {
    r.employee == employee && r.submitted && (r.lateEntry || r.earlyExit)
  }

  /** A late mark of `employee` dated inside the closed range [from, to]. */
  predicate MarkIn(r: MarkedDay, employee: string, from: Date, to: Date) {
    IsLateMark(r, employee) && !Before(r.date, from) && !Before(to, r.date)
  }

  /** Late marks of `employee` on dates in the closed range [from, to]. */
  function LateMarksBetween(records: seq<MarkedDay>, employee: string, from: Date, to: Date): (n: nat)
    ensures n <= |records|
    ensures n == 0 <==> forall i :: 0 <= i < |records| ==> !MarkIn(records[i], employee, from, to)
    decreases |records|
  {
    if |records| == 0 then 0
    else
      var last := records[|records| - 1];
      var front := records[..|records| - 1];
      var rest := LateMarksBetween(front, employee, from, to);
      assert forall i :: 0 <= i < |front| ==> front[i] == records[i];
      rest + if MarkIn(last, employee, from, to) then 1 else 0
  }

  /** The count is additive over any split of the rows, so (with the one-row case) it
      is the number of rows that are marks in range, wherever they sit. */
  lemma {:induction false} LateMarksSplit(a: seq<MarkedDay>, b: seq<MarkedDay>, employee: string, from: Date, to: Date)
    ensures LateMarksBetween(a + b, employee, from, to) ==
            LateMarksBetween(a, employee, from, to) + LateMarksBetween(b, employee, from, to)
    decreases |b|
  {
    if |b| == 0 {
      assert a + b == a;
    } else {
      var b' := b[..|b| - 1];
      LateMarksSplit(a, b', employee, from, to);
      assert (a + b)[..|a + b| - 1] == a + b';
      assert (a + b)[|a + b| - 1] == b[|b| - 1];
    }
  }

  /** One row counts one exactly when it is a mark in range. */
  lemma LateMarksOne(x: MarkedDay, employee: string, from: Date, to: Date)
    ensures LateMarksBetween([x], employee, from, to) == if MarkIn(x, employee, from, to) then 1 else 0
  {
    assert [x][..0] == [];
  }

  /** `get_month_late_count(employee, date)`: late marks from the first of the month up
      to the day before `date`. */
  function MonthLateCount(records: seq<MarkedDay>, employee: string, date: Date): (n: nat)
    ensures n <= |records|
    ensures n == 0 <==> forall i :: 0 <= i < |records| ==>
              !(IsLateMark(records[i], employee) && InMonthBefore(records[i].date, date))
  {
    var prev := Date(date.year, date.month, date.day - 1);
    var n := LateMarksBetween(records, employee, MonthStart(date), prev);
    assert forall x: Date :: (!Before(x, MonthStart(date)) && !Before(prev, x)) <==> InMonthBefore(x, date);
    n
  }

  /** The month count row by row: the first row adds one exactly when it is a late mark
      earlier in the same month, and the rest are counted alike. */
  lemma MonthLateCountCons(x: MarkedDay, rest: seq<MarkedDay>, employee: string, date: Date)
    ensures MonthLateCount([x] + rest, employee, date) ==
            (if IsLateMark(x, employee) && InMonthBefore(x.date, date) then 1 else 0) +
            MonthLateCount(rest, employee, date)
  {
    var prev := Date(date.year, date.month, date.day - 1);
    LateMarksSplit([x], rest, employee, MonthStart(date), prev);
    LateMarksOne(x, employee, MonthStart(date), prev);
    assert MarkIn(x, employee, MonthStart(date), prev) <==> IsLateMark(x, employee) && InMonthBefore(x.date, date);
  }

  /** On the first day of a month there is nothing to count yet. */
  lemma MonthLateCountFirstDay(records: seq<MarkedDay>, employee: string, date: Date)
    requires ValidDate(date) && date.day == 1
    requires forall i :: 0 <= i < |records| ==> ValidDate(records[i].date)
    ensures MonthLateCount(records, employee, date) == 0
  {
    forall i | 0 <= i < |records|
      ensures !(IsLateMark(records[i], employee) && InMonthBefore(records[i].date, date))
    {
      InMonthBeforeFirstDayEmpty(records[i].date, date);
    }
  }

  // ---------------------------------------------------------------- monthly deduction

  /** `late_count_for_half_day or 3`. */
  function HalfDayTier(rules: LocationRules): (n: int)
    ensures n != 0 && (rules.lateCountForHalfDay != 0 ==> n == rules.lateCountForHalfDay)
    ensures rules.lateCountForHalfDay == 0 ==> n == 3
  {
    if rules.lateCountForHalfDay != 0 then rules.lateCountForHalfDay else 3
  }

  /** `late_count_for_full_day or 5`. */
  function FullDayTier(rules: LocationRules): (n: int)
    ensures n != 0 && (rules.lateCountForFullDay != 0 ==> n == rules.lateCountForFullDay)
    ensures rules.lateCountForFullDay == 0 ==> n == 5
  {
    if rules.lateCountForFullDay != 0 then rules.lateCountForFullDay else 5
  }

  /** The deduction in half days: from the full-day tier on, one day plus half a day
      per extra mark; from the half-day tier on, half a day; otherwise nothing. */
  function DeductionHalfDays(lateCount: int, rules: LocationRules): (h: nat)
    ensures lateCount >= FullDayTier(rules) ==> h >= 2 && h == 2 + (lateCount - FullDayTier(rules))
    ensures lateCount < FullDayTier(rules) && lateCount >= HalfDayTier(rules) ==> h == 1
    ensures lateCount < FullDayTier(rules) && lateCount < HalfDayTier(rules) ==> h == 0
  {
    if lateCount >= FullDayTier(rules) then 2 + (lateCount - FullDayTier(rules))
    else if lateCount >= HalfDayTier(rules) then 1
    else 0
  }

  /** More late marks never mean a smaller deduction. */
  lemma DeductionMonotone(c1: int, c2: int, rules: LocationRules)
    requires c1 <= c2
    ensures DeductionHalfDays(c1, rules) <= DeductionHalfDays(c2, rules)
  {
  }

  /** A deduction leave: a single-day Leave Application on the last day of the month. */
  datatype LeaveApplication = LeaveApplication(employee: string, leaveType: string, fromDate: Date, toDate: Date,
                                               halfDay: bool, deductedHalfDays: nat, description: string,
                                               status: string, docstatus: int)

  const AutoDeductedTag: string := "Auto-deducted"

  /** The tag in lower case: the `like` test of the duplicate check ignores case under
      the database's default collation. */
  const AutoDeductedPattern: string := "auto-deducted"

  function MonthNameLong(m: int): string {
    if m == 1 then "January" else if m == 2 then "February" else if m == 3 then "March"
    else if m == 4 then "April" else if m == 5 then "May" else if m == 6 then "June"
    else if m == 7 then "July" else if m == 8 then "August" else if m == 9 then "September"
    else if m == 10 then "October" else if m == 11 then "November" else "December"
  }

  function IntToString(n: int): string {
    if n >= 0 then NatToString(n) else "-" + NatToString(-n)
  }

  /** "Auto-deducted for {count} late marks in {Month Year}". */
  function DeductionDescription(lateCount: nat, to: Date): (s: string)
    ensures Contains(s, AutoDeductedTag)
    ensures Contains(Lower(s), AutoDeductedPattern)
  {
    var s := AutoDeductedTag + " for " + NatToString(lateCount) + " late marks in " +
             MonthNameLong(to.month) + " " + IntToString(to.year);
    var n := |AutoDeductedTag|;
    ContainsInfix("", AutoDeductedTag, s[n..]);
    assert "" + AutoDeductedTag + s[n..] == s;
    LowerOfTagged(s[n..]);
    ContainsInfix("", AutoDeductedPattern, Lower(s[n..]));
    assert "" + AutoDeductedPattern + Lower(s[n..]) == Lower(s);
    s
  }

  /** Lower-casing a tagged text lower-cases the tag to the pattern. */
  lemma LowerOfTagged(rest: string)
    ensures Lower(AutoDeductedTag + rest) == AutoDeductedPattern + Lower(rest)
  {
    var s := AutoDeductedTag + rest;
    var n := |AutoDeductedTag|;
    forall i | 0 <= i < n
      ensures Lower(s)[i] == AutoDeductedPattern[i]
    {
      assert s[i] == AutoDeductedTag[i];
    }
    forall i | n <= i < |s|
      ensures Lower(s)[i] == Lower(rest)[i - n]
    {
      assert s[i] == rest[i - n];
    }
  }

  /** The duplicate test of `create_leave_application_for_deduction`: a non-cancelled
      application for the same employee, day and leave type whose description
      contains "Auto-deducted" in any case. */
  predicate IsAutoDeduction(l: LeaveApplication, employee: string, date: Date, leaveType: string) {
    l.employee == employee && l.fromDate == date && l.toDate == date && l.leaveType == leaveType &&
    Contains(Lower(l.description), AutoDeductedPattern) && l.docstatus < 2
  }

  predicate HasAutoDeduction(existing: seq<LeaveApplication>, employee: string, date: Date, leaveType: string) {
    exists i :: 0 <= i < |existing| && IsAutoDeduction(existing[i], employee, date, leaveType)
  }

  /** `process_employee_monthly_deduction` as it should behave: a leave for the whole
      deduction is created unless one already exists. `location` is the employee's
      location text, `rules` its ESS Location (None when no such document: `get_doc`
      raises); `records` the Attendance rows. */
  function MonthlyDeduction(employee: string, location: string, rules: Option<LocationRules>,
                            records: seq<MarkedDay>, from: Date, to: Date,
                            existing: seq<LeaveApplication>): (r: Result<Option<LeaveApplication>>)
    ensures location == "" ==> r == Ok(None)
    ensures location != "" && rules.None? ==> r.Err?
    ensures location != "" && rules.Some? ==> r.Ok?
    ensures r.Ok? && r.value.Some? ==>
              var l := r.value.value;
              var h := DeductionHalfDays(LateMarksBetween(records, employee, from, to), rules.value);
              l.employee == employee && l.fromDate == to && l.toDate == to && h > 0 &&
              l.deductedHalfDays == h && (l.halfDay <==> h == 1) &&
              l.leaveType == rules.value.leaveTypeForDeduction != "" && l.status == "Approved" && l.docstatus == 1 &&
              !HasAutoDeduction(existing, employee, to, l.leaveType) && IsAutoDeduction(l, employee, to, l.leaveType)
    ensures r.Ok? && r.value.None? && location != "" && rules.value.leaveTypeForDeduction != "" ==>
              DeductionHalfDays(LateMarksBetween(records, employee, from, to), rules.value) == 0 ||
              HasAutoDeduction(existing, employee, to, rules.value.leaveTypeForDeduction)
  {
    if location == "" then Ok(None)
    else if rules.None? then Err("ESS Location " + location + " not found")
    else if rules.value.leaveTypeForDeduction == "" then Ok(None)
    else
      var count := LateMarksBetween(records, employee, from, to);
      var h := DeductionHalfDays(count, rules.value);
      var lt := rules.value.leaveTypeForDeduction;
      if h == 0 || HasAutoDeduction(existing, employee, to, lt) then Ok(None)
      else Ok(Some(LeaveApplication(employee, lt, to, to, h == 1, h, DeductionDescription(count, to), "Approved", 1)))
  }

  /** The deduction is idempotent: once its leave is stored, running it again for the
      same month creates nothing. */
  lemma MonthlyDeductionIdempotent(employee: string, location: string, rules: Option<LocationRules>,
                                   records: seq<MarkedDay>, from: Date, to: Date, existing: seq<LeaveApplication>)
    requires MonthlyDeduction(employee, location, rules, records, from, to, existing).Ok?
    ensures var first := MonthlyDeduction(employee, location, rules, records, from, to, existing).value;
            var stored := if first.Some? then existing + [first.value] else existing;
            MonthlyDeduction(employee, location, rules, records, from, to, stored) == Ok(None)
  {
    var first := MonthlyDeduction(employee, location, rules, records, from, to, existing).value;
    if first.Some? {
      var stored := existing + [first.value];
      assert IsAutoDeduction(stored[|existing|], employee, to, first.value.leaveType);
    }
  }

  /** What the source writes: `half_day` is the only trace of the amount, so the
      leave is one day (or half a day) whatever the count. */
  function MonthlyDeductionAsWritten(employee: string, location: string, rules: Option<LocationRules>,
                                     records: seq<MarkedDay>, from: Date, to: Date,
                                     existing: seq<LeaveApplication>): (r: Result<Option<LeaveApplication>>)
    ensures r.Ok? && r.value.Some? ==> r.value.value.deductedHalfDays == (if r.value.value.halfDay then 1 else 2)
  {
    match MonthlyDeduction(employee, location, rules, records, from, to, existing)
    case Err(m) => Err(m)
    case Ok(None) => Ok(None)
    case Ok(Some(l)) => Ok(Some(l.(deductedHalfDays := if l.halfDay then 1 else 2)))
  }

  /** Seven late marks with the default tiers call for two days, but the leave written
      covers one. */
  lemma AsWrittenDeductionUndercounts()
    ensures var rules := LocationRules(None, None, None, None, 0, None, None, 0, 0, "Leave Without Pay");
            var d := Date(2025, 1, 31);
            var records := seq(7, i requires 0 <= i < 7 => MarkedDay("EMP-1", Date(2025, 1, i + 1), true, true, false));
            DeductionHalfDays(LateMarksBetween(records, "EMP-1", Date(2025, 1, 1), d), rules) == 4 &&
            MonthlyDeductionAsWritten("EMP-1", "Noida", Some(rules), records, Date(2025, 1, 1), d, []) ==
              Ok(Some(LeaveApplication("EMP-1", "Leave Without Pay", d, d, false, 2,
                                       DeductionDescription(7, d), "Approved", 1)))
  {
    var rules := LocationRules(None, None, None, None, 0, None, None, 0, 0, "Leave Without Pay");
    var d := Date(2025, 1, 31);
    var records := seq(7, i requires 0 <= i < 7 => MarkedDay("EMP-1", Date(2025, 1, i + 1), true, true, false));
    CountAllMarks(records, "EMP-1", Date(2025, 1, 1), d);
    assert LateMarksBetween(records, "EMP-1", Date(2025, 1, 1), d) == 7;
  }

  /** When every row is a late mark inside the range, all of them count. */
  lemma {:induction false} CountAllMarks(records: seq<MarkedDay>, employee: string, from: Date, to: Date)
    requires forall i :: 0 <= i < |records| ==>
               IsLateMark(records[i], employee) && !Before(records[i].date, from) && !Before(to, records[i].date)
    ensures LateMarksBetween(records, employee, from, to) == |records|
    decreases |records|
  {
    if |records| > 0 {
      var front := records[..|records| - 1];
      assert forall i :: 0 <= i < |front| ==> front[i] == records[i];
      CountAllMarks(front, employee, from, to);
    }
  }
}

=== FILE: leave_pull.dfy ===
/** Leave Pull: leave requests pulled from another ERP, approved here with a date range,
    and pushed back to their source when their status changes. */
module LeavePull {
  import opened Wrappers
  import opened Clock

  datatype LeavePullDoc = LeavePullDoc(status: string, sourceErp: string,
                                       approvedFromDate: Option<Date>, approvedToDate: Option<Date>,
                                       totalApprovedDays: int)

  /** `on_update`: whether the status is pushed back to the source ERP. */
  function PushesStatus(sourceErp: string, statusChanged: bool): (r: bool)
    ensures r ==> sourceErp != "" && statusChanged
    ensures sourceErp != "" && statusChanged ==> r
  {
    sourceErp != "" && statusChanged
  }

  /** `date_diff(to, from) + 1`: the days of the closed range. */
  function ApprovedDays(fromDate: Date, toDate: Date): (n: int)
    requires ValidDate(fromDate) && ValidDate(toDate)
    ensures fromDate == toDate ==> n == 1
    ensures n >= 1 <==> !Before(toDate, fromDate)
  {
    DayNumberOrder(fromDate, toDate);
    DayNumberOrder(toDate, fromDate);
    DateDiff(toDate, fromDate) + 1
  }

  /** The outcome of `approve_leave`: the saved document and whether the save pushed the
      status back to the source. */
  datatype Approved = Approved(doc: LeavePullDoc, pushed: bool)

  /** `approve_leave`, with the module's import resolved (see `ApproveLeaveAsWritten`).
      The document is fetched before the dates are checked; a reversed range is not
      rejected and gives a count below one. */
  function ApproveLeave(name: string, fromDate: Option<Date>, toDate: Option<Date>,
                        docs: map<string, LeavePullDoc>): (r: Result<Approved>)
    ensures r.Ok? <==> name in docs && fromDate.Some? && toDate.Some? &&
                       ValidDate(fromDate.value) && ValidDate(toDate.value)
    ensures name !in docs ==> r.Err?
    ensures r.Ok? ==>
              r.value.doc == docs[name].(status := "Approved", approvedFromDate := fromDate, approvedToDate := toDate,
                                         totalApprovedDays := ApprovedDays(fromDate.value, toDate.value))
    ensures r.Ok? ==> (r.value.pushed <==> docs[name].sourceErp != "" && docs[name].status != "Approved")
  {
    if name !in docs then Err("Error approving leave: Leave Pull " + name + " not found")
    else if fromDate.None? || toDate.None? then
      Err("Error approving leave: Approved From Date and Approved To Date are required")
    else if !ValidDate(fromDate.value) || !ValidDate(toDate.value) then Err("Error approving leave: day is out of range for month")
    else
      var prev := docs[name];
      var doc := prev.(status := "Approved", approvedFromDate := fromDate, approvedToDate := toDate,
                      totalApprovedDays := ApprovedDays(fromDate.value, toDate.value));
      Ok(Approved(doc, PushesStatus(prev.sourceErp, prev.status != doc.status)))
  }

  /** Approving an already approved pull again changes its dates but pushes nothing. */
  lemma ReapprovalDoesNotPush(name: string, f1: Option<Date>, t1: Option<Date>, f2: Option<Date>, t2: Option<Date>,
                              docs: map<string, LeavePullDoc>)
    requires ApproveLeave(name, f1, t1, docs).Ok? && ApproveLeave(name, f2, t2, docs).Ok?
    ensures var once := ApproveLeave(name, f1, t1, docs).value.doc;
            var again := ApproveLeave(name, f2, t2, docs[name := once]);
            again.Ok? && !again.value.pushed
  {
  }

  /** The code as written: the module imports `push_leave_status_to_source` from the ERP
      sync module, which does not define it, so loading the controller fails and every
      approval raises. */
  function ApproveLeaveAsWritten(name: string, fromDate: Option<Date>, toDate: Option<Date>,
                                 docs: map<string, LeavePullDoc>): (r: Result<Approved>)
    ensures r.Err? && r.msg == "ImportError: cannot import name 'push_leave_status_to_source'"
  {
    Err("ImportError: cannot import name 'push_leave_status_to_source'")
  }

  /** A well-formed request the corrected controller approves fails as written. */
  lemma AsWrittenRejectsEveryApproval(name: string, fromDate: Option<Date>, toDate: Option<Date>,
                                      docs: map<string, LeavePullDoc>)
    requires ApproveLeave(name, fromDate, toDate, docs).Ok?
    ensures ApproveLeaveAsWritten(name, fromDate, toDate, docs) != ApproveLeave(name, fromDate, toDate, docs)
  {
  }
}

=== FILE: otpl_approval.dfy ===
/** The mobile approval endpoints for OTPL Leave, OTPL Expense and Employee Checkin:
    each checks its inputs, the caller and the document state in a fixed order and
    answers with a status code and a message. */
module OtplApproval {
  import opened Wrappers
  import opened Text
  import opened AttendanceRecord
  import opened Api
  import OA = OtplAttendance
  import Daily = DailyAttendance
  import Exp = OtplExpense

  // ---------------------------------------------------------------- OTPL Leave

  datatype OtplLeave = OtplLeave(approver: string, status: string,
                                 approvedFromDate: Option<string>, approvedToDate: Option<string>)

  /** The guards shared by approve and reject, after the request fields: the leave
      exists, the caller is its approver, and it is still Pending. */
  function LeaveGuard(user: string, name: string, leaves: map<string, OtplLeave>, verb: string): (r: Option<Response>)
    ensures r.None? <==> name in leaves && leaves[name].approver == user && leaves[name].status == "Pending"
    ensures r.Some? ==> r.value.code == 500
  {
    if name !in leaves then Some(Response(500, "Leave application does not exist"))
    else if leaves[name].approver != user then Some(Response(500, "You are not authorized to " + verb + " this leave application"))
    else if leaves[name].status != "Pending" then Some(Response(500, "Leave application is already " + leaves[name].status))
    else None
  }

  /** `approve_otpl_leave`: the response and the leave table afterwards. */
  function ApproveOtplLeave(user: string, name: Option<string>, fromDate: Option<string>, toDate: Option<string>,
                            leaves: map<string, OtplLeave>): (r: (Response, map<string, OtplLeave>))
    ensures r.0.code == 200 || r.0.code == 500
    ensures r.0.code == 200 <==> Truthy(name) && Truthy(fromDate) && Truthy(toDate) &&
                                 name.value in leaves && leaves[name.value].approver == user &&
                                 leaves[name.value].status == "Pending"
    ensures r.0.code == 500 ==> r.1 == leaves
    ensures r.0.code == 200 ==>
              r.1 == leaves[name.value := leaves[name.value].(status := "Approved", approvedFromDate := fromDate,
                                                               approvedToDate := toDate)]
  {
    if !Truthy(name) then (Response(500, "Leave name is required"), leaves)
    else if !Truthy(fromDate) || !Truthy(toDate) then
      (Response(500, "Approved from date and approved to date are required"), leaves)
    else match LeaveGuard(user, name.value, leaves, "approve")
      case Some(refusal) => (refusal, leaves)
      case None =>
        var doc := leaves[name.value].(status := "Approved", approvedFromDate := fromDate, approvedToDate := toDate);
        (Response(200, "Leave application approved successfully"), leaves[name.value := doc])
  }

  /** `reject_otpl_leave`: only the status changes; the approved dates stay as they were. */
  function RejectOtplLeave(user: string, name: Option<string>, leaves: map<string, OtplLeave>)
    : (r: (Response, map<string, OtplLeave>))
    ensures r.0.code == 200 || r.0.code == 500
    ensures r.0.code == 200 <==> Truthy(name) && name.value in leaves && leaves[name.value].approver == user &&
                                 leaves[name.value].status == "Pending"
    ensures r.0.code == 500 ==> r.1 == leaves
    ensures r.0.code == 200 ==> r.1 == leaves[name.value := leaves[name.value].(status := "Rejected")]
  {
    if !Truthy(name) then (Response(500, "Leave name is required"), leaves)
    else match LeaveGuard(user, name.value, leaves, "reject")
      case Some(refusal) => (refusal, leaves)
      case None => (Response(200, "Leave application rejected successfully"),
                    leaves[name.value := leaves[name.value].(status := "Rejected")])
  }

  /** `str(e)` of loading the OTPL Leave controller: it imports `push_leave_to_remote_erp`,
      which the ERP sync module does not define. */
  const OtplLeaveImportError := "ImportError: cannot import name 'push_leave_to_remote_erp'"

  /** `approve_otpl_leave` as the program stands: the request checks and the existence
      test answer as in `ApproveOtplLeave`, but `get_doc("OTPL Leave", ...)` then raises
      `OtplLeaveImportError` (the `Err`, which the generic exception handler answers).
      Nothing is saved in either case. */
  function ApproveOtplLeaveAsWritten(user: string, name: Option<string>, fromDate: Option<string>,
                                     toDate: Option<string>, leaves: map<string, OtplLeave>): (r: Result<Response>)
    ensures r.Err? <==> Truthy(name) && Truthy(fromDate) && Truthy(toDate) && name.value in leaves
    ensures r.Err? ==> r.msg == OtplLeaveImportError
    ensures r.Ok? ==> r.value.code == 500 && r.value == ApproveOtplLeave(user, name, fromDate, toDate, leaves).0
  {
    if !Truthy(name) then Ok(Response(500, "Leave name is required"))
    else if !Truthy(fromDate) || !Truthy(toDate) then Ok(Response(500, "Approved from date and approved to date are required"))
    else if name.value !in leaves then Ok(Response(500, "Leave application does not exist"))
    else Err(OtplLeaveImportError)
  }

  /** `reject_otpl_leave` as the program stands: the same import failure after the
      existence test. */
  function RejectOtplLeaveAsWritten(user: string, name: Option<string>, leaves: map<string, OtplLeave>)
    : (r: Result<Response>)
    ensures r.Err? <==> Truthy(name) && name.value in leaves
    ensures r.Err? ==> r.msg == OtplLeaveImportError
    ensures r.Ok? ==> r.value.code == 500 && r.value == RejectOtplLeave(user, name, leaves).0
  {
    if !Truthy(name) then Ok(Response(500, "Leave name is required"))
    else if name.value !in leaves then Ok(Response(500, "Leave application does not exist"))
    else Err(OtplLeaveImportError)
  }

  /** Every decision the corrected endpoints make fails as written, and so does every
      refusal by approver or status: as written no OTPL Leave is ever decided. */
  lemma AsWrittenNeverDecidesLeave(user: string, name: Option<string>, fromDate: Option<string>,
                                   toDate: Option<string>, leaves: map<string, OtplLeave>)
    ensures ApproveOtplLeave(user, name, fromDate, toDate, leaves).0.code == 200 ==>
              ApproveOtplLeaveAsWritten(user, name, fromDate, toDate, leaves) == Err(OtplLeaveImportError)
    ensures RejectOtplLeave(user, name, leaves).0.code == 200 ==>
              RejectOtplLeaveAsWritten(user, name, leaves) == Err(OtplLeaveImportError)
    ensures Truthy(name) && name.value in leaves && LeaveGuard(user, name.value, leaves, "reject").Some? ==>
              RejectOtplLeaveAsWritten(user, name, leaves).Err? && RejectOtplLeave(user, name, leaves).0.code == 500
  {
  }

  /** A leave is decided once: after an approval or a rejection, neither endpoint accepts it again. */
  lemma LeaveDecidedOnce(user: string, user2: string, name: Option<string>, fromDate: Option<string>,
                         toDate: Option<string>, leaves: map<string, OtplLeave>, approve: bool)
    requires var r := if approve then ApproveOtplLeave(user, name, fromDate, toDate, leaves)
                      else RejectOtplLeave(user, name, leaves);
             r.0.code == 200
    ensures var after := if approve then ApproveOtplLeave(user, name, fromDate, toDate, leaves).1
                         else RejectOtplLeave(user, name, leaves).1;
            ApproveOtplLeave(user2, name, fromDate, toDate, after).0.code == 500 &&
            RejectOtplLeave(user2, name, after).0.code == 500
  {
  }

  // ---------------------------------------------------------------- OTPL Expense

  /** The JSON `amount_approved`: absent (or an empty string), a number, a non-empty
      numeric string, or text that `float` rejects. */
  datatype AmountInput = NoAmount | Amount(value: real) | AmountText(value: real) | NotANumber

  predicate Numeric(a: AmountInput) {
    a.Amount? || a.AmountText?
  }

  /** `approve_otpl_expense`. A zero number is falsy and reported as missing; the string
      "0" is truthy and reaches the positivity test. */
  function ApproveOtplExpense(user: string, name: Option<string>, amount: AmountInput,
                              expenses: map<string, Exp.Expense>): (r: (Response, map<string, Exp.Expense>))
    ensures r.0.code == 200 || r.0.code == 500
    ensures r.0.code == 200 <==> Truthy(name) && Numeric(amount) && amount.value > 0.0 &&
                                 name.value in expenses && expenses[name.value].approvalManager == user &&
                                 expenses[name.value].approvedByManager != 1
    ensures r.0.code == 500 ==> r.1 == expenses
    ensures r.0.code == 200 ==>
              r.1 == expenses[name.value := expenses[name.value].(amountApproved := amount.value, approvedByManager := 1)]
    ensures Truthy(name) && amount == Amount(0.0) ==> r.0 == Response(500, "Amount approved is required")
    ensures Truthy(name) && amount.AmountText? && amount.value <= 0.0 ==>
              r.0 == Response(500, "Amount approved must be greater than zero")
  {
    if !Truthy(name) then (Response(500, "Expense name is required"), expenses)
    else if amount == NoAmount || amount == Amount(0.0) then (Response(500, "Amount approved is required"), expenses)
    else if amount == NotANumber then (Response(500, "Invalid amount approved"), expenses)
    else if amount.value <= 0.0 then (Response(500, "Amount approved must be greater than zero"), expenses)
    else if name.value !in expenses then (Response(500, "Expense application does not exist"), expenses)
    else if expenses[name.value].approvalManager != user then
      (Response(500, "You are not authorized to approve this expense"), expenses)
    else if expenses[name.value].approvedByManager == 1 then (Response(500, "Expense is already approved"), expenses)
    else
      (Response(200, "Expense approved successfully"),
       expenses[name.value := expenses[name.value].(amountApproved := amount.value, approvedByManager := 1)])
  }

  /** An approved expense holds a positive amount and cannot be approved a second time. */
  lemma ExpenseApprovedOnce(user: string, user2: string, name: Option<string>, amount: AmountInput,
                            amount2: AmountInput, expenses: map<string, Exp.Expense>)
    requires ApproveOtplExpense(user, name, amount, expenses).0.code == 200
    ensures var after := ApproveOtplExpense(user, name, amount, expenses).1;
            after[name.value].amountApproved > 0.0 &&
            ApproveOtplExpense(user2, name, amount2, after).0.code == 500
  {
  }

  // ---------------------------------------------------------------- Employee Checkin

  /** The guards shared by approve and reject: the check-in exists, the caller is its
      manager (no Administrator bypass here), and it is not yet approved. */
  function CheckinGuard(user: string, name: Option<string>, checkins: map<string, OA.CheckinDoc>, verb: string)
    : (r: Option<Response>)
    ensures r.None? <==> Truthy(name) && name.value in checkins && checkins[name.value].manager == user &&
                         !checkins[name.value].approved
    ensures r.Some? ==> r.value.code == 500
  {
    if !Truthy(name) then Some(Response(500, "Checkin name is required"))
    else if name.value !in checkins then Some(Response(500, "Employee checkin does not exist"))
    else if checkins[name.value].manager != user then
      Some(Response(500, "You are not authorized to " + verb + " this check-in"))
    else if checkins[name.value].approved then
      Some(Response(500, if verb == "approve" then "Check-in is already approved"
                         else "Cannot reject an already approved check-in"))
    else None
  }

  const CheckinApprovedLeave := "Check-in approved successfully. Attendance not processed due to existing leave application."
  const CheckinApprovedFailed := "Check-in approved successfully but attendance processing failed. Please check error logs."
  const CheckinApproved := "Check-in approved and attendance processed successfully"

  /** `approve_employee_checkin` given what reprocessing the day gives (`reprocessed`):
      the check-in becomes approved; leave-linked attendance stops there, other
      attendance is cancelled and the day reprocessed. Every authorised call answers 200,
      a failed reprocessing included. */
  function ApproveEmployeeCheckinGiven(user: string, name: Option<string>, checkins: map<string, OA.CheckinDoc>,
                                       existing: Daily.Existing, reprocessed: DayResult)
    : (r: (Response, map<string, OA.CheckinDoc>, OA.ApprovalNote, bool))
    ensures r.0.code == 200 || r.0.code == 500
    ensures r.0.code == 200 <==> CheckinGuard(user, name, checkins, "approve").None?
    ensures r.0.code == 500 ==> r.1 == checkins && !r.3
    ensures r.0.code == 200 ==> name.Some? && name.value in checkins
    ensures r.0.code == 200 ==> r.1 == checkins[name.value := checkins[name.value].(approved := true)]
    ensures r.0.code == 200 ==> (r.2 == OA.LeaveBlocksReprocessing <==> existing == Daily.LeaveLinked)
    ensures r.0.code == 200 ==> (r.3 <==> existing == Daily.Unlinked)
    ensures r.0.code == 200 && existing != Daily.LeaveLinked ==> (r.2 == OA.ReprocessingFailed <==> reprocessed.Failed?)
    ensures r.0.code == 200 && existing != Daily.LeaveLinked && !reprocessed.Failed? ==>
              r.0 == Response(200, CheckinApproved) && r.2 == OA.Reprocessed(reprocessed)
  {
    match CheckinGuard(user, name, checkins, "approve")
    case Some(refusal) => (refusal, checkins, OA.ReprocessingFailed, false)
    case None =>
      var after := checkins[name.value := checkins[name.value].(approved := true)];
      if existing == Daily.LeaveLinked then
        (Response(200, CheckinApprovedLeave),
         after, OA.LeaveBlocksReprocessing, false)
      else if reprocessed.Failed? then
        (Response(200, CheckinApprovedFailed),
         after, OA.ReprocessingFailed, existing == Daily.Unlinked)
      else
        (Response(200, CheckinApproved),
         after, OA.Reprocessed(reprocessed), existing == Daily.Unlinked)
  }

  /** `approve_employee_checkin` with the day of `emp` described by `facts`: outside
      leave days the day is reprocessed as `OtplAttendance.Reprocess` says. */
  function ApproveEmployeeCheckin(user: string, name: Option<string>, checkins: map<string, OA.CheckinDoc>,
                                  existing: Daily.Existing, emp: Daily.Employee, facts: Daily.DayFacts)
    : (r: (Response, map<string, OA.CheckinDoc>, OA.ApprovalNote, bool))
    ensures r.0.code == 200 <==> CheckinGuard(user, name, checkins, "approve").None?
    ensures r.0.code == 500 ==> r.1 == checkins && !r.3
    ensures r.0.code == 200 ==> name.Some? && name.value in checkins &&
                                r.1 == checkins[name.value := checkins[name.value].(approved := true)]
    ensures r.0.code == 200 ==> (r.3 <==> existing == Daily.Unlinked)
    ensures r.0.code == 200 && existing == Daily.LeaveLinked ==>
              r.0 == Response(200, CheckinApprovedLeave) && r.2 == OA.LeaveBlocksReprocessing
    ensures r.0.code == 200 && existing != Daily.LeaveLinked ==>
              r.0 == Response(200, CheckinApproved) && r.2 == OA.Reprocessed(OA.Reprocess(emp, facts))
  {
    ApproveEmployeeCheckinGiven(user, name, checkins, existing, OA.Reprocess(emp, facts))
  }

  /** `reject_employee_checkin`: a pending check-in is deleted. */
  function RejectEmployeeCheckin(user: string, name: Option<string>, checkins: map<string, OA.CheckinDoc>)
    : (r: (Response, map<string, OA.CheckinDoc>))
    ensures r.0.code == 200 || r.0.code == 500
    ensures r.0.code == 200 <==> CheckinGuard(user, name, checkins, "reject").None?
    ensures r.0.code == 500 ==> r.1 == checkins
    ensures r.0.code == 200 ==> r.1 == checkins - {name.value} && name.value !in r.1
  {
    match CheckinGuard(user, name, checkins, "reject")
    case Some(refusal) => (refusal, checkins)
    case None => (Response(200, "Check-in rejected successfully"), checkins - {name.value})
  }

  /** The mobile endpoint is stricter than the desk hook: Administrator, when not the
      check-in's manager, is refused here and allowed there. */
  lemma AdministratorOnlyAtDesk(name: string, checkins: map<string, OA.CheckinDoc>, existing: Daily.Existing,
                                emp: Daily.Employee, facts: Daily.DayFacts)
    requires name != "" && name in checkins && checkins[name].manager != "Administrator"
    ensures ApproveEmployeeCheckin("Administrator", Some(name), checkins, existing, emp, facts).0.code == 500
    ensures OA.ApproveCheckin("Administrator", checkins[name], None, existing, emp, facts).Ok?
  {
  }

  /** An approved check-in can be neither approved again nor rejected. */
  lemma ApprovedCheckinIsFinal(user: string, user2: string, name: Option<string>, checkins: map<string, OA.CheckinDoc>,
                               existing: Daily.Existing, emp: Daily.Employee, facts: Daily.DayFacts)
    requires ApproveEmployeeCheckin(user, name, checkins, existing, emp, facts).0.code == 200
    ensures var after := ApproveEmployeeCheckin(user, name, checkins, existing, emp, facts).1;
            ApproveEmployeeCheckin(user2, name, after, existing, emp, facts).0.code == 500 &&
            RejectEmployeeCheckin(user2, name, after).0.code == 500
  {
  }
}

=== FILE: otpl_attendance.dfy ===
/** Check-in hooks: flagging manual check-ins for approval, and approval followed by
    reprocessing of the day. */
module OtplAttendance {
  import opened Wrappers
  import opened Clock
  import opened AttendanceRecord
  import Daily = DailyAttendance
  import CheckinLog
  import ShiftRules

  /** The Employee Checkin fields these hooks touch. Empty text stands for an unset
      field. */
  datatype CheckinDoc = CheckinDoc(employee: string, time: Instant, requestedFrom: string, reason: string,
                                   approvalRequired: bool, approved: bool, manager: string)

  /** `after_employee_checkin_insert`: a check-in requested from someone with a reason
      needs approval, and its manager is that person's user (`managerUser`, empty when
      the Employee has none). The flag is never cleared. */
  function AfterCheckinInsert(doc: CheckinDoc, managerUser: string): (r: CheckinDoc)
    ensures r.approvalRequired <==> doc.approvalRequired || (doc.requestedFrom != "" && doc.reason != "")
    ensures doc.requestedFrom != "" && doc.reason != "" ==> r == doc.(approvalRequired := true, manager := managerUser)
    ensures doc.requestedFrom == "" || doc.reason == "" ==> r == doc
  {
    if doc.requestedFrom != "" && doc.reason != "" then doc.(approvalRequired := true, manager := managerUser)
    else doc
  }

  datatype ApprovalNote = LeaveBlocksReprocessing | Reprocessed(result: DayResult) | ReprocessingFailed

  datatype Approval = Approval(doc: CheckinDoc, cancelledExisting: bool, note: ApprovalNote)

  /** The employee as `process_employee_attendance` sees it when an approval reprocesses
      the day: only employee, location and date are passed, so `no_check_in` takes its
      default 0 and `staff_type` its default None. */
  function AsReprocessed(emp: Daily.Employee): (e: Daily.Employee)
    ensures e.name == emp.name && e.location == emp.location
    ensures !e.noCheckIn && e.staffType != "Worker"
  {
    emp.(noCheckIn := false, staffType := "")
  }

  /** The reprocessing an approval runs, after the attendance of the day was cancelled:
      the generic path for every employee, whatever their staff type or `no_check_in`. */
  function Reprocess(emp: Daily.Employee, facts: Daily.DayFacts): (r: DayResult)
    ensures !r.Failed?
    ensures r == Daily.GenericPath(AsReprocessed(emp), facts.(existing := Daily.NoAttendance))
  {
    Daily.ProcessEmployeeAttendance(AsReprocessed(emp), facts.(existing := Daily.NoAttendance)).result
  }

  /** An employee marked `no_check_in`, of a staff type other than Worker, with no rows
      for the day: the daily job records Present, but reprocessing after an approval
      marks the day Absent, since the flag is not passed on. */
  lemma ReprocessingDropsNoCheckIn(emp: Daily.Employee, facts: Daily.DayFacts)
    requires emp.noCheckIn && emp.staffType != "Worker" && facts.existing == Daily.NoAttendance && facts.logs == []
    ensures Daily.ProcessEmployeeAttendance(emp, facts).result.Processed?
    ensures Daily.ProcessEmployeeAttendance(emp, facts).result.record.status == ShiftRules.Present
    ensures Reprocess(emp, facts).MarkedAbsent?
  {
    assert !CheckinLog.HasIn(facts.logs) && !CheckinLog.HasOut(facts.logs);
  }

  /** `approve_checkin` given what reprocessing the day gives (`reprocessed`): only
      Administrator or the check-in's manager; a given time replaces the stored one; the
      check-in becomes approved. Leave-linked attendance stops there; otherwise unlinked
      attendance is cancelled and the day reprocessed. Whatever reprocessing gives,
      approval reports success. */
  function ApproveCheckinGiven(user: string, doc: CheckinDoc, logTime: Option<Instant>,
                               existing: Daily.Existing, reprocessed: DayResult): (r: Result<Approval>)
    ensures r.Err? <==> user != "Administrator" && user != doc.manager
    ensures r.Ok? ==> r.value.doc == doc.(time := logTime.GetOr(doc.time), approved := true)
    ensures r.Ok? ==> (r.value.note == LeaveBlocksReprocessing <==> existing == Daily.LeaveLinked)
    ensures r.Ok? ==> (r.value.cancelledExisting <==> existing == Daily.Unlinked)
    ensures r.Ok? && existing != Daily.LeaveLinked ==>
              (r.value.note == ReprocessingFailed <==> reprocessed.Failed?) &&
              (!reprocessed.Failed? ==> r.value.note == Reprocessed(reprocessed))
  {
    if user != "Administrator" && user != doc.manager then Err("You don't have permission to approve this check-in")
    else
      var approved := doc.(time := logTime.GetOr(doc.time), approved := true);
      if existing == Daily.LeaveLinked then Ok(Approval(approved, false, LeaveBlocksReprocessing))
      else if reprocessed.Failed? then Ok(Approval(approved, existing == Daily.Unlinked, ReprocessingFailed))
      else Ok(Approval(approved, existing == Daily.Unlinked, Reprocessed(reprocessed)))
  }

  /** `approve_checkin` with the day of `emp` described by `facts`: outside leave days
      the day is reprocessed as `Reprocess` says. */
  function ApproveCheckin(user: string, doc: CheckinDoc, logTime: Option<Instant>, existing: Daily.Existing,
                          emp: Daily.Employee, facts: Daily.DayFacts): (r: Result<Approval>)
    ensures r.Err? <==> user != "Administrator" && user != doc.manager
    ensures r.Ok? ==> r.value.doc == doc.(time := logTime.GetOr(doc.time), approved := true)
    ensures r.Ok? ==> (r.value.note == LeaveBlocksReprocessing <==> existing == Daily.LeaveLinked)
    ensures r.Ok? ==> (r.value.cancelledExisting <==> existing == Daily.Unlinked)
    ensures r.Ok? && existing != Daily.LeaveLinked ==> r.value.note == Reprocessed(Reprocess(emp, facts))
  {
    ApproveCheckinGiven(user, doc, logTime, existing, Reprocess(emp, facts))
  }

  /** With the daily job as written, an authorised approval outside leave days always
      reports that reprocessing failed, while the attendance it cancelled stays
      cancelled; with the corrected job it reports the reprocessed day. */
  lemma ApprovalAlwaysReportsFailureAsWritten(user: string, doc: CheckinDoc, logTime: Option<Instant>,
                                              existing: Daily.Existing, emp: Daily.Employee, facts: Daily.DayFacts)
    requires user == "Administrator" || user == doc.manager
    requires existing != Daily.LeaveLinked
    ensures var reprocessed := Daily.ProcessEmployeeAttendanceAsWritten(AsReprocessed(emp), facts.(existing := Daily.NoAttendance)).result;
            var r := ApproveCheckinGiven(user, doc, logTime, existing, reprocessed);
            r.Ok? && r.value.note == ReprocessingFailed && (r.value.cancelledExisting <==> existing == Daily.Unlinked)
    ensures ApproveCheckin(user, doc, logTime, existing, emp, facts).Ok? &&
            ApproveCheckin(user, doc, logTime, existing, emp, facts).value.note != ReprocessingFailed
  {
  }
}

=== FILE: otpl_expense.dfy ===
/** OTPL Expense: manager approval, the submit guard, and the two-line journal entry
    that books an approved expense against the employee's payable account. */
module OtplExpense {
  import opened Wrappers

  datatype Expense = Expense(name: string, sentBy: string, approvalManager: string, approvedByManager: int,
                             amountApproved: real, expenseClaimType: string, businessLine: string,
                             dateOfExpense: string, dateOfEntry: string, detailsOfExpense: string, purpose: string)

  /** `approve_expense` on the desk form: the assigned manager or Administrator, and a
      positive approved amount. */
  function ApproveExpense(user: string, e: Expense): (r: Result<Expense>)
    ensures r.Ok? <==> (user == e.approvalManager || user == "Administrator") && e.amountApproved > 0.0
    ensures r.Ok? ==> r.value == e.(approvedByManager := 1)
  {
    if user != e.approvalManager && user != "Administrator" then Err("Only the assigned manager can approve this expense.")
    else if e.amountApproved <= 0.0 then Err("Amount Approved must be greater than zero to approve the expense.")
    else Ok(e.(approvedByManager := 1))
  }

  /** One row of a Journal Entry; `party` is empty on rows without a party. */
  datatype JournalLine = JournalLine(account: string, debit: real, credit: real, partyType: string, party: string)

  datatype JournalEntry = JournalEntry(postingDate: string, company: string, userRemark: string,
                                       accounts: seq<JournalLine>, refDoctype: string, refName: string)

  function TotalDebit(lines: seq<JournalLine>): real
    decreases |lines|
  {
    if |lines| == 0 then 0.0 else TotalDebit(lines[..|lines| - 1]) + lines[|lines| - 1].debit
  }

  function TotalCredit(lines: seq<JournalLine>): real
    decreases |lines|
  {
    if |lines| == 0 then 0.0 else TotalCredit(lines[..|lines| - 1]) + lines[|lines| - 1].credit
  }

  lemma TwoLineTotals(a: JournalLine, b: JournalLine)
    ensures TotalDebit([a, b]) == a.debit + b.debit
    ensures TotalCredit([a, b]) == a.credit + b.credit
  {
    assert [a, b][..1] == [a];
    assert [a][..0] == [];
    assert TotalDebit([a]) == TotalDebit([]) + a.debit;
    assert TotalCredit([a]) == TotalCredit([]) + a.credit;
    assert TotalDebit([a, b]) == TotalDebit([a]) + b.debit;
    assert TotalCredit([a, b]) == TotalCredit([a]) + b.credit;
  }

  /** The double-entry condition a submitted Journal Entry must meet. */
  predicate Balanced(j: JournalEntry) {
    TotalDebit(j.accounts) == TotalCredit(j.accounts)
  }

  /** Python's `a or b` on text fields. */
  function OrElse(a: string, b: string): string {
    if a != "" then a else b
  }

  const NonPositiveAmount := "Amount Approved must be greater than zero to create Journal Entry."
  const NoExpenseAccount := "Expense account not configured for selected Expense Type and Business Line."
  const NoPayableAccount := "Payroll Payable (employee payable) account not configured on Business Line."

  /** `create_jv`: `expenseAccounts` maps (expense claim type, business line) to the
      configured account and `payables` maps a business line to its payroll payable
      account. */
  function CreateJv(e: Expense, expenseAccounts: map<(string, string), string>, payables: map<string, string>,
                    company: string): (r: Result<JournalEntry>)
    ensures r.Ok? <==> e.amountApproved > 0.0 && e.expenseClaimType != "" && e.businessLine != "" &&
                       (e.expenseClaimType, e.businessLine) in expenseAccounts &&
                       expenseAccounts[(e.expenseClaimType, e.businessLine)] != "" &&
                       e.businessLine in payables && payables[e.businessLine] != ""
    ensures r.Ok? ==> Balanced(r.value) && TotalDebit(r.value.accounts) == e.amountApproved
    ensures r.Ok? ==> |r.value.accounts| == 2 &&
                      r.value.accounts[0].account == expenseAccounts[(e.expenseClaimType, e.businessLine)] &&
                      r.value.accounts[1].account == payables[e.businessLine] &&
                      r.value.accounts[1].partyType == "Employee" && r.value.accounts[1].party == e.sentBy
    ensures r.Ok? ==> r.value.refDoctype == "OTPL Expense" && r.value.refName == e.name
  {
    if e.amountApproved <= 0.0 then Err(NonPositiveAmount)
    else
      var key := (e.expenseClaimType, e.businessLine);
      var expenseAccount := if e.expenseClaimType != "" && e.businessLine != "" && key in expenseAccounts
                            then expenseAccounts[key] else "";
      if expenseAccount == "" then Err(NoExpenseAccount)
      else
        var payable := if e.businessLine in payables then payables[e.businessLine] else "";
        if payable == "" then Err(NoPayableAccount)
        else
          var lines := [JournalLine(expenseAccount, e.amountApproved, 0.0, "", ""),
                        JournalLine(payable, 0.0, e.amountApproved, "Employee", e.sentBy)];
          TwoLineTotals(lines[0], lines[1]);
          Ok(JournalEntry(OrElse(e.dateOfExpense, e.dateOfEntry), company, OrElse(e.detailsOfExpense, e.purpose),
                          lines, "OTPL Expense", e.name))
  }

  /** `on_submit`: an expense without manager approval cannot be submitted; otherwise the
      journal entry is created. */
  function OnSubmit(e: Expense, expenseAccounts: map<(string, string), string>, payables: map<string, string>,
                    company: string): (r: Result<JournalEntry>)
    ensures e.approvedByManager == 0 ==> r == Err("Expense cannot be submitted without manager approval.")
    ensures e.approvedByManager != 0 ==> r == CreateJv(e, expenseAccounts, payables, company)
    ensures r.Ok? ==> e.approvedByManager != 0 && Balanced(r.value)
  {
    if e.approvedByManager == 0 then Err("Expense cannot be submitted without manager approval.")
    else CreateJv(e, expenseAccounts, payables, company)
  }

  /** An expense approved on the desk passes the submit guard and the amount check of the
      journal entry: only missing account configuration can still stop it. */
  lemma ApprovedExpenseSubmits(user: string, e: Expense, expenseAccounts: map<(string, string), string>,
                               payables: map<string, string>, company: string)
    requires ApproveExpense(user, e).Ok?
    requires e.expenseClaimType != "" && e.businessLine != ""
    requires (e.expenseClaimType, e.businessLine) in expenseAccounts && expenseAccounts[(e.expenseClaimType, e.businessLine)] != ""
    requires e.businessLine in payables && payables[e.businessLine] != ""
    ensures OnSubmit(ApproveExpense(user, e).value, expenseAccounts, payables, company).Ok?
  {
  }
}

=== FILE: push_notification.dfy ===
/** The mobile Push Notification API: the choices offered for `send_for` and the
    creation of a notification with its list of recipient users. */
module PushNotification {
  import opened Wrappers
  import opened Text

  // ---------------------------------------------------------------- send_for options

  /** A reply carrying a list of options. */
  datatype OptionsReply = OptionsReply(code: int, message: string, options: seq<string>)

  /** A line kept as an option: non-empty, with no white space at either end (so that
      stripping it changes nothing, see `StrippedIsFixed`). */
  predicate IsOption(s: string) {
    s != "" && !IsSpace(s[0]) && !IsSpace(s[|s| - 1])
  }

  /** The stripped lines that are not blank, in their original order. */
  function KeepOptions(lines: seq<string>): (r: seq<string>)
    ensures |r| <= |lines|
    ensures forall i :: 0 <= i < |r| ==> IsOption(r[i])
    ensures |lines| == 1 ==> r == if Strip(lines[0]) == "" then [] else [Strip(lines[0])]
    decreases |lines|
  {
    if |lines| == 0 then []
    else
      var o := Strip(lines[0]);
      var rest := KeepOptions(lines[1..]);
      if o == "" then rest else [o] + rest
  }

  /** The option list of a select field's `options` text (one option per line). */
  function OptionsOf(text: string): (r: seq<string>)
    ensures forall i :: 0 <= i < |r| ==> IsOption(r[i]) && '\n' !in r[i]
    ensures '\n' !in text ==> r == if Strip(text) == "" then [] else [Strip(text)]
  {
    assert '\n' !in text ==> Split(text, '\n') == [text] by {
      if '\n' !in text {
        SplitNoSep(text, '\n');
      }
    }
    var lines := Split(text, '\n');
    var r := KeepOptions(lines);
    assert forall i :: 0 <= i < |r| ==> '\n' !in r[i] by {
      KeptFromLines(lines);
    }
    r
  }

  /** Every kept option is the stripped form of one of the lines. */
  lemma {:induction false} KeptFromLines(lines: seq<string>)
    requires forall i :: 0 <= i < |lines| ==> '\n' !in lines[i]
    ensures forall i :: 0 <= i < |KeepOptions(lines)| ==> '\n' !in KeepOptions(lines)[i]
    decreases |lines|
  {
    if |lines| > 0 {
      KeptFromLines(lines[1..]);
      var o := Strip(lines[0]);
      assert '\n' !in o by {
        assert forall k :: 0 <= k < |o| ==> o[k] == lines[0][StripStart(lines[0]) + k];
      }
    }
  }

  /** Lines are kept independently: the options of two blocks of lines are the options
      of the first followed by those of the second. */
  lemma {:induction false} KeepOptionsConcat(a: seq<string>, b: seq<string>)
    ensures KeepOptions(a + b) == KeepOptions(a) + KeepOptions(b)
    decreases |a|
  {
    if |a| == 0 {
      assert a + b == b;
    } else {
      assert (a + b)[0] == a[0] && (a + b)[1..] == a[1..] + b;
      KeepOptionsConcat(a[1..], b);
    }
  }

  /** One more line at the end adds its stripped text as the last option, unless it is
      blank. With the one-line case of `OptionsOf` this fixes the options of every text. */
  lemma OptionsAppendLine(text: string, line: string)
    requires '\n' !in line
    ensures OptionsOf(text + "\n" + line) == OptionsOf(text) + (if Strip(line) == "" then [] else [Strip(line)])
  {
    assert text + "\n" + line == text + ['\n'] + line;
    SplitConcat(text, line, '\n');
    SplitNoSep(line, '\n');
    KeepOptionsConcat(Split(text, '\n'), [line]);
  }

  /** `get_send_for_options`: 404 with no options when the doctype has no `send_for`
      field; otherwise 200 with the options, none when the field lists none. */
  function GetSendForOptions(field: Option<Option<string>>): (r: OptionsReply)
    ensures r.code == 404 <==> field.None?
    ensures r.code != 404 ==> r.code == 200
    ensures field.None? ==> r.options == []
    ensures field.Some? && !Truthy(field.value) ==> r.options == []
    ensures field.Some? && Truthy(field.value) ==> r.options == OptionsOf(field.value.value)
    ensures forall i :: 0 <= i < |r.options| ==> IsOption(r.options[i])
  {
    if field.None? then OptionsReply(404, "Field send_for not found in Push Notification", [])
    else if Truthy(field.value) then OptionsReply(200, "Send for options retrieved successfully", OptionsOf(field.value.value))
    else OptionsReply(200, "Send for options retrieved successfully", [])
  }

  /** A string with no white space at either end is its own strip. */
  lemma StrippedIsFixed(s: string)
    requires IsOption(s)
    ensures Strip(s) == s
  {
    assert LStrip(s) == s;
    assert RStrip(s) == s;
  }

  /** Options already in kept form pass through unchanged. */
  lemma {:induction false} KeepOptionsFixed(xs: seq<string>)
    requires forall i :: 0 <= i < |xs| ==> IsOption(xs[i])
    ensures KeepOptions(xs) == xs
    decreases |xs|
  {
    if |xs| > 0 {
      var tail := xs[1..];
      assert forall i :: 0 <= i < |tail| ==> IsOption(tail[i]) by {
        forall i | 0 <= i < |tail| ensures IsOption(tail[i]) {
          assert tail[i] == xs[i + 1];
        }
      }
      KeepOptionsFixed(tail);
      StrippedIsFixed(xs[0]);
      assert KeepOptions(xs) == [xs[0]] + KeepOptions(tail);
      assert [xs[0]] + tail == xs;
    }
  }

  /** Writing options one per line and reading them back gives the same options in the
      same order. */
  lemma OptionsRoundTrip(xs: seq<string>)
    requires forall i :: 0 <= i < |xs| ==> IsOption(xs[i]) && '\n' !in xs[i]
    ensures OptionsOf(Join(xs, '\n')) == xs
  {
    if |xs| == 0 {
      assert Join(xs, '\n') == "";
      assert Split("", '\n') == [""];
      assert Strip("") == "";
      assert KeepOptions([""]) == KeepOptions([]);
    } else {
      SplitJoin(xs, '\n');
      KeepOptionsFixed(xs);
      assert KeepOptions(Split(Join(xs, '\n'), '\n')) == xs;
    }
  }

  /** A blank line contributes nothing: inserting one anywhere leaves the options unchanged. */
  lemma {:induction false} BlankLinesIgnored(a: seq<string>, blank: string, b: seq<string>)
    requires Strip(blank) == ""
    ensures KeepOptions(a + [blank] + b) == KeepOptions(a + b)
    decreases |a|
  {
    if |a| == 0 {
      assert (a + [blank] + b)[1..] == b;
      assert a + b == b;
    } else {
      assert (a + [blank] + b)[1..] == a[1..] + [blank] + b;
      assert (a + b)[1..] == a[1..] + b;
      BlankLinesIgnored(a[1..], blank, b);
    }
  }

  // ---------------------------------------------------------------- create_push_notification

  /** One entry of `users`: a user name, or a row `{"user": ...}` whose key may be missing. */
  datatype UserRow = NameRow(name: string) | DictRow(user: Option<string>)

  /** The `users` argument: absent, a single name, a list of rows, or an explicit null. */
  datatype UsersArg = NoUsers | OneUser(name: string) | UserList(rows: seq<UserRow>) | NullUsers

  datatype Notification = Notification(title: string, message: string, users: seq<string>)

  /** The user a row names, if any. */
  function RowUser(row: UserRow): Option<string> {
    match row
    case NameRow(n) => Some(n)
    case DictRow(u) => u
  }

  /** A row names an existing user. */
  predicate ValidRow(row: UserRow, users: set<string>) {
    Truthy(RowUser(row)) && RowUser(row).value in users
  }

  /** The rows after normalisation: a single name becomes a one-row list. */
  function NormalisedRows(arg: UsersArg): seq<UserRow>
  {
    match arg
    case NoUsers => []
    case OneUser(n) => [NameRow(n)]
    case UserList(rows) => rows
    case NullUsers => []
  }

  const TitleMessageRequired := "Both title and message are required"

  /** How the row's user is shown in the error text (`None` when the key is missing). */
  function ShownUser(u: Option<string>): string {
    if u.Some? then u.value else "None"
  }

  function InvalidUserMessage(idx: nat, u: Option<string>): string {
    "Invalid User in row #" + NatToString(idx) + ": " + ShownUser(u)
  }

  /** `create_push_notification`: title and message are required; every row must name an
      existing user, the first one that does not aborts creation with its row number; on
      success the recipients are the rows' users in order. `users` is the set of User
      names in the database. */
  method CreatePushNotification(title: Option<string>, message: Option<string>, arg: UsersArg, users: set<string>)
    returns (r: Result<Notification>)
    ensures !Truthy(title) || !Truthy(message) ==> r == Err(TitleMessageRequired)
    ensures Truthy(title) && Truthy(message) && arg.NullUsers? ==> r.Err?
    ensures r.Ok? <==> Truthy(title) && Truthy(message) && !arg.NullUsers? &&
                       forall i :: 0 <= i < |NormalisedRows(arg)| ==> ValidRow(NormalisedRows(arg)[i], users)
    ensures r.Ok? ==> r.value.title == title.value && r.value.message == message.value
    ensures r.Ok? ==> |r.value.users| == |NormalisedRows(arg)|
    ensures r.Ok? ==> forall i :: 0 <= i < |r.value.users| ==>
                        Some(r.value.users[i]) == RowUser(NormalisedRows(arg)[i]) && r.value.users[i] in users
    ensures (r.Err? && Truthy(title) && Truthy(message) && !arg.NullUsers?) ==>
              exists i :: 0 <= i < |NormalisedRows(arg)| && !ValidRow(NormalisedRows(arg)[i], users) &&
                          (forall j :: 0 <= j < i ==> ValidRow(NormalisedRows(arg)[j], users)) &&
                          r.msg == InvalidUserMessage(i, RowUser(NormalisedRows(arg)[i]))
  {
    if !Truthy(title) || !Truthy(message) {
      return Err(TitleMessageRequired);
    }
    if arg.NullUsers? {
      return Err("TypeError: 'NoneType' object is not iterable");
    }
    var rows := NormalisedRows(arg);
    var names: seq<string> := [];
    var i := 0;
    while i < |rows|
      invariant 0 <= i <= |rows|
      invariant |names| == i
      invariant forall j :: 0 <= j < i ==> ValidRow(rows[j], users)
      invariant forall j :: 0 <= j < i ==> Some(names[j]) == RowUser(rows[j]) && names[j] in users
    {
      var u := RowUser(rows[i]);
      if !(Truthy(u) && u.value in users) {
        return Err(InvalidUserMessage(i, u));
      }
      names := names + [u.value];
      i := i + 1;
    }
    return Ok(Notification(title.value, message.value, names));
  }
}

=== FILE: send_notification.dfy ===
/** ESS Notification dispatch: which configured notifications fire for a document event,
    and which users' devices they are sent to. */
module SendNotification {
  import opened Wrappers
  import opened Text
  import V = V12Compatible

  /** `event_mapping`: document hook names to notification events. */
  function EventType(event: string): (r: Option<string>)
    ensures event == "after_insert" ==> r == Some("New")
    ensures event == "on_update" ==> r == Some("Save")
    ensures event == "on_change" ==> r == Some("Value Change")
    ensures event == "on_submit" ==> r == Some("Submit")
    ensures event == "before_cancel" || event == "after_cancel" ==> r == Some("Cancel")
    ensures event == "days_after" ==> r == Some("Days After")
    ensures event == "days_before" ==> r == Some("Days Before")
    ensures r.Some? <==> event in ["after_insert", "on_update", "on_change", "on_submit", "before_cancel",
                                   "after_cancel", "days_after", "days_before"]
  {
    if event == "after_insert" then Some("New")
    else if event == "on_update" then Some("Save")
    else if event == "on_change" then Some("Value Change")
    else if event == "on_submit" then Some("Submit")
    else if event == "before_cancel" || event == "after_cancel" then Some("Cancel")
    else if event == "days_after" then Some("Days After")
    else if event == "days_before" then Some("Days Before")
    else None
  }

  /** `_parse_receiver_by_document_field`: "field,child_table" names a field of a child
      table; a spec without a comma names a field of the document itself. Fragments
      after the second are ignored. */
  function ParseReceiverByDocumentField(s: string): (r: (string, Option<string>))
    ensures ',' !in r.0 && (r.1.Some? ==> ',' !in r.1.value)
    ensures r.1.None? <==> ',' !in s
    ensures r.1.None? ==> r.0 == s
    ensures StartsWith(s, r.0)
    ensures r.1.Some? ==> var n := |r.0| + 1 + |r.1.value|;
                          StartsWith(s, r.0 + "," + r.1.value) && (|s| == n || s[n] == ',')
  {
    var fragments := Split(s, ',');
    JoinSplit(s, ',');
    if |fragments| > 1 then
      JoinPrefix(fragments, ',');
      (fragments[0], Some(fragments[1]))
    else
      assert Join(fragments, ',') == fragments[0];
      (fragments[0], None)
  }

  /** The first two pieces of a join open it, separated by `sep`, and are followed by
      the end of the text or by `sep`. */
  lemma JoinPrefix(parts: seq<string>, sep: char)
    requires |parts| > 1
    ensures StartsWith(Join(parts, sep), parts[0]) && sep in Join(parts, sep)
    ensures var n := |parts[0]| + 1 + |parts[1]|;
            StartsWith(Join(parts, sep), parts[0] + [sep] + parts[1]) &&
            (|Join(parts, sep)| == n || (|Join(parts, sep)| > n && Join(parts, sep)[n] == sep))
  {
    var j := Join(parts, sep);
    var tail := Join(parts[1..], sep);
    assert j == parts[0] + [sep] + tail;
    assert j[|parts[0]|] == sep;
    if |parts| == 2 {
      assert tail == parts[1];
    } else {
      JoinCons(parts[1], parts[2..], sep);
      assert [parts[1]] + parts[2..] == parts[1..];
      assert tail == parts[1] + [sep] + Join(parts[2..], sep);
    }
    assert j == parts[0] + [sep] + parts[1] + j[|parts[0]| + 1 + |parts[1]|..];
  }

  /** Fields and child fields parse back into their parts; whatever follows a second
      comma is ignored. */
  lemma ParseRoundTrip(field: string, child: string, rest: string)
    requires ',' !in field && ',' !in child
    ensures ParseReceiverByDocumentField(field) == (field, None)
    ensures ParseReceiverByDocumentField(field + "," + child + rest).0 == field
    ensures ',' !in rest ==> ParseReceiverByDocumentField(field + "," + child + rest) == (field, Some(child + rest))
    ensures rest == "" || rest[0] == ',' ==> ParseReceiverByDocumentField(field + "," + child + rest) == (field, Some(child))
  {
    SplitNoSep(field, ',');
    var s := field + "," + child + rest;
    assert s == field + [','] + (child + rest);
    SplitPrefix(field, child + rest, ',');
    var fragments := Split(s, ',');
    assert fragments == [field] + Split(child + rest, ',');
    assert |fragments| > 1 && fragments[0] == field;
    if ',' !in rest {
      assert ',' !in child + rest;
      SplitNoSep(child + rest, ',');
      assert fragments[1] == child + rest;
    }
    if rest == "" {
      assert child + rest == child;
    } else if rest[0] == ',' {
      assert child + rest == child + [','] + rest[1..];
      SplitPrefix(child, rest[1..], ',');
      assert fragments[1] == child;
    }
  }

  /** Splitting `a,b` with a separator-free `a` gives `a` followed by the pieces of `b`. */
  lemma {:induction false} SplitPrefix(a: string, b: string, sep: char)
    requires sep !in a
    ensures Split(a + [sep] + b, sep) == [a] + Split(b, sep)
    decreases |a|
  {
    if |a| == 0 {
      assert a + [sep] + b == [sep] + b;
      assert ([sep] + b)[1..] == b;
    } else {
      assert (a + [sep] + b)[1..] == a[1..] + [sep] + b;
      assert sep !in a[1..] by {
        assert forall k :: 0 <= k < |a[1..]| ==> a[1..][k] == a[k + 1];
      }
      SplitPrefix(a[1..], b, sep);
      assert [a[0]] + a[1..] == a;
    }
  }

  // ---------------------------------------------------------------- recipients

  /** One ESS Notification Recipient row; empty text is an unset field. */
  datatype Recipient = Recipient(receiverByRole: string, receiverByDocumentField: string,
                                 receiverByEmployeeField: string, sendToAllAssignees: int)

  /** The parts of the triggering document the recipient rules read: its plain fields,
      its child tables (rows of fields), and the users of `_assign`. */
  datatype Doc = Doc(doctype: string, fields: map<string, string>, tables: map<string, seq<map<string, string>>>,
                     assignees: seq<string>)

  /** The environment: users by role, the user of each Employee. */
  datatype Directory = Directory(roleEmails: map<string, seq<string>>, employeeUser: map<string, string>)

  function FieldOf(fields: map<string, string>, f: string): string {
    if f in fields then fields[f] else ""
  }

  function SetOf(xs: seq<string>): (s: set<string>)
    ensures forall x :: x in s <==> x in xs
  {
    set x | x in xs
  }

  /** The emails a child table contributes: the non-empty values of `field` in its rows. */
  function ChildEmails(rows: seq<map<string, string>>, field: string): (s: set<string>)
    ensures forall e :: e in s <==> e != "" && exists i :: 0 <= i < |rows| && FieldOf(rows[i], field) == e
  {
    set i | 0 <= i < |rows| && FieldOf(rows[i], field) != "" :: FieldOf(rows[i], field)
  }

  /** `e` is the email of a user holding the row's role. */
  predicate FromRole(r: Recipient, dir: Directory, e: string) {
    r.receiverByRole != "" && r.receiverByRole in dir.roleEmails && e in dir.roleEmails[r.receiverByRole]
  }

  /** `e` is the non-empty value of the row's document field: of the document itself,
      or of some row of the named child table. */
  predicate FromDocumentField(r: Recipient, doc: Doc, e: string) {
    r.receiverByDocumentField != "" && e != "" &&
    var (field, child) := ParseReceiverByDocumentField(r.receiverByDocumentField);
    if child.Some? && child.value != "" then
      child.value in doc.tables && exists i :: 0 <= i < |doc.tables[child.value]| && FieldOf(doc.tables[child.value][i], field) == e
    else FieldOf(doc.fields, field) == e
  }

  /** `e` is the user of the Employee the row's employee field names. */
  predicate FromEmployeeField(r: Recipient, doc: Doc, dir: Directory, e: string) {
    r.receiverByEmployeeField != "" && e != "" &&
    var emp := FieldOf(doc.fields, r.receiverByEmployeeField);
    emp != "" && emp in dir.employeeUser && dir.employeeUser[emp] == e
  }

  /** `e` is an assignee and the row sends to all assignees. */
  predicate FromAssignees(r: Recipient, doc: Doc, e: string) {
    r.sendToAllAssignees == 1 && e in doc.assignees
  }

  /** The emails one recipient row contributes: exactly those of its four sources. */
  function RecipientEmails(r: Recipient, doc: Doc, dir: Directory): (s: set<string>)
    ensures forall e :: e in s <==> FromRole(r, dir, e) || FromDocumentField(r, doc, e) ||
                                    FromEmployeeField(r, doc, dir, e) || FromAssignees(r, doc, e)
    ensures (r.receiverByRole == "" && r.receiverByDocumentField == "" && r.receiverByEmployeeField == "" &&
             r.sendToAllAssignees != 1) ==> s == {}
  {
    var byRole := if r.receiverByRole != "" && r.receiverByRole in dir.roleEmails
                  then SetOf(dir.roleEmails[r.receiverByRole]) else {};
    var byField :=
      if r.receiverByDocumentField == "" then {}
      else
        var (field, child) := ParseReceiverByDocumentField(r.receiverByDocumentField);
        if child.Some? && child.value != "" then
          (if child.value in doc.tables then ChildEmails(doc.tables[child.value], field) else {})
        else
          (if FieldOf(doc.fields, field) != "" then {FieldOf(doc.fields, field)} else {});
    var byEmployee :=
      if r.receiverByEmployeeField == "" then {}
      else
        var emp := FieldOf(doc.fields, r.receiverByEmployeeField);
        if emp != "" && emp in dir.employeeUser && dir.employeeUser[emp] != "" then {dir.employeeUser[emp]} else {};
    var byAssign := if r.sendToAllAssignees == 1 then SetOf(doc.assignees) else {};
    byRole + byField + byEmployee + byAssign
  }

  /** All recipient rows together, gathered into one set. */
  function UserEmails(recipients: seq<Recipient>, doc: Doc, dir: Directory): (s: set<string>)
    decreases |recipients|
  {
    if |recipients| == 0 then {}
    else UserEmails(recipients[..|recipients| - 1], doc, dir) + RecipientEmails(recipients[|recipients| - 1], doc, dir)
  }

  /** A user is notified exactly when some recipient row names them. */
  lemma {:induction false} UserEmailsMember(recipients: seq<Recipient>, doc: Doc, dir: Directory, e: string)
    ensures e in UserEmails(recipients, doc, dir) <==>
            exists i :: 0 <= i < |recipients| && e in RecipientEmails(recipients[i], doc, dir)
    decreases |recipients|
  {
    if |recipients| > 0 {
      var init := recipients[..|recipients| - 1];
      UserEmailsMember(init, doc, dir, e);
      assert forall i :: 0 <= i < |init| ==> init[i] == recipients[i];
    }
  }

  /** An Employee Device Info row: the user and their push token. */
  datatype DeviceInfo = DeviceInfo(name: string, token: string)

  /** The Employee Device Info rows whose user is in `emails`, in table order. */
  function DevicesOf(devices: seq<DeviceInfo>, emails: set<string>): (r: seq<DeviceInfo>)
    ensures forall d :: d in r <==> d in devices && d.name in emails
    ensures |r| <= |devices|
    decreases |devices|
  {
    if |devices| == 0 then []
    else
      var init := devices[..|devices| - 1];
      var last := devices[|devices| - 1];
      assert devices == init + [last];
      DevicesOf(init, emails) + (if last.name in emails then [last] else [])
  }

  /** `get_user_tokens`: the devices of every user the recipient rows name, each device once. */
  function GetUserTokens(recipients: seq<Recipient>, doc: Doc, dir: Directory, devices: seq<DeviceInfo>)
    : (r: seq<DeviceInfo>)
    ensures |recipients| == 0 ==> r == []
    ensures forall d :: d in r <==> d in devices && d.name in UserEmails(recipients, doc, dir)
  {
    if |recipients| == 0 then []
    else
      var emails := UserEmails(recipients, doc, dir);
      if emails == {} then [] else DevicesOf(devices, emails)
  }

  /** Sending to the same user through several rules still reaches each device once:
      the devices chosen do not depend on how often a user is named. */
  lemma RepeatedRecipientsChangeNothing(recipients: seq<Recipient>, doc: Doc, dir: Directory, devices: seq<DeviceInfo>)
    requires |recipients| > 0
    ensures GetUserTokens(recipients + recipients, doc, dir, devices) == GetUserTokens(recipients, doc, dir, devices)
  {
    var twice := recipients + recipients;
    assert UserEmails(twice, doc, dir) == UserEmails(recipients, doc, dir) by {
      forall e | e in UserEmails(twice, doc, dir) ensures e in UserEmails(recipients, doc, dir) {
        UserEmailsMember(twice, doc, dir, e);
        UserEmailsMember(recipients, doc, dir, e);
        var i :| 0 <= i < |twice| && e in RecipientEmails(twice[i], doc, dir);
        var j := if i < |recipients| then i else i - |recipients|;
        assert twice[i] == recipients[j];
      }
      forall e | e in UserEmails(recipients, doc, dir) ensures e in UserEmails(twice, doc, dir) {
        UserEmailsMember(twice, doc, dir, e);
        UserEmailsMember(recipients, doc, dir, e);
        var i :| 0 <= i < |recipients| && e in RecipientEmails(recipients[i], doc, dir);
        assert twice[i] == recipients[i];
      }
    }
  }

  // ---------------------------------------------------------------- processing

  const IgnoredDoctypes := ["Error Log", "ESS Notification", "ESS Notification Log"]

  /** An enabled ESS Notification for `documentType` and `event`. `condition` is the
      outcome of its condition expression: `None` when it is empty, `Some(None)` when it
      raises. */
  datatype Notification = Notification(name: string, enabled: bool, event: string, documentType: string,
                                       condition: Option<Option<bool>>, valueChanged: string)

  /** The value-change inputs: the document's new value, its value before the save (or
      none for a new document or one without a previous version), and the type of the
      watched field (`None` when the doctype has no such field). */
  datatype Change = Change(isNew: bool, newValue: V.Value, oldValue: Option<V.Value>, fieldtype: Option<string>)

  /** The exception raised when `value_changed` names no field of the doctype:
      `get_field` returns None and `.fieldtype` is read from it. */
  const NoFieldMessage := "AttributeError: 'NoneType' object has no attribute 'fieldtype'"

  /** The condition passes: it is empty or evaluates truthy (an expression that raises
      is logged and skips the notification). */
  predicate ConditionPasses(n: Notification) {
    n.condition.None? || n.condition.value == Some(true)
  }

  /** Whether one notification is enqueued; an error ends the run. For a Value Change on
      a saved document both values go through `cast` and the notification fires only
      when the results differ. */
  function Fires(n: Notification, eventType: string, change: Change): (r: Result<bool>)
    ensures !ConditionPasses(n) ==> r == Ok(false)
    ensures (eventType != "Value Change" || change.isNew) ==> r == Ok(ConditionPasses(n))
    ensures ConditionPasses(n) && eventType == "Value Change" && !change.isNew ==>
              if change.fieldtype.None? then r == Err(NoFieldMessage)
              else
                var a := V.Cast(change.fieldtype.value, change.newValue);
                var b := V.Cast(change.fieldtype.value, change.oldValue.GetOr(V.VNone));
                (r.Err? <==> a.Err? || b.Err?) && (a.Ok? && b.Ok? ==> r == Ok(a.value != b.value))
  {
    if !ConditionPasses(n) then Ok(false)
    else if eventType == "Value Change" && !change.isNew then
      if change.fieldtype.None? then Err(NoFieldMessage)
      else
        var oldValue := change.oldValue.GetOr(V.VNone);
        var a :- V.Cast(change.fieldtype.value, change.newValue);
        var b :- V.Cast(change.fieldtype.value, oldValue);
        Ok(a != b)
    else Ok(true)
  }

  predicate Selected(n: Notification, eventType: string, doctype: string) {
    n.enabled && n.event == eventType && n.documentType == doctype
  }

  /** A run: the names enqueued, in order, and the error that ended it early, if any.
      The hook `notification` catches that error and only logs it, so the jobs enqueued
      before it stay queued. */
  datatype Run = Run(enqueued: seq<string>, error: Option<string>)

  /** No selected notification before index `k` raised. */
  predicate ReachedCleanly(ns: seq<Notification>, changes: seq<Change>, eventType: string, doctype: string, k: int)
    requires |changes| == |ns| && k <= |ns|
  {
    forall j :: 0 <= j < k && Selected(ns[j], eventType, doctype) ==> Fires(ns[j], eventType, changes[j]).Ok?
  }

  /** The loop of `notification_processing` over the selected notifications, in order:
      each that fires is enqueued as it is reached, and the first error stops the loop. */
  function Dispatch(eventType: string, doctype: string, ns: seq<Notification>, changes: seq<Change>): (r: Run)
    requires |changes| == |ns|
    ensures |r.enqueued| <= |ns|
    ensures forall name :: name in r.enqueued ==>
              exists i :: 0 <= i < |ns| && ns[i].name == name && Selected(ns[i], eventType, doctype) &&
                          Fires(ns[i], eventType, changes[i]) == Ok(true) && ReachedCleanly(ns, changes, eventType, doctype, i)
    ensures forall i :: 0 <= i < |ns| && Selected(ns[i], eventType, doctype) &&
                        Fires(ns[i], eventType, changes[i]) == Ok(true) && ReachedCleanly(ns, changes, eventType, doctype, i) ==>
              ns[i].name in r.enqueued
    ensures r.error.None? <==> ReachedCleanly(ns, changes, eventType, doctype, |ns|)
    ensures r.error.Some? ==>
              exists k :: 0 <= k < |ns| && Selected(ns[k], eventType, doctype) &&
                          Fires(ns[k], eventType, changes[k]) == Err(r.error.value) &&
                          ReachedCleanly(ns, changes, eventType, doctype, k)
    decreases |ns|
  {
    if |ns| == 0 then Run([], None)
    else
      var rest := Dispatch(eventType, doctype, ns[1..], changes[1..]);
      ShiftReached(ns, changes, eventType, doctype);
      if !Selected(ns[0], eventType, doctype) then rest
      else match Fires(ns[0], eventType, changes[0])
        case Err(m) => Run([], Some(m))
        case Ok(false) => rest
        case Ok(true) => Run([ns[0].name] + rest.enqueued, rest.error)
  }

  /** Dropping the first notification shifts every index by one; `ReachedCleanly` of the
      tail at `k` is that of the whole at `k + 1` once the head is clean. */
  lemma ShiftReached(ns: seq<Notification>, changes: seq<Change>, eventType: string, doctype: string)
    requires |changes| == |ns| && |ns| > 0
    ensures forall i :: 1 <= i < |ns| ==> ns[i] == ns[1..][i - 1] && changes[i] == changes[1..][i - 1]
    ensures forall k :: 0 <= k <= |ns| - 1 ==>
              (ReachedCleanly(ns, changes, eventType, doctype, k + 1) <==>
                 (Selected(ns[0], eventType, doctype) ==> Fires(ns[0], eventType, changes[0]).Ok?) &&
                 ReachedCleanly(ns[1..], changes[1..], eventType, doctype, k))
  {
    forall k | 0 <= k <= |ns| - 1
      ensures ReachedCleanly(ns, changes, eventType, doctype, k + 1) <==>
                (Selected(ns[0], eventType, doctype) ==> Fires(ns[0], eventType, changes[0]).Ok?) &&
                ReachedCleanly(ns[1..], changes[1..], eventType, doctype, k)
    {
      assert forall j :: 1 <= j < k + 1 ==> ns[j] == ns[1..][j - 1] && changes[j] == changes[1..][j - 1];
    }
  }

  /** `notification_processing`: ignored doctypes and unmapped events do nothing;
      otherwise the selected notifications are dispatched. */
  function NotificationProcessing(doctype: string, event: string, notifications: seq<Notification>,
                                  changes: seq<Change>): (r: Run)
    requires |changes| == |notifications|
    ensures doctype in IgnoredDoctypes || EventType(event).None? ==> r == Run([], None)
    ensures doctype !in IgnoredDoctypes && EventType(event).Some? ==>
              var et := EventType(event).value;
              (forall name :: name in r.enqueued ==>
                 exists i :: 0 <= i < |notifications| && notifications[i].name == name &&
                             Selected(notifications[i], et, doctype) && Fires(notifications[i], et, changes[i]) == Ok(true)) &&
              (forall i :: 0 <= i < |notifications| && Selected(notifications[i], et, doctype) &&
                           Fires(notifications[i], et, changes[i]) == Ok(true) &&
                           ReachedCleanly(notifications, changes, et, doctype, i) ==>
                 notifications[i].name in r.enqueued) &&
              (r.error.None? <==> ReachedCleanly(notifications, changes, et, doctype, |notifications|))
  {
    if doctype in IgnoredDoctypes then Run([], None)
    else match EventType(event)
      case None => Run([], None)
      case Some(eventType) => Dispatch(eventType, doctype, notifications, changes)
  }

  /** A value-change notification does not fire when a save leaves its field's value as
      it was. */
  lemma UnchangedValueIsSilent(n: Notification, value: V.Value, fieldtype: string)
    requires n.condition.None?
    requires V.Cast(fieldtype, value).Ok?
    ensures Fires(n, "Value Change", Change(false, value, Some(value), Some(fieldtype))) == Ok(false)
  {
  }
}

=== FILE: shift_rules.dfy ===
/** The threshold rules of an `ESS Location` and the status decision shared by the
    scheduled daily job (`determine_status`) and the Attendance Processor
    (`determine_attendance_status`): same rule order, same comparison operators,
    same escalation to Half Day once the month's late marks reach a threshold. */
module ShiftRules {
  import opened Wrappers
  import opened Clock

  /** Attendance status values these paths write. */
  datatype Status = Present | Absent | HalfDay

  /** The fields of an `ESS Location` document that attendance reads. Time fields are
      `None` when the document leaves them empty. */
  datatype LocationRules = LocationRules(
    lateArrivalThreshold: Option<TimeOfDay>,
    earlyExitThreshold: Option<TimeOfDay>,
    halfDayArrivalTime: Option<TimeOfDay>,
    halfDayDepartureTime: Option<TimeOfDay>,
    treatLateAsHalfDayAfter: int,
    shiftStartTime: Option<TimeOfDay>,
    shiftEndTime: Option<TimeOfDay>,
    lateCountForHalfDay: int,
    lateCountForFullDay: int,
    leaveTypeForDeduction: string)

  /** Python truthiness of a Time field: an empty field and a zero `timedelta`
      (00:00:00) both switch the rule off. */
  predicate Active(t: Option<TimeOfDay>) {
    t.Some? && t.value > 0
  }

  /** `treat_late_as_half_day_after or 5`. */
  function EscalationThreshold(rules: LocationRules): (n: int)
    ensures n != 0
    ensures rules.treatLateAsHalfDayAfter != 0 ==> n == rules.treatLateAsHalfDayAfter
    ensures rules.treatLateAsHalfDayAfter == 0 ==> n == 5
  {
    if rules.treatLateAsHalfDayAfter != 0 then rules.treatLateAsHalfDayAfter else 5
  }

  /** One entry of the comma-joined remarks text; an empty list is the text
      "Regular attendance". */
  datatype Remark =
    | MissingCheckIn
    | MissingCheckOut
    | ArrivedAtOrAfter(arrival: TimeOfDay)
    | LeftAtOrBefore(departure: TimeOfDay)
    | LateArrivalAsHalfDay(limit: int)
    | LateArrivalAfter(threshold: TimeOfDay)
    | EarlyExitAsHalfDay(limit: int)
    | EarlyExitBefore(threshold: TimeOfDay)
    | MissingLogAsHalfDay(limit: int)
    | MissingBothLogs

  datatype Decision = Decision(status: Status, lateEntry: bool, earlyExit: bool, remarks: seq<Remark>)

  // The individual conditions, each named as the rule reads it.

  predicate ArrivalCutoff(checkIn: Option<Instant>, rules: LocationRules) {
    checkIn.Some? && Active(rules.halfDayArrivalTime) && TimeOf(checkIn.value) >= rules.halfDayArrivalTime.value
  }

  predicate DepartureCutoff(checkOut: Option<Instant>, rules: LocationRules) {
    checkOut.Some? && Active(rules.halfDayDepartureTime) && TimeOf(checkOut.value) <= rules.halfDayDepartureTime.value
  }

  predicate LateHit(checkIn: Option<Instant>, rules: LocationRules) {
    checkIn.Some? && Active(rules.lateArrivalThreshold) && TimeOf(checkIn.value) > rules.lateArrivalThreshold.value
  }

  predicate EarlyHit(checkOut: Option<Instant>, rules: LocationRules) {
    checkOut.Some? && Active(rules.earlyExitThreshold) && TimeOf(checkOut.value) < rules.earlyExitThreshold.value
  }

  /** A half-day cut-off hits: IN at/after the half-day arrival time or OUT at/before
      the half-day departure time. */
  predicate Cutoff(checkIn: Option<Instant>, checkOut: Option<Instant>, rules: LocationRules) {
    ArrivalCutoff(checkIn, rules) || DepartureCutoff(checkOut, rules)
  }

  /** When the rule chain ends in Half Day: a cut-off hits, or escalation is on and a
      log is missing, late or early. */
  predicate HalfDayDue(checkIn: Option<Instant>, checkOut: Option<Instant>, rules: LocationRules, escalate: bool) {
    Cutoff(checkIn, checkOut, rules) ||
    (escalate && (checkIn.None? || checkOut.None? || LateHit(checkIn, rules) || EarlyHit(checkOut, rules)))
  }

  /** When the rule chain leaves the late-entry flag set. */
  predicate LateFlagDue(checkIn: Option<Instant>, checkOut: Option<Instant>, rules: LocationRules, escalate: bool) {
    if Cutoff(checkIn, checkOut, rules) then checkIn.None?
    else if escalate then checkIn.None? && EarlyHit(checkOut, rules)
    else checkIn.None? || LateHit(checkIn, rules)
  }

  /** When the rule chain leaves the early-exit flag set. */
  predicate EarlyFlagDue(checkIn: Option<Instant>, checkOut: Option<Instant>, rules: LocationRules, escalate: bool) {
    if Cutoff(checkIn, checkOut, rules) then checkOut.None?
    else if escalate then checkOut.None? && LateHit(checkIn, rules)
    else checkOut.None? || EarlyHit(checkOut, rules)
  }

  /** Without location rules: always Present, missing logs flagged. */
  function DecideWithoutRules(checkIn: Option<Instant>, checkOut: Option<Instant>): (d: Decision)
    ensures d.status == Present
    ensures d.lateEntry <==> checkIn.None?
    ensures d.earlyExit <==> checkOut.None?
    ensures MissingCheckIn in d.remarks <==> checkIn.None?
    ensures MissingCheckOut in d.remarks <==> checkOut.None?
    ensures |d.remarks| == 0 <==> (!d.lateEntry && !d.earlyExit)
  {
    var r1 := if checkIn.None? then [MissingCheckIn] else [];
    var r2 := if checkOut.None? then [MissingCheckOut] else [];
    Decision(Present, checkIn.None?, checkOut.None?, r1 + r2)
  }

  /** The rule chain, applied in the order of the source:
        1. a missing IN sets the late flag, a missing OUT the early flag;
        2. IN at/after the half-day arrival time, or OUT at/before the half-day
           departure time, make the day Half Day;
        3. while not Half Day, IN after the late threshold is a late mark, or Half Day
           when `escalate` holds (the month's late count reached the threshold);
        4. the same for OUT before the early-exit threshold;
        5. a still-Present day carrying a flag becomes Half Day when `escalate` holds,
           and both flags are cleared.
      The contract states the outcome of the chain for every combination. */
  function DetermineStatus(checkIn: Option<Instant>, checkOut: Option<Instant>, rules: LocationRules,
                           escalate: bool): (d: Decision)
    ensures d.status != Absent
    ensures d.status == HalfDay <==> HalfDayDue(checkIn, checkOut, rules, escalate)
    ensures d.lateEntry <==> LateFlagDue(checkIn, checkOut, rules, escalate)
    ensures d.earlyExit <==> EarlyFlagDue(checkIn, checkOut, rules, escalate)
    ensures MissingCheckIn in d.remarks <==> checkIn.None?
    ensures MissingCheckOut in d.remarks <==> checkOut.None?
    ensures |d.remarks| == 0 <==> (d.status == Present && !d.lateEntry && !d.earlyExit)
  {
    var limit := EscalationThreshold(rules);
    // 1. missing logs
    var late1 := checkIn.None?;
    var early1 := checkOut.None?;
    var rm1 := (if checkIn.None? then [MissingCheckIn] else []) + (if checkOut.None? then [MissingCheckOut] else []);
    // 2. half-day cut-offs
    var st2a := if ArrivalCutoff(checkIn, rules) then HalfDay else Present;
    var rm2a := rm1 + if ArrivalCutoff(checkIn, rules) then [ArrivedAtOrAfter(rules.halfDayArrivalTime.value)] else [];
    var st2 := if DepartureCutoff(checkOut, rules) then HalfDay else st2a;
    var rm2 := rm2a + if DepartureCutoff(checkOut, rules) then [LeftAtOrBefore(rules.halfDayDepartureTime.value)] else [];
    // 3. late arrival
    var fire3 := st2 != HalfDay && LateHit(checkIn, rules);
    var st3 := if fire3 && escalate then HalfDay else st2;
    var late3 := late1 || (fire3 && !escalate);
    var rm3 := rm2 + if !fire3 then []
                     else if escalate then [LateArrivalAsHalfDay(limit)]
                     else [LateArrivalAfter(rules.lateArrivalThreshold.value)];
    // 4. early exit
    var fire4 := st3 != HalfDay && EarlyHit(checkOut, rules);
    var st4 := if fire4 && escalate then HalfDay else st3;
    var early4 := early1 || (fire4 && !escalate);
    var rm4 := rm3 + if !fire4 then []
                     else if escalate then [EarlyExitAsHalfDay(limit)]
                     else [EarlyExitBefore(rules.earlyExitThreshold.value)];
    // 5. missing-log escalation
    var fire5 := (late3 || early4) && escalate && st4 == Present;
    if fire5 then Decision(HalfDay, false, false, rm4 + [MissingLogAsHalfDay(limit)])
    else Decision(st4, late3, early4, rm4)
  }

  /** Seconds worked between IN and OUT: zero unless both exist, never negative. */
  function WorkedSeconds(checkIn: Option<Instant>, checkOut: Option<Instant>): (w: nat)
    ensures (checkIn.None? || checkOut.None?) ==> w == 0
    ensures checkIn.Some? && checkOut.Some? ==>
              (checkIn.value <= checkOut.value ==> checkIn.value + w == checkOut.value) &&
              (checkOut.value < checkIn.value ==> w == 0)
  {
    if checkIn.Some? && checkOut.Some? && checkIn.value <= checkOut.value
    then checkOut.value - checkIn.value
    else 0
  }
}

=== FILE: text.dfy ===
/** String helpers with Python's meaning: `str.split(sep)`, `sep.join`, `str.strip()`,
    `str.rstrip(c)`, `str.startswith`, the `in` substring test, ASCII `str.lower()`, and the
    decimal integer syntax accepted by `int(...)`. */
module Text {
  import opened Wrappers

  // ---------------------------------------------------------------- split / join

  /** `s.split(sep)`: always at least one fragment, none containing `sep`. */
  function Split(s: string, sep: char): (r: seq<string>)
    ensures |r| >= 1
    ensures forall i :: 0 <= i < |r| ==> sep !in r[i]
    decreases |s|
  {
    if |s| == 0 then [""]
    else if s[0] == sep then [""] + Split(s[1..], sep)
    else
      var rest := Split(s[1..], sep);
      [[s[0]] + rest[0]] + rest[1..]
  }

  /** `sep.join(parts)`. */
  function Join(parts: seq<string>, sep: char): string
    decreases |parts|
  {
    if |parts| == 0 then ""
    else if |parts| == 1 then parts[0]
    else parts[0] + [sep] + Join(parts[1..], sep)
  }

  /** Joining the fragments of a split gives back the original string. */
  lemma {:induction false} JoinSplit(s: string, sep: char)
    ensures Join(Split(s, sep), sep) == s
    decreases |s|
  {
    if |s| > 0 {
      JoinSplit(s[1..], sep);
      var rest := Split(s[1..], sep);
      if s[0] == sep {
        JoinCons("", rest, sep);
        assert [""] + rest == Split(s, sep);
      } else {
        var first := [s[0]] + rest[0];
        assert [first] + rest[1..] == Split(s, sep);
        if |rest| > 1 {
          JoinCons(first, rest[1..], sep);
          JoinCons(rest[0], rest[1..], sep);
          assert [rest[0]] + rest[1..] == rest;
        }
      }
      assert s == [s[0]] + s[1..];
    }
  }

  /** Joining a non-final part puts the separator after it. */
  lemma JoinCons(p: string, rest: seq<string>, sep: char)
    requires |rest| >= 1
    ensures Join([p] + rest, sep) == p + [sep] + Join(rest, sep)
  {
    var parts := [p] + rest;
    assert parts[0] == p && parts[1..] == rest;
  }

  /** Splitting a join of `sep`-free parts gives back the parts. */
  lemma {:induction false} SplitJoin(parts: seq<string>, sep: char)
    requires |parts| >= 1
    requires forall i :: 0 <= i < |parts| ==> sep !in parts[i]
    ensures Split(Join(parts, sep), sep) == parts
    decreases |parts|, |parts[0]|
  {
    if |parts| == 1 {
      SplitNoSep(parts[0], sep);
    } else if |parts[0]| == 0 {
      var tail := Join(parts[1..], sep);
      assert Join(parts, sep) == [sep] + tail;
      SplitJoin(parts[1..], sep);
      assert [""] + parts[1..] == parts;
    } else {
      var p0 := parts[0];
      var shorter := [p0[1..]] + parts[1..];
      assert shorter[1..] == parts[1..];
      assert forall i :: 0 <= i < |shorter| ==> sep !in shorter[i] by {
        forall i | 0 <= i < |shorter| ensures sep !in shorter[i] {
          if i == 0 {
            assert forall k :: 0 <= k < |p0[1..]| ==> p0[1..][k] == p0[k + 1];
          } else {
            assert shorter[i] == parts[i];
          }
        }
      }
      SplitJoin(shorter, sep);
      var j := Join(parts, sep);
      assert j == p0 + [sep] + Join(parts[1..], sep);
      assert Join(shorter, sep) == p0[1..] + [sep] + Join(parts[1..], sep);
      assert j == [p0[0]] + Join(shorter, sep);
      assert j[0] == p0[0] && j[0] != sep;
      assert j[1..] == Join(shorter, sep);
      assert [p0[0]] + p0[1..] == p0;
    }
  }

  /** Splitting at one occurrence of the separator splits each side separately. */
  lemma {:induction false} SplitConcat(a: string, b: string, sep: char)
    ensures Split(a + [sep] + b, sep) == Split(a, sep) + Split(b, sep)
    decreases |a|
  {
    var s := a + [sep] + b;
    if |a| == 0 {
      assert s == [sep] + b && s[1..] == b;
    } else {
      assert s[0] == a[0] && s[1..] == a[1..] + [sep] + b;
      SplitConcat(a[1..], b, sep);
      SplitFirst(s, a, Split(b, sep), sep);
    }
  }

  /** Two strings with the same first character, whose tails split alike up to a common
      suffix of fragments, split alike up to that suffix. */
  lemma SplitFirst(s: string, a: string, tail: seq<string>, sep: char)
    requires |s| > 0 && |a| > 0 && s[0] == a[0]
    requires Split(s[1..], sep) == Split(a[1..], sep) + tail
    ensures Split(s, sep) == Split(a, sep) + tail
  {
    var ra := Split(a[1..], sep);
    if a[0] == sep {
      calc {
        Split(s, sep);
        [""] + (ra + tail);
        { SeqAssoc([""], ra, tail); }
        ([""] + ra) + tail;
        Split(a, sep) + tail;
      }
    } else {
      var first := [a[0]] + ra[0];
      var rest := ra + tail;
      assert rest[0] == ra[0] && rest[1..] == ra[1..] + tail;
      calc {
        Split(s, sep);
        [first] + (ra[1..] + tail);
        { SeqAssoc([first], ra[1..], tail); }
        ([first] + ra[1..]) + tail;
        Split(a, sep) + tail;
      }
    }
  }

  lemma SeqAssoc<T>(x: seq<T>, y: seq<T>, z: seq<T>)
    ensures x + (y + z) == (x + y) + z
  {
  }

  /** A string without the separator splits into itself. */
  lemma {:induction false} SplitNoSep(s: string, sep: char)
    requires sep !in s
    ensures Split(s, sep) == [s]
    decreases |s|
  {
    if |s| > 0 {
      assert sep !in s[1..] by {
        assert forall k :: 0 <= k < |s[1..]| ==> s[1..][k] == s[k + 1];
      }
      SplitNoSep(s[1..], sep);
      assert [s[0]] + s[1..] == s;
    }
  }

  // ---------------------------------------------------------------- whitespace

  /** Characters removed by Python's argument-less `strip()` (the ASCII ones). */
  predicate IsSpace(c: char) {
    c == ' ' || c == '\t' || c == '\n' || c == '\r' || c == '\U{B}' || c == '\U{C}'
  }

  function LStrip(s: string): (r: string)
    ensures |r| <= |s| && r == s[|s| - |r|..]
    ensures |r| == 0 || !IsSpace(r[0])
    ensures forall k :: 0 <= k < |s| - |r| ==> IsSpace(s[k])
    decreases |s|
  {
    if |s| > 0 && IsSpace(s[0]) then LStrip(s[1..]) else s
  }

  function RStrip(s: string): (r: string)
    ensures |r| <= |s| && r == s[..|r|]
    ensures |r| == 0 || !IsSpace(r[|r| - 1])
    ensures forall k :: |r| <= k < |s| ==> IsSpace(s[k])
    decreases |s|
  {
    if |s| > 0 && IsSpace(s[|s| - 1]) then RStrip(s[..|s| - 1]) else s
  }

  /** `s.strip()`: a contiguous piece of `s` with no white space at either end,
      everything cut away being white space. */
  function Strip(s: string): (r: string)
    ensures |r| <= |s|
    ensures |r| == 0 || (!IsSpace(r[0]) && !IsSpace(r[|r| - 1]))
    ensures StripStart(s) + |r| <= |s| && r == s[StripStart(s)..StripStart(s) + |r|]
    ensures forall k :: 0 <= k < StripStart(s) ==> IsSpace(s[k])
    ensures forall k :: StripStart(s) + |r| <= k < |s| ==> IsSpace(s[k])
  {
    var l := LStrip(s);
    var r := RStrip(l);
    StripPieces(s, l, r);
    assert |r| > 0 ==> r[0] == l[0];
    r
  }

  /** Cutting white space off the front and then off the back leaves an infix of `s`. */
  lemma StripPieces(s: string, l: string, r: string)
    requires |l| <= |s| && l == s[|s| - |l|..]
    requires |r| <= |l| && r == l[..|r|]
    requires forall k :: |r| <= k < |l| ==> IsSpace(l[k])
    ensures r == s[|s| - |l|..|s| - |l| + |r|]
    ensures forall k :: |s| - |l| + |r| <= k < |s| ==> IsSpace(s[k])
  {
    var st := |s| - |l|;
    forall k | st + |r| <= k < |s|
      ensures IsSpace(s[k])
    {
      assert s[k] == l[k - st];
    }
  }

  /** Where the stripped text starts in `s`: the number of leading white-space characters. */
  function StripStart(s: string): nat
  {
    |s| - |LStrip(s)|
  }

  /** Stripping twice strips nothing more. */
  lemma StripIdempotent(s: string)
    ensures Strip(Strip(s)) == Strip(s)
  {
    var r := Strip(s);
    if |r| > 0 {
      assert LStrip(r) == r;
      assert RStrip(r) == r;
    }
  }

  /** `s.rstrip(c)`: the longest prefix of `s` not ending in `c`; only copies of `c`
      are removed. */
  function RStripChar(s: string, c: char): (r: string)
    ensures |r| <= |s| && r == s[..|r|]
    ensures |r| == 0 || r[|r| - 1] != c
    ensures forall k :: |r| <= k < |s| ==> s[k] == c
    decreases |s|
  {
    if |s| > 0 && s[|s| - 1] == c then RStripChar(s[..|s| - 1], c) else s
  }

  /** Python truthiness of an optional string field: present and non-empty. */
  predicate Truthy(s: Option<string>) {
    s.Some? && s.value != ""
  }

  /** `str(e)` of the TypeError that `a + "-" + b` raises when an operand is None: a None
      on the left has no `+` for a string, and a string cannot take a None on its right. */
  const NoneLeftOperand := "unsupported operand type(s) for +: 'NoneType' and 'str'"
  const NoneRightOperand := "can only concatenate str (not \"NoneType\") to str"

  // ---------------------------------------------------------------- prefixes and substrings

  predicate StartsWith(s: string, p: string) {
    |p| <= |s| && s[..|p|] == p
  }

  /** Python's `sub in s`. */
  predicate Contains(s: string, sub: string)
    decreases |s|
  {
    StartsWith(s, sub) || (|s| > 0 && Contains(s[1..], sub))
  }

  /** A string contains every one of its infixes. */
  lemma {:induction false} ContainsInfix(a: string, sub: string, b: string)
    ensures Contains(a + sub + b, sub)
    decreases |a|
  {
    var s := a + sub + b;
    if |a| == 0 {
      assert s[..|sub|] == sub;
    } else {
      assert s[1..] == a[1..] + sub + b;
      ContainsInfix(a[1..], sub, b);
    }
  }

  // ---------------------------------------------------------------- case

  function LowerChar(c: char): char {
    if 'A' <= c <= 'Z' then (c as int + 32) as char else c
  }

  /** ASCII `str.lower()`. */
  function Lower(s: string): (r: string)
    ensures |r| == |s|
    ensures forall i :: 0 <= i < |s| ==> r[i] == LowerChar(s[i])
  {
    seq(|s|, i requires 0 <= i < |s| => LowerChar(s[i]))
  }

  // ---------------------------------------------------------------- decimal integers

  predicate IsDigit(c: char) {
    '0' <= c <= '9'
  }

  predicate AllDigits(s: string) {
    forall i :: 0 <= i < |s| ==> IsDigit(s[i])
  }

  /** The value of a string of decimal digits, most significant first. */
  function DigitsValue(s: string): nat
    requires AllDigits(s)
    decreases |s|
  {
    if |s| == 0 then 0
    else DigitsValue(s[..|s| - 1]) * 10 + (s[|s| - 1] as int - '0' as int)
  }

  /** The decimal spelling of `n`, as `str(n)` writes it. */
  function NatToString(n: nat): (r: string)
    ensures |r| >= 1 && AllDigits(r)
    ensures n > 0 ==> r[0] != '0'
    decreases n
  {
    if n < 10 then ['0' + n as char]
    else NatToString(n / 10) + ['0' + (n % 10) as char]
  }

  /** Reading back the decimal spelling of `n` gives `n`. */
  lemma {:induction false} DigitsOfNatToString(n: nat)
    ensures DigitsValue(NatToString(n)) == n
    decreases n
  {
    var r := NatToString(n);
    if n >= 10 {
      DigitsOfNatToString(n / 10);
      assert r[..|r| - 1] == NatToString(n / 10);
    }
  }

  /** The integer read from `s` by `int(s)`, for strings made of an optional sign and
      at least one digit; `None` for every other string (where `int` raises). */
  function ParseInt(s: string): (r: Option<int>)
    ensures r.Some? <==> (|s| >= 1 && AllDigits(s)) ||
                         (|s| >= 2 && (s[0] == '-' || s[0] == '+') && AllDigits(s[1..]))
  {
    if |s| >= 1 && AllDigits(s) then Some(DigitsValue(s))
    else if |s| >= 2 && s[0] == '-' && AllDigits(s[1..]) then Some(0 - DigitsValue(s[1..]))
    else if |s| >= 2 && s[0] == '+' && AllDigits(s[1..]) then Some(DigitsValue(s[1..]))
    else None
  }

  /** `ParseInt` reads back what `NatToString` writes. */
  lemma ParseIntOfNatToString(n: nat)
    ensures ParseInt(NatToString(n)) == Some(n)
  {
    DigitsOfNatToString(n);
  }

  function Pow10(k: nat): (p: nat)
    ensures p >= 1
  {
    if k == 0 then 1 else 10 * Pow10(k - 1)
  }

  /** The last `width` decimal digits of `n`, zero-padded on the left: the spelling
      `%0<width>d` gives a number below 10^width. */
  function Padded(n: nat, width: nat): (r: string)
    ensures |r| == width && AllDigits(r)
    decreases width
  {
    if width == 0 then "" else Padded(n / 10, width - 1) + ['0' + (n % 10) as char]
  }

  /** Reading back a zero-padded spelling gives the number. */
  lemma {:induction false} DigitsOfPadded(n: nat, width: nat)
    requires n < Pow10(width)
    ensures DigitsValue(Padded(n, width)) == n
    decreases width
  {
    if width > 0 {
      DigitsOfPadded(n / 10, width - 1);
      var r := Padded(n, width);
      assert r[..|r| - 1] == Padded(n / 10, width - 1);
    }
  }

  /** Every string of digits is the zero-padded spelling of its value. */
  lemma {:induction false} PaddedOfDigits(s: string)
    requires AllDigits(s)
    ensures DigitsValue(s) < Pow10(|s|)
    ensures Padded(DigitsValue(s), |s|) == s
    decreases |s|
  {
    if |s| > 0 {
      var init := s[..|s| - 1];
      assert AllDigits(init);
      PaddedOfDigits(init);
      var d := s[|s| - 1] as int - '0' as int;
      assert 0 <= d < 10;
      var v := DigitsValue(s);
      assert v == DigitsValue(init) * 10 + d;
      assert v / 10 == DigitsValue(init) && v % 10 == d;
      assert ['0' + (v % 10) as char] == [s[|s| - 1]];
      assert s == init + [s[|s| - 1]];
    }
  }
}

=== FILE: user_role_sync.dfy ===
/** `sync_employee_fields_from_user_roles`: three Employee check fields mirror three roles
    of the linked user. */
module UserRoleSync {
  import opened Wrappers

  const TeamLeaderRole := "TEAM LEADER"
  const NoCheckInRole := "No Check In"
  const ShowSalesOrderRole := "Show Sales Order"

  /** The update written to the linked Employee. */
  datatype RoleFlags = RoleFlags(employee: string, isTeamLeader: int, noCheckIn: int, showSalesOrder: int)

  function Flag(roles: seq<string>, role: string): (r: int)
    ensures r == 1 || r == 0
    ensures r == 1 <==> role in roles
  {
    if role in roles then 1 else 0
  }

  /** The update for a saved user `user`, whose linked employee (if any) is `employee`;
      `None` when nothing is written. */
  function SyncEmployeeFieldsFromUserRoles(user: string, employee: Option<string>, roles: seq<string>)
    : (r: Option<RoleFlags>)
    ensures r.Some? <==> user != "" && employee.Some? && employee.value != ""
    ensures r.Some? ==> r.value.employee == employee.value
    ensures r.Some? ==> (r.value.isTeamLeader == 1 <==> TeamLeaderRole in roles)
    ensures r.Some? ==> (r.value.noCheckIn == 1 <==> NoCheckInRole in roles)
    ensures r.Some? ==> (r.value.showSalesOrder == 1 <==> ShowSalesOrderRole in roles)
  {
    if user == "" then None
    else if employee.None? || employee.value == "" then None
    else Some(RoleFlags(employee.value, Flag(roles, TeamLeaderRole), Flag(roles, NoCheckInRole),
                        Flag(roles, ShowSalesOrderRole)))
  }

  /** Only membership matters: the order of the roles and any other role leave the flags as they are. */
  lemma FlagsIgnoreOtherRoles(user: string, employee: Option<string>, roles: seq<string>, other: string)
    requires other != TeamLeaderRole && other != NoCheckInRole && other != ShowSalesOrderRole
    ensures SyncEmployeeFieldsFromUserRoles(user, employee, roles + [other]) ==
            SyncEmployeeFieldsFromUserRoles(user, employee, roles)
  {
  }
}

=== FILE: v12_compatible.dfy ===
/** Field-value conversions used when comparing notification values: `sbool`, `cast`
    and the string path of `get_timedelta`. Python's dynamic values are a small sum type. */
module V12Compatible {
  import opened Wrappers
  import opened Text
  import opened Clock

  /** A field value as the framework hands it over. `VDuration` is a timedelta in whole
      seconds; `VDatetime` is a date and a time of day in seconds. */
  datatype Value =
    | VNone
    | VBool(b: bool)
    | VInt(i: int)
    | VReal(x: real)
    | VStr(s: string)
    | VDate(d: Date)
    | VDatetime(day: Date, seconds: nat)
    | VDuration(total: int)

  /** Python truthiness. */
  predicate Truthy(v: Value) {
    match v
    case VNone => false
    case VBool(b) => b
    case VInt(i) => i != 0
    case VReal(x) => x != 0.0
    case VStr(s) => s != ""
    case VDate(_) => true
    case VDatetime(_, _) => true
    case VDuration(t) => t != 0
  }

  // ---------------------------------------------------------------- sbool

  /** `sbool`: "true"/"1" and "false"/"0", in any letter case, become booleans; other
      strings, and every value without `lower()`, come back unchanged. */
  function Sbool(x: Value): (r: Value)
    ensures x.VStr? && (Lower(x.s) == "true" || Lower(x.s) == "1") ==> r == VBool(true)
    ensures x.VStr? && (Lower(x.s) == "false" || Lower(x.s) == "0") ==> r == VBool(false)
    ensures x.VStr? && Lower(x.s) !in ["true", "1", "false", "0"] ==> r == x
    ensures !x.VStr? ==> r == x
    ensures r != x ==> x.VStr? && r.VBool? && (r.b <==> Lower(x.s) == "true" || Lower(x.s) == "1")
  {
    match x
    case VStr(s) =>
      var val := Lower(s);
      if val == "true" || val == "1" then VBool(true)
      else if val == "false" || val == "0" then VBool(false)
      else x
    case _ => x
  }

  /** Applying `sbool` twice is applying it once. */
  lemma SboolIdempotent(x: Value)
    ensures Sbool(Sbool(x)) == Sbool(x)
  {
  }

  // ---------------------------------------------------------------- cint / flt / cstr

  /** Truncation toward zero of a real, as `int(float)` does. */
  function TruncReal(x: real): (r: int)
    ensures x >= 0.0 ==> r as real <= x < r as real + 1.0
    ensures x < 0.0 ==> r as real - 1.0 < x <= r as real
  {
    if x >= 0.0 then x.Floor else -((-x).Floor)
  }

  /** `cint`: 0 for anything it cannot read. Strings are read as decimal integers. */
  function Cint(v: Value): (r: int)
    ensures !Truthy(v) ==> r == 0
    ensures v.VBool? ==> r == (if v.b then 1 else 0)
    ensures v.VInt? ==> r == v.i
    ensures v.VReal? ==> r == TruncReal(v.x)
    ensures v.VStr? ==> r == ParseInt(v.s).GetOr(0)
    ensures v.VDate? || v.VDatetime? || v.VDuration? ==> r == 0
  {
    match v
    case VNone => 0
    case VBool(b) => if b then 1 else 0
    case VInt(i) => i
    case VReal(x) => TruncReal(x)
    case VStr(s) => ParseInt(s).GetOr(0)
    case _ => 0
  }

  /** `flt`: 0.0 for anything it cannot read. */
  function Flt(v: Value): (r: real)
    ensures !Truthy(v) ==> r == 0.0
    ensures v.VBool? ==> r == (if v.b then 1.0 else 0.0)
    ensures v.VInt? ==> r == v.i as real
    ensures v.VReal? ==> r == v.x
    ensures v.VStr? ==> r == Cint(v) as real
    ensures v.VDate? || v.VDatetime? || v.VDuration? ==> r == 0.0
  {
    match v
    case VNone => 0.0
    case VBool(b) => if b then 1.0 else 0.0
    case VInt(i) => i as real
    case VReal(x) => x
    case VStr(s) => ParseInt(s).GetOr(0) as real
    case _ => 0.0
  }

  // ---------------------------------------------------------------- get_timedelta

  /** Hours, minutes and seconds read from "H:M:S"; a missing part counts as 0, extra
      parts are ignored, and an unreadable part reads as 0. */
  function TimedeltaOfString(s: string): (r: int)
    ensures ':' !in s ==> r == Cint(VStr(s)) * 3600
  {
    assert ':' !in s ==> Split(s, ':') == [s] by {
      if ':' !in s {
        SplitNoSep(s, ':');
      }
    }
    var parts := Split(s, ':');
    var hours := Cint(VStr(parts[0]));
    var minutes := if |parts| > 1 then Cint(VStr(parts[1])) else 0;
    var seconds := if |parts| > 2 then Cint(VStr(parts[2])) else 0;
    hours * 3600 + minutes * 60 + seconds
  }

  /** `get_timedelta`, in seconds. */
  function GetTimedelta(v: Value): (r: int)
    ensures !Truthy(v) ==> r == 0
    ensures v.VDuration? ==> r == v.total
    ensures Truthy(v) && v.VStr? ==> r == TimedeltaOfString(v.s)
  {
    if !Truthy(v) then 0
    else match v
      case VDuration(t) => t
      case VStr(s) => TimedeltaOfString(s)
      case _ => 0
  }

  /** The text "h:m:s" (no padding needed) is read back as h hours, m minutes, s seconds. */
  lemma TimedeltaRoundTrip(h: nat, m: nat, s: nat)
    ensures GetTimedelta(VStr(NatToString(h) + ":" + NatToString(m) + ":" + NatToString(s))) == h * 3600 + m * 60 + s
  {
    ParseIntOfNatToString(h);
    ParseIntOfNatToString(m);
    ParseIntOfNatToString(s);
    TimedeltaOfParts(NatToString(h), NatToString(m), NatToString(s));
  }

  /** The duration read from "a:b:c" for three digit strings. */
  lemma TimedeltaOfParts(a: string, b: string, c: string)
    requires AllDigits(a) && AllDigits(b) && AllDigits(c) && |a| > 0
    ensures GetTimedelta(VStr(a + ":" + b + ":" + c)) ==
            ParseInt(a).GetOr(0) * 3600 + ParseInt(b).GetOr(0) * 60 + ParseInt(c).GetOr(0)
  {
    var text := a + ":" + b + ":" + c;
    SplitThree(a, b, c);
    assert |text| > 0;
  }

  /** Splitting three colon-free digit strings joined by colons gives them back. */
  lemma SplitThree(a: string, b: string, c: string)
    requires AllDigits(a) && AllDigits(b) && AllDigits(c)
    ensures Split(a + ":" + b + ":" + c, ':') == [a, b, c]
  {
    var parts := [a, b, c];
    assert parts[1..] == [b, c] && [b, c][1..] == [c];
    assert Join([c], ':') == c;
    assert Join([b, c], ':') == b + [':'] + c;
    assert Join(parts, ':') == a + [':'] + (b + [':'] + c);
    assert a + [':'] + (b + [':'] + c) == a + ":" + b + ":" + c;
    NoColonInDigits(a);
    NoColonInDigits(b);
    NoColonInDigits(c);
    SplitJoin(parts, ':');
  }

  lemma NoColonInDigits(t: string)
    requires AllDigits(t)
    ensures ':' !in t
  {
  }

  // ---------------------------------------------------------------- cast

  const TextTypes := ["Data", "Text", "Small Text", "Long Text", "Text Editor", "Select", "Link", "Dynamic Link"]

  /** `cstr` for the values whose spelling the model fixes. */
  function Cstr(v: Value): (r: Value)
    ensures v.VNone? ==> r == VStr("")
    ensures v.VStr? ==> r == v
    ensures r.VStr? || r == v
  {
    match v
    case VNone => VStr("")
    case VBool(b) => VStr(if b then "True" else "False")
    case VInt(i) => VStr(if i >= 0 then NatToString(i) else "-" + NatToString(-i))
    case _ => v
  }

  /** `YYYY-MM-DD` with a valid calendar date. */
  function ParseIsoDate(s: string): (r: Option<Date>)
    ensures r.Some? ==> ValidDate(r.value)
  {
    if |s| == 10 && s[4] == '-' && s[7] == '-' && AllDigits(s[..4]) && AllDigits(s[5..7]) && AllDigits(s[8..]) then
      var d := Date(DigitsValue(s[..4]), DigitsValue(s[5..7]), DigitsValue(s[8..]));
      if ValidDate(d) then Some(d) else None
    else None
  }

  /** `HH:MM:SS` on a 24-hour clock, as seconds since midnight. */
  function ParseIsoTime(s: string): (r: Option<nat>)
    ensures r.Some? ==> r.value < 86400
  {
    if |s| == 8 && s[2] == ':' && s[5] == ':' && AllDigits(s[..2]) && AllDigits(s[3..5]) && AllDigits(s[6..]) then
      var h := DigitsValue(s[..2]);
      var m := DigitsValue(s[3..5]);
      var sec := DigitsValue(s[6..]);
      if h < 24 && m < 60 && sec < 60 then Some(h * 3600 + m * 60 + sec) else None
    else None
  }

  /** `get_datetime` of a string: `YYYY-MM-DD HH:MM:SS`, or a date alone at midnight. */
  function ParseIsoDatetime(s: string): (r: Option<(Date, nat)>)
    ensures r.Some? ==> ValidDate(r.value.0) && r.value.1 < 86400
    ensures ParseIsoDate(s).Some? ==> r == Some((ParseIsoDate(s).value, 0))
  {
    if |s| == 19 && s[10] == ' ' && ParseIsoDate(s[..10]).Some? && ParseIsoTime(s[11..]).Some? then
      Some((ParseIsoDate(s[..10]).value, ParseIsoTime(s[11..]).value))
    else if ParseIsoDate(s).Some? then Some((ParseIsoDate(s).value, 0))
    else None
  }

  /** `getdate` of a truthy value: a string is read as `get_datetime` reads it and keeps
      its date; a string it cannot read raises. */
  function GetDate(v: Value): (r: Result<Date>)
    ensures v.VDate? ==> r == Ok(v.d)
    ensures v.VDatetime? ==> r == Ok(v.day)
    ensures v.VStr? ==> (r.Ok? <==> ParseIsoDatetime(v.s).Some?)
    ensures v.VStr? && r.Ok? ==> r.value == ParseIsoDatetime(v.s).value.0
    ensures v.VStr? && ParseIsoDate(v.s).Some? ==> r == Ok(ParseIsoDate(v.s).value)
  {
    match v
    case VDate(d) => Ok(d)
    case VDatetime(d, _) => Ok(d)
    case VStr(s) => if ParseIsoDatetime(s).Some? then Ok(ParseIsoDatetime(s).value.0) else Err("ValueError: invalid date " + s)
    case _ => Err("TypeError: cannot convert to date")
  }

  /** `cast(fieldtype, value)`. */
  function Cast(fieldtype: string, value: Value): (r: Result<Value>)
    ensures fieldtype in ["Currency", "Float", "Percent"] ==> r == Ok(VReal(Flt(value)))
    ensures fieldtype in ["Int", "Check"] ==> r == Ok(VInt(Cint(Sbool(value))))
    ensures fieldtype in TextTypes && value.VStr? ==> r == Ok(value)
    ensures fieldtype in TextTypes && value.VNone? ==> r == Ok(VStr(""))
    ensures fieldtype == "Date" && !Truthy(value) ==> r == Ok(VDate(Date(1, 1, 1)))
    ensures fieldtype == "Date" && Truthy(value) ==>
              (r.Ok? <==> GetDate(value).Ok?) && (r.Ok? ==> r.value == VDate(GetDate(value).value))
    ensures fieldtype == "Datetime" && !Truthy(value) ==> r == Ok(VDatetime(Date(1, 1, 1), 0))
    ensures fieldtype == "Datetime" && Truthy(value) && value.VStr? ==>
              (r.Ok? <==> ParseIsoDatetime(value.s).Some?) &&
              (r.Ok? ==> r.value == VDatetime(ParseIsoDatetime(value.s).value.0, ParseIsoDatetime(value.s).value.1))
    ensures fieldtype == "Time" ==> r == Ok(VDuration(GetTimedelta(value)))
    ensures (fieldtype !in ["Currency", "Float", "Percent", "Int", "Check", "Date", "Datetime", "Time"] &&
             fieldtype !in TextTypes) ==> r == Ok(value)
    ensures r.Err? ==> (fieldtype == "Date" || fieldtype == "Datetime") && Truthy(value)
  {
    if fieldtype in ["Currency", "Float", "Percent"] then Ok(VReal(Flt(value)))
    else if fieldtype in ["Int", "Check"] then Ok(VInt(Cint(Sbool(value))))
    else if fieldtype in TextTypes then Ok(Cstr(value))
    else if fieldtype == "Date" then
      if Truthy(value) then (var d :- GetDate(value); Ok(VDate(d))) else Ok(VDate(Date(1, 1, 1)))
    else if fieldtype == "Datetime" then
      if !Truthy(value) then Ok(VDatetime(Date(1, 1, 1), 0))
      else if value.VDatetime? then Ok(value)
      else if value.VStr? then
        if ParseIsoDatetime(value.s).Some? then Ok(VDatetime(ParseIsoDatetime(value.s).value.0, ParseIsoDatetime(value.s).value.1))
        else Err("ValueError: invalid datetime " + value.s)
      else (var d :- GetDate(value); Ok(VDatetime(d, 0)))
    else if fieldtype == "Time" then Ok(VDuration(GetTimedelta(value)))
    else Ok(value)
  }

  // ---------------------------------------------------------------- ISO spellings

  /** `YYYY-MM-DD`, as `str(date)` writes a date of the years 1 to 9999. */
  function FormatIsoDate(d: Date): string
    requires ValidDate(d)
  {
    Padded(d.year, 4) + "-" + Padded(d.month, 2) + "-" + Padded(d.day, 2)
  }

  /** `HH:MM:SS` of a time of day given in seconds since midnight. */
  function FormatIsoTime(t: nat): string {
    ClockSpelling(t / 3600, t % 3600 / 60, t % 60)
  }

  function ClockSpelling(h: nat, m: nat, sec: nat): string {
    Padded(h, 2) + ":" + Padded(m, 2) + ":" + Padded(sec, 2)
  }

  /** `YYYY-MM-DD HH:MM:SS`, the database spelling of a datetime. */
  function FormatIsoDatetime(d: Date, t: nat): string
    requires ValidDate(d)
  {
    FormatIsoDate(d) + " " + FormatIsoTime(t)
  }

  /** Every valid date of a four-digit year reads back from its spelling. */
  lemma IsoDateRoundTrip(d: Date)
    requires ValidDate(d) && d.year < 10000
    ensures ParseIsoDate(FormatIsoDate(d)) == Some(d)
  {
    var s := FormatIsoDate(d);
    assert s[..4] == Padded(d.year, 4) && s[5..7] == Padded(d.month, 2) && s[8..] == Padded(d.day, 2);
    assert Pow10(4) == 10000 && Pow10(2) == 100;
    DigitsOfPadded(d.year, 4);
    DigitsOfPadded(d.month, 2);
    DigitsOfPadded(d.day, 2);
  }

  /** Conversely, the only strings read as a date are the spellings of that date. */
  lemma IsoDateOnlySpelling(s: string)
    requires ParseIsoDate(s).Some?
    ensures ParseIsoDate(s).value.year < 10000
    ensures FormatIsoDate(ParseIsoDate(s).value) == s
  {
    var d := Date(DigitsValue(s[..4]), DigitsValue(s[5..7]), DigitsValue(s[8..]));
    assert ParseIsoDate(s) == Some(d);
    PaddedOfDigits(s[..4]);
    PaddedOfDigits(s[5..7]);
    PaddedOfDigits(s[8..]);
    assert Pow10(4) == 10000;
    calc {
      FormatIsoDate(d);
      Padded(d.year, 4) + "-" + Padded(d.month, 2) + "-" + Padded(d.day, 2);
      s[..4] + "-" + s[5..7] + "-" + s[8..];
      s;
    }
  }

  /** Every time of day reads back from its spelling. */
  lemma IsoTimeRoundTrip(t: nat)
    requires t < 86400
    ensures ParseIsoTime(FormatIsoTime(t)) == Some(t)
  {
    var h, m, sec := t / 3600, t % 3600 / 60, t % 60;
    ClockFields(t);
    ParseClock(h, m, sec);
  }

  /** Conversely, the only strings read as a time are the spellings of that time. */
  lemma IsoTimeOnlySpelling(s: string)
    requires ParseIsoTime(s).Some?
    ensures FormatIsoTime(ParseIsoTime(s).value) == s
  {
    ClockOfSpelling(s);
    FormatClock(DigitsValue(s[..2]), DigitsValue(s[3..5]), DigitsValue(s[6..]), ParseIsoTime(s).value);
  }

  /** A clock-shaped string of digits is the spelling of its three fields. */
  lemma ClockOfSpelling(s: string)
    requires |s| == 8 && s[2] == ':' && s[5] == ':'
    requires AllDigits(s[..2]) && AllDigits(s[3..5]) && AllDigits(s[6..])
    ensures ClockSpelling(DigitsValue(s[..2]), DigitsValue(s[3..5]), DigitsValue(s[6..])) == s
    ensures ParseIsoTime(s).Some? ==> DigitsValue(s[..2]) < 24 && DigitsValue(s[3..5]) < 60 && DigitsValue(s[6..]) < 60
    ensures ParseIsoTime(s).Some? ==> ParseIsoTime(s).value == DigitsValue(s[..2]) * 3600 + DigitsValue(s[3..5]) * 60 + DigitsValue(s[6..])
  {
    PaddedOfDigits(s[..2]);
    PaddedOfDigits(s[3..5]);
    PaddedOfDigits(s[6..]);
    assert s == s[..2] + ":" + s[3..5] + ":" + s[6..];
  }

  /** The clock spelling of hours, minutes and seconds reads back as their total. */
  lemma ParseClock(h: nat, m: nat, sec: nat)
    requires h < 24 && m < 60 && sec < 60
    ensures ParseIsoTime(ClockSpelling(h, m, sec)) == Some(h * 3600 + m * 60 + sec)
  {
    var s := ClockSpelling(h, m, sec);
    assert s[..2] == Padded(h, 2) && s[3..5] == Padded(m, 2) && s[6..] == Padded(sec, 2);
    assert Pow10(2) == 100;
    DigitsOfPadded(h, 2);
    DigitsOfPadded(m, 2);
    DigitsOfPadded(sec, 2);
  }

  /** The total of hours, minutes and seconds is spelled with those fields. */
  lemma FormatClock(h: nat, m: nat, sec: nat, t: nat)
    requires h < 24 && m < 60 && sec < 60 && t == h * 3600 + m * 60 + sec
    ensures FormatIsoTime(t) == ClockSpelling(h, m, sec)
  {
    SplitClock(h, m, sec);
  }

  /** A time of day put together from hours, minutes and seconds splits back into them. */
  lemma SplitClock(h: nat, m: nat, sec: nat)
    requires h < 24 && m < 60 && sec < 60
    ensures (h * 3600 + m * 60 + sec) / 3600 == h
    ensures (h * 3600 + m * 60 + sec) % 3600 / 60 == m
    ensures (h * 3600 + m * 60 + sec) % 60 == sec
  {
    var t := h * 3600 + m * 60 + sec;
    assert 0 <= m * 60 + sec < 3600;
    assert t / 3600 == h && t % 3600 == m * 60 + sec;
    assert (m * 60 + sec) / 60 == m && (m * 60 + sec) % 60 == sec;
    assert t == (h * 60 + m) * 60 + sec;
  }

  /** Hours, minutes and seconds put a time of day back together. */
  lemma ClockFields(t: nat)
    ensures t == t / 3600 * 3600 + t % 3600 / 60 * 60 + t % 60
  {
    assert t == t / 3600 * 3600 + t % 3600;
    assert t % 3600 == t % 3600 / 60 * 60 + t % 3600 % 60;
    assert t % 3600 % 60 == t % 60;
  }

  /** A datetime reads back from its database spelling. */
  lemma IsoDatetimeRoundTrip(d: Date, t: nat)
    requires ValidDate(d) && d.year < 10000 && t < 86400
    ensures ParseIsoDatetime(FormatIsoDatetime(d, t)) == Some((d, t))
  {
    var ds, ts := FormatIsoDate(d), FormatIsoTime(t);
    var s := ds + " " + ts;
    assert |ds| == 10 && |ts| == 8;
    assert s[..10] == ds && s[10] == ' ' && s[11..] == ts;
    IsoDateRoundTrip(d);
    IsoTimeRoundTrip(t);
    assert ParseIsoDatetime(s) == Some((d, t));
  }

  /** Conversely, a string read as a datetime is the spelling of that datetime, or of its
      date alone when the time is midnight. */
  lemma IsoDatetimeOnlySpelling(s: string)
    requires ParseIsoDatetime(s).Some?
    ensures var (d, t) := ParseIsoDatetime(s).value;
            s == FormatIsoDatetime(d, t) || (s == FormatIsoDate(d) && t == 0)
  {
    if |s| == 19 && s[10] == ' ' && ParseIsoDate(s[..10]).Some? && ParseIsoTime(s[11..]).Some? {
      IsoDateOnlySpelling(s[..10]);
      IsoTimeOnlySpelling(s[11..]);
      assert s == s[..10] + " " + s[11..];
    } else {
      IsoDateOnlySpelling(s);
    }
  }

  /** A datetime field reads the database spelling of a date and time. */
  lemma DatetimeSpelling()
    ensures Cast("Datetime", VStr("2025-01-31 10:05:00")) == Ok(VDatetime(Date(2025, 1, 31), 36300))
  {
    var s := "2025-01-31 10:05:00";
    assert s[..10] == "2025-01-31" && s[11..] == "10:05:00";
    DateSpelling();
    TimeSpelling();
    assert ParseIsoDatetime(s) == Some((Date(2025, 1, 31), 36300));
    assert Truthy(VStr(s));
  }

  lemma DateSpelling()
    ensures ParseIsoDate("2025-01-31") == Some(Date(2025, 1, 31))
  {
    var d := Date(2025, 1, 31);
    assert ValidDate(d);
    assert FormatIsoDate(d) == "2025-01-31";
    IsoDateRoundTrip(d);
  }

  lemma TimeSpelling()
    ensures ParseIsoTime("10:05:00") == Some(36300)
  {
    assert 36300 / 3600 == 10 && 36300 % 3600 / 60 == 5 && 36300 % 60 == 0;
    assert Padded(10, 2) == "10" && Padded(5, 2) == "05" && Padded(0, 2) == "00";
    assert FormatIsoTime(36300) == "10:05:00";
    IsoTimeRoundTrip(36300);
  }

  /** A check field reads the usual spellings of a boolean as 0 or 1. */
  lemma CheckSpellings(s: string)
    requires Lower(s) == "true" || Lower(s) == "false"
    ensures Cast("Check", VStr(s)) == Ok(VInt(if Lower(s) == "true" then 1 else 0))
  {
  }

  /** Casting is stable: a second cast to the same type changes nothing, for every type but
      the date types fed with an unreadable string (which already failed). */
  lemma CastIdempotent(fieldtype: string, value: Value)
    requires Cast(fieldtype, value).Ok?
    requires fieldtype != "Time"
    ensures Cast(fieldtype, Cast(fieldtype, value).value) == Cast(fieldtype, value)
  {
  }
}

=== FILE: wms_task.dfy ===
/** WMS Task actions offered to the mobile user in `get_task_details`, and the guard of
    the extend-request decisions. */
module WmsTask {
  import opened Api

  predicate IsTaskAdmin(roles: seq<string>) {
    "WMS Admin" in roles || "System Manager" in roles
  }

  /** The action flags added to the task. */
  datatype TaskActions = TaskActions(edit: bool, completeAction: bool, extendAction: bool,
                                     extendWorkflowAction: bool, reopenAction: bool)

  /** Statuses from which the assignee may complete the task. */
  const CompletableStatuses := ["Not Yet Due", "Due Today", "Without Due Date", "Overdue"]

  /** The list as written in the source: two entries carry a leading space and match no
      real status. */
  const CompletableStatusesAsWritten := ["Not Yet Due", " Due Today", " Without Due Date", "Overdue"]

  /** The flag table, parameterised by the list of completable statuses. */
  function ActionsWith(completable: seq<string>, status: string, assignTo: string, user: string, roles: seq<string>)
    : (r: TaskActions)
    ensures r.edit <==> IsTaskAdmin(roles)
    ensures r.completeAction <==> status != "Extend Required" && assignTo == user && status in completable
    ensures r.extendAction <==> status != "Extend Required" && assignTo == user && status != "Overdue"
    ensures r.extendWorkflowAction <==> status == "Extend Required" && IsTaskAdmin(roles)
    ensures r.reopenAction <==> (status == "Late" || status == "Ontime") && IsTaskAdmin(roles)
  {
    var mine := status != "Extend Required" && assignTo == user;
    TaskActions(IsTaskAdmin(roles),
                mine && status in completable,
                mine && status != "Overdue",
                status == "Extend Required" && IsTaskAdmin(roles),
                (status == "Late" || status == "Ontime") && IsTaskAdmin(roles))
  }

  /** `get_task_details` with the evidently intended status list. */
  function GetTaskActions(status: string, assignTo: string, user: string, roles: seq<string>): (r: TaskActions)
    ensures r.completeAction <==> assignTo == user && status in CompletableStatuses
    ensures r == ActionsWith(CompletableStatuses, status, assignTo, user, roles)
  {
    ActionsWith(CompletableStatuses, status, assignTo, user, roles)
  }

  /** `get_task_details` as written. */
  function GetTaskActionsAsWritten(status: string, assignTo: string, user: string, roles: seq<string>): (r: TaskActions)
    ensures r.completeAction <==> assignTo == user && (status == "Not Yet Due" || status == "Overdue" ||
                                                       status == " Due Today" || status == " Without Due Date")
  {
    ActionsWith(CompletableStatusesAsWritten, status, assignTo, user, roles)
  }

  /** The assignee of a task due today is offered completion by the intended table but
      not by the code as written; the two agree on every other flag. */
  lemma DueTodayNotCompletableAsWritten(user: string, roles: seq<string>)
    ensures GetTaskActions("Due Today", user, user, roles).completeAction
    ensures !GetTaskActionsAsWritten("Due Today", user, user, roles).completeAction
    ensures GetTaskActionsAsWritten("Due Today", user, user, roles) ==
            GetTaskActions("Due Today", user, user, roles).(completeAction := false)
  {
  }

  /** The decisions are mutually exclusive by status: a task awaiting an extension
      decision offers the assignee nothing, and a task that can be reopened offers no
      extension workflow. */
  lemma ActionsExclusive(status: string, assignTo: string, user: string, roles: seq<string>)
    ensures var a := GetTaskActions(status, assignTo, user, roles);
            !(a.extendWorkflowAction && (a.completeAction || a.extendAction)) &&
            !(a.reopenAction && a.extendWorkflowAction) &&
            !(a.reopenAction && a.completeAction)
  {
  }

  /** `approve_extend_request` / `reject_extend_request`: only a task in "Extend Required"
      reaches the decision of the WMS app. */
  function DecideExtendRequest(status: string, approve: bool): (r: Response)
    ensures r.code == 200 <==> status == "Extend Required"
    ensures status != "Extend Required" ==> r == Response(500, "Invalid action")
  {
    if status != "Extend Required" then Response(500, "Invalid action")
    else if approve then Response(200, "Request approved successfully")
    else Response(200, "Request rejected successfully")
  }
}

=== FILE: work_progress.dfy ===
/** Work Progress Entry endpoints: the role-based narrowing of the entry list and the
    creation of an entry for the employee's sales order. */
module WorkProgress {
  import opened Wrappers
  import opened Text

  /** The employee fields these endpoints read; `None` when the user has no Employee. */
  datatype EmployeeDetails = EmployeeDetails(name: Option<string>, salesOrder: Option<string>,
                                             businessVertical: Option<string>)

  /** List filters: field name to the required value (`None` matches an unset field). */
  type Filters = map<string, Option<string>>

  /** The role branches, once the user is let through: Admin sees everything, Manager
      their business vertical, User their own order within it. */
  function NarrowByRole(roles: seq<string>, filters: Filters, emp: EmployeeDetails): (r: Filters)
    ensures "WPE Admin" in roles ==> r == filters
    ensures "WPE Admin" !in roles && "WPE Manager" in roles ==> r == filters["business_vertical" := emp.businessVertical]
    ensures "WPE Admin" !in roles && "WPE Manager" !in roles && "WPE User" in roles ==>
              r == filters["order_no" := emp.salesOrder]["business_vertical" := emp.businessVertical]
    ensures r.Keys <= filters.Keys + {"order_no", "business_vertical"}
  {
    if "WPE Admin" in roles then filters
    else if "WPE Manager" in roles then filters["business_vertical" := emp.businessVertical]
    else if "WPE User" in roles then filters["order_no" := emp.salesOrder]["business_vertical" := emp.businessVertical]
    else filters
  }

  predicate AnyWpeRole(roles: seq<string>) {
    "WPE Admin" in roles || "WPE Manager" in roles || "WPE User" in roles
  }

  predicate AllWpeRoles(roles: seq<string>) {
    "WPE Admin" in roles && "WPE Manager" in roles && "WPE User" in roles
  }

  /** `get_work_progress_list` with the evidently intended gate: a user with none of the
      three roles gets the empty list (`None`); anyone else gets their role's filters. */
  function WorkProgressFilters(roles: seq<string>, filters: Filters, emp: EmployeeDetails): (r: Option<Filters>)
    ensures r.None? <==> !AnyWpeRole(roles)
    ensures r.Some? ==> r.value == NarrowByRole(roles, filters, emp)
    ensures r.Some? && "WPE Admin" !in roles ==> "business_vertical" in r.value && r.value["business_vertical"] == emp.businessVertical
  {
    if !AnyWpeRole(roles) then None else Some(NarrowByRole(roles, filters, emp))
  }

  /** As written, the gate is `not Admin or not Manager or not User`: only users with all
      three roles get past it, and they always take the Admin branch. */
  function WorkProgressFiltersAsWritten(roles: seq<string>, filters: Filters, emp: EmployeeDetails): (r: Option<Filters>)
    ensures r.None? <==> !AllWpeRoles(roles)
    ensures r.Some? ==> r.value == filters
  {
    if "WPE Admin" !in roles || "WPE Manager" !in roles || "WPE User" !in roles then None
    else Some(NarrowByRole(roles, filters, emp))
  }

  /** A plain WPE Manager sees nothing as written, and their business vertical as intended. */
  lemma ManagerLockedOutAsWritten(filters: Filters, emp: EmployeeDetails)
    ensures WorkProgressFiltersAsWritten(["WPE Manager"], filters, emp).None?
    ensures WorkProgressFilters(["WPE Manager"], filters, emp) == Some(filters["business_vertical" := emp.businessVertical])
  {
  }

  /** The two gates agree exactly for users who hold all three roles or none of them. */
  lemma GatesAgree(roles: seq<string>, filters: Filters, emp: EmployeeDetails)
    requires AllWpeRoles(roles) || !AnyWpeRole(roles)
    ensures WorkProgressFiltersAsWritten(roles, filters, emp) == WorkProgressFilters(roles, filters, emp)
  {
  }

  // ---------------------------------------------------------------- create

  datatype WorkProgressEntry = WorkProgressEntry(employee: string, businessVertical: Option<string>, orderNo: string,
                                                 item: string, rate: real, noOfWelds: real)

  /** `get_sales_order_item_rate`: the item's rate on the order, 0 when it has none. */
  function ItemRate(rates: map<(string, string), real>, order: string, item: string): real {
    if (order, item) in rates then rates[(order, item)] else 0.0
  }

  /** `create_work_progress_entry`: an item is required, then an Employee for the user,
      then a sales order on it. A missing quantity is 0. */
  function CreateWorkProgressEntry(item: Option<string>, qty: Option<real>, emp: EmployeeDetails,
                                   rates: map<(string, string), real>): (r: Result<WorkProgressEntry>)
    ensures r.Ok? <==> Truthy(item) && Truthy(emp.name) && Truthy(emp.salesOrder)
    ensures !Truthy(item) ==> r == Err("Item is required")
    ensures r.Ok? ==> r.value.employee == emp.name.value && r.value.orderNo == emp.salesOrder.value &&
                      r.value.item == item.value && r.value.businessVertical == emp.businessVertical
    ensures r.Ok? ==> r.value.rate == ItemRate(rates, emp.salesOrder.value, item.value)
    ensures r.Ok? ==> r.value.noOfWelds == qty.GetOr(0.0)
  {
    if !Truthy(item) then Err("Item is required")
    else if !Truthy(emp.name) then Err("Employee not found")
    else if !Truthy(emp.salesOrder) then Err("Order No is not defined in employee")
    else Ok(WorkProgressEntry(emp.name.value, emp.businessVertical, emp.salesOrder.value, item.value,
                              ItemRate(rates, emp.salesOrder.value, item.value), qty.GetOr(0.0)))
  }

  /** An entry's order and item always name a rate lookup that was made: an item the
      order does not list is recorded at rate 0. */
  lemma UnlistedItemAtZero(item: string, qty: Option<real>, emp: EmployeeDetails, rates: map<(string, string), real>)
    requires item != "" && Truthy(emp.name) && Truthy(emp.salesOrder)
    requires (emp.salesOrder.value, item) !in rates
    ensures CreateWorkProgressEntry(Some(item), qty, emp, rates).Ok?
    ensures CreateWorkProgressEntry(Some(item), qty, emp, rates).value.rate == 0.0
  {
  }
}

=== FILE: worker_attendance.dfy ===
/** Attendance for staff of type "Worker": the Site rule (any log means Present), the
    rule elsewhere (holiday gate, IN and OUT both needed), and the check-in time
    clamping to the location's shift bounds. */
module WorkerAttendance {
  import opened Wrappers
  import opened Clock
  import opened CheckinLog
  import opened ShiftRules
  import opened AttendanceRecord
  import AO = AllowedOvertime

  /** An Allowed Overtime entry for the day with `overtime_allowed` = "Yes". */
  predicate OvertimePermits(ot: Option<AO.Entry>) {
    ot.Some? && ot.value.overtimeAllowed == "Yes"
  }

  predicate EarlyEntryPermitted(ot: Option<AO.Entry>) {
    ot.Some? && ot.value.earlyEntryAllowed == "Yes"
  }

  predicate LateExitPermitted(ot: Option<AO.Entry>) {
    ot.Some? && ot.value.lateExitAllowed == "Yes"
  }

  /** Worker at Site: any row of the day, approved or not, gives Present with no hours;
      none gives Absent. */
  function ProcessWorkerSite(logs: seq<Log>): (r: DayResult)
    ensures r.Processed? <==> |logs| > 0
    ensures r.MarkedAbsent? <==> |logs| == 0
    ensures (r.Processed? || r.MarkedAbsent?) ==>
              !r.record.lateEntry && !r.record.earlyExit && r.record.workedSeconds == 0 &&
              (r.record.status == Present <==> r.Processed?)
  {
    if |logs| > 0 then Processed(NewAttendance(Present, false, false, 0, WorkerSiteCheckIn))
    else MarkedAbsent(AbsentRecord(WorkerSiteNoCheckIn))
  }

  /** Worker elsewhere. `holiday` and `overtime` are the holiday-list answer and the
      Allowed Overtime entry for the day. */
  function ProcessWorkerNonSite(holiday: bool, overtime: Option<AO.Entry>, logs: seq<Log>): (r: DayResult)
    ensures !r.Failed?
    ensures r.Skipped? <==> (holiday && !OvertimePermits(overtime)) || AnyPending(logs)
    ensures r.MarkedAbsent? <==> !r.Skipped? && (!HasIn(logs) || !HasOut(logs))
    ensures r.MarkedAbsent? ==> r.record.status == Absent && r.record.workedSeconds == 0
    ensures r.Processed? ==>
              r.record.status == Present && !r.record.lateEntry && !r.record.earlyExit &&
              FirstIn(logs).value + r.record.workedSeconds >= LastOut(logs).value &&
              (r.record.workedSeconds > 0 ==> FirstIn(logs).value + r.record.workedSeconds == LastOut(logs).value)
  {
    if holiday && !OvertimePermits(overtime) then Skipped
    else if AnyPending(logs) then Skipped
    else
      var checkIn := FirstIn(logs);
      var checkOut := LastOut(logs);
      if checkIn.None? then MarkedAbsent(AbsentRecord(WorkerNoCheckIn))
      else if checkOut.None? then MarkedAbsent(AbsentRecord(WorkerCheckInOnly))
      else Processed(NewAttendance(Present, false, false, WorkedSeconds(checkIn, checkOut), WorkerHours))
  }

  /** `run_worker_attendance`: routes on the location text. */
  function RunWorkerAttendance(location: string, holiday: bool, overtime: Option<AO.Entry>, logs: seq<Log>): (r: DayResult)
    ensures location == "Site" ==> r == ProcessWorkerSite(logs)
    ensures location != "Site" ==> r == ProcessWorkerNonSite(holiday, overtime, logs)
    ensures location == "Site" ==> (r.Processed? <==> |logs| > 0)
    ensures location != "Site" && ((holiday && !OvertimePermits(overtime)) || AnyPending(logs)) ==> r.Skipped?
    ensures !r.Failed?
  {
    if location == "Site" then ProcessWorkerSite(logs) else ProcessWorkerNonSite(holiday, overtime, logs)
  }

  // ---------------------------------------------------------------- check-in validation

  datatype CheckinMessage =
    | NoMessage
    | OnLeaveToday
    | EarlyCheckInAdjusted(shiftStart: TimeOfDay)
    | LateCheckOutAdjusted(shiftEnd: TimeOfDay)

  /** `(is_valid, message, adjusted_time)`. */
  datatype Validation = Validation(valid: bool, message: CheckinMessage, time: Option<Instant>)

  predicate Exempt(staffType: string, location: string) {
    staffType != "Worker" || location == "Site"
  }

  predicate ClampsIn(logType: LogType, t: Instant, settings: LocationRules, overtime: Option<AO.Entry>) {
    logType == In && Active(settings.shiftStartTime) && TimeOf(t) < settings.shiftStartTime.value &&
    !EarlyEntryPermitted(overtime)
  }

  predicate ClampsOut(logType: LogType, t: Instant, settings: LocationRules, overtime: Option<AO.Entry>) {
    logType == Out && Active(settings.shiftEndTime) && TimeOf(t) > settings.shiftEndTime.value &&
    !LateExitPermitted(overtime)
  }

  /** `validate_worker_checkin`. `now` stands for `now_datetime()` when no time is given;
      `settings` is the employee's ESS Location (None when the location is empty or has
      no document); `holiday` and `overtime` are the answers for the day of the time. */
  function ValidateWorkerCheckin(staffType: string, location: string, logType: LogType, time: Option<Instant>,
                                 now: Instant, settings: Option<LocationRules>, holiday: bool,
                                 overtime: Option<AO.Entry>): (v: Validation)
    ensures Exempt(staffType, location) ==> v == Validation(true, NoMessage, time)
    ensures !Exempt(staffType, location) && settings.None? ==> v == Validation(true, NoMessage, Some(time.GetOr(now)))
    ensures !Exempt(staffType, location) && settings.Some? && holiday && !OvertimePermits(overtime) ==>
              v == Validation(false, OnLeaveToday, None)
    ensures !v.valid ==> v.message == OnLeaveToday && v.time.None?
    ensures !Exempt(staffType, location) && v.valid ==>
              var t := time.GetOr(now);
              v.time.Some? && DayOf(v.time.value) == DayOf(t) &&
              (logType == In ==> t <= v.time.value) &&
              (logType == Out ==> v.time.value <= t) &&
              (v.time.value != t <==> settings.Some? && (ClampsIn(logType, t, settings.value, overtime) ||
                                                         ClampsOut(logType, t, settings.value, overtime)))
    ensures !Exempt(staffType, location) && v.valid && v.time.value != time.GetOr(now) ==>
              (logType == In ==> TimeOf(v.time.value) == settings.value.shiftStartTime.value) &&
              (logType == Out ==> TimeOf(v.time.value) == settings.value.shiftEndTime.value)
  {
    if Exempt(staffType, location) then Validation(true, NoMessage, time)
    else
      var t := time.GetOr(now);
      if settings.None? then Validation(true, NoMessage, Some(t))
      else if holiday && !OvertimePermits(overtime) then Validation(false, OnLeaveToday, None)
      else if ClampsIn(logType, t, settings.value, overtime) then
        var start := settings.value.shiftStartTime.value;
        AtDayOfTimeOf(t);
        SameDayOrder(t, At(DayOf(t), start));
        Validation(true, EarlyCheckInAdjusted(start), Some(At(DayOf(t), start)))
      else if ClampsOut(logType, t, settings.value, overtime) then
        var end := settings.value.shiftEndTime.value;
        AtDayOfTimeOf(t);
        SameDayOrder(At(DayOf(t), end), t);
        Validation(true, LateCheckOutAdjusted(end), Some(At(DayOf(t), end)))
      else Validation(true, NoMessage, Some(t))
  }

  /** Validating an already adjusted time changes nothing more: the clamp is idempotent. */
  lemma ValidateIdempotent(staffType: string, location: string, logType: LogType, time: Option<Instant>,
                           now: Instant, settings: Option<LocationRules>, holiday: bool, overtime: Option<AO.Entry>)
    requires ValidateWorkerCheckin(staffType, location, logType, time, now, settings, holiday, overtime).valid
    ensures var v := ValidateWorkerCheckin(staffType, location, logType, time, now, settings, holiday, overtime);
            ValidateWorkerCheckin(staffType, location, logType, v.time, now, settings, holiday, overtime).time == v.time
  {
    var v := ValidateWorkerCheckin(staffType, location, logType, time, now, settings, holiday, overtime);
    if !Exempt(staffType, location) && settings.Some? {
      var t := time.GetOr(now);
      var u := v.time.value;
      if ClampsIn(logType, t, settings.value, overtime) {
        assert TimeOf(u) == settings.value.shiftStartTime.value;
        assert !ClampsIn(logType, u, settings.value, overtime);
      } else if ClampsOut(logType, t, settings.value, overtime) {
        assert TimeOf(u) == settings.value.shiftEndTime.value;
        assert !ClampsOut(logType, u, settings.value, overtime);
      }
    }
  }
}

=== FILE: wrappers.dfy ===
/** Optional values and error-carrying results shared by every module of the model.
    A Python `None` becomes `None`; a raised exception becomes `Err` with its message. */
module Wrappers {

  datatype Option<+T> = None | Some(value: T) {
    /** The wrapped value, or `default` when absent. */
    function GetOr(default: T): T {
      match this
      case Some(v) => v
      case None => default
    }
  }

  /** The outcome of an operation that either returns a value or raises with a message. */
  datatype Result<+T> = Ok(value: T) | Err(msg: string) {
    predicate IsFailure() {
      Err?
    }

    function PropagateFailure<U>(): Result<U>
      requires Err?
    {
      Err(msg)
    }

    function Extract(): T
      requires Ok?
    {
      value
    }
  }
}
